=== FILE: README.md ===
# COSMIC microproduct submissions: a Dafny model of the portal's core

The portal stores one YAML file per microproduct proposal in the `submissions/`
directory of a GitHub repository. It has three JSON endpoints and three pages:

- `GET /api/storage` lists the directory.
- `POST /api/storage` stores a new proposal under `pending__{date}-{slug}.yaml`.
- `PATCH /api/storage` moves a file to another workflow status by renaming its
  prefix. It deletes the old file and then creates the new one.
- `POST /api/storage/join` adds a person to a proposal's `team_members`. It first
  normalises the list, which may still be the legacy `NAME <EMAIL>` text.
- The submit page checks the form and sends it.
- The landing page counts the proposals per status and shows the five newest
  active ones.
- The browse page renders each proposal's team and runs the join form.

The model follows the code as written. All values are immutable and every
operation is a pure function:

- The repository is a map from path to `(content, sha)` (module `Store`). A
  write or delete that carries a revision marker succeeds only when the stored
  file still has that marker.
- Decoded JSON and YAML are the `Value` datatype (module `JsValue`). It carries
  JavaScript truthiness, `||`, and property access that throws on `null` and
  `undefined`.
- The string built-ins the code relies on are in module `JsText`. They are
  `trim` with the `\s` class, ASCII `toLowerCase`, UTF-16 `length`, `split` on a
  literal, `split(/\r?\n/)`, `join` and decimal rendering.
- Modules `Filenames`, `Schema`, `Team`, `StorageRoute`, `JoinRoute`,
  `SubmitPage`, `HomePage` and `BrowsePage` follow the source files.

### Behaviour worth noting

Each of these follows from the source lines cited:

- Every route has one catch-all handler (app/api/storage/route.js:26-31, 69-76
  and 138-145; app/api/storage/join/route.js:64-68). Any failed GitHub call,
  including a read of a file that does not exist, is answered 500.
- `POST` stores the request body as it came, with only `submitted_date` added
  (app/api/storage/route.js:48-62). It runs no schema check, so
  `StorageRoute.CreateSkipsSchema` stores a proposal whose title is one
  character long.
- `GET` returns the raw directory listing and does not read the YAML files
  (app/api/storage/route.js:14-27).
- The join route checks only that `filename` and `name` are truthy
  (app/api/storage/join/route.js:14-16). It never consults `joinSchema`, as
  `JoinRoute.NumericNameSkipsSchema` shows.
- `PATCH` reads the file (app/api/storage/route.js:96-99) before it checks the
  name's shape (lines 102-108). A malformed name that is not stored fails on
  the read and is answered 500 by the catch-all handler
  (`StorageRoute.MalformedMissingNameFailsOnRead`).
- `validateForm` (app/submit/page.tsx:53-72) is defined but never called;
  `handleSubmit` checks only `microproductSchema` (line 116).
  - `validateForm` would demand 2 to 12 weeks (line 63), while the schema allows
    1 to 12 (lib/microproduct-schema.js:35-38)
    (`SubmitPage.OneWeekRejectedByFormOnly`).
- The join route writes the earlier members back as `{name, email}` only
  (app/api/storage/join/route.js:36), so their `joined_date` is lost
  (`JoinRoute.EarlierJoinDatesDropped`).
- A record whose YAML is a top-level list gets the new list as a property
  (app/api/storage/join/route.js:50) that `yaml.dump` does not write, so the
  joiner is lost (`JoinRoute.ListBodyLosesJoiner`).
- A `null` item in a stored `team_members` list makes both the join route
  (app/api/storage/join/route.js:36) and the browse page
  (app/browse/page.tsx:104) throw.
- The rename deletes the old file (app/api/storage/route.js:117-122) before it
  creates the new one (lines 125-130). When the target name is already taken,
  the delete succeeds, the create fails, and the record under the old name is
  gone (`StorageRoute.TakenTargetLosesRecord`).
- The browse page shows every line of a legacy team text, blank lines included
  (app/browse/page.tsx:107-110). The join route drops the blank lines
  (app/api/storage/join/route.js:43) (`BrowsePage.BlankLineShownNotKept`).

## Model

| member | source | states |
|---|---|---|
| Store.Read | app/api/storage/route.js:96-99 | reading a path succeeds exactly when a file is stored there, and yields that file with its revision marker |
| Store.Write | app/api/storage/join/route.js:55-61 | a write with a marker succeeds only over a file carrying that marker; a write without one succeeds only on a free path. On success the path holds the new content, the key set grows by at most that path, and no other file changes |
| Store.Delete | app/api/storage/route.js:117-122 | a delete succeeds exactly when the path holds a file with the given marker; it removes that path and leaves every other file as it was |
| Filenames.Slug | app/api/storage/route.js:43 | the slug has at most 50 characters, all from `[a-z0-9-]`. It never has `--` or `_`. It is a prefix of the lowercased title with its runs collapsed: all of that text when it has at most 50 characters, and its first 50 otherwise |
| Filenames.CollapseRuns | app/api/storage/route.js:43 | replacing each maximal run of characters outside `[a-z0-9]` by one `-` yields only `[a-z0-9-]` and no `--`. The result starts with `-` exactly when the input starts outside the class |
| Filenames.CollapseRunsKeepsAlnums | app/api/storage/route.js:43 | collapsing keeps every letter and digit of the title, in order |
| Filenames.CollapseRunsFixpoint | app/api/storage/route.js:43 | text already made of `[a-z0-9-]` without `--` is left unchanged |
| Filenames.SlugIdempotent | app/api/storage/route.js:43 | slugging a slug gives it back |
| Filenames.SlugExample | app/api/storage/route.js:43 | `Hello, World! 2024` becomes `hello-world-2024` |
| Filenames.CollapseExample | app/api/storage/route.js:43 | each punctuation-and-space run in `hello, world! 2024` becomes one hyphen |
| Filenames.DatePart | app/api/storage/route.js:42 | the date is everything before the first `T` of the ISO timestamp: a prefix of it with no `T`, followed by a `T` when the timestamp has one, and the whole timestamp otherwise |
| Filenames.CreatedFilename | app/api/storage/route.js:44 | a created name starts with `pending__` and ends with `.yaml`, and what follows `pending__` is `{date}-{slug}.yaml` |
| JsText.SplitFirstPiece | app/api/storage/route.js:42 | the first piece of `split(sep)` is the text before the first occurrence of the separator, or the whole text when it does not occur |
| Filenames.CreatedFilenameRenamable | app/api/storage/route.js:42-44 | when the timestamp has no `_`, a created name has exactly one `__`. What precedes it is `pending` and what follows it is `{date}-{slug}.yaml` |
| Filenames.SplitTwo | app/api/storage/route.js:102-103 | splitting on `__` gives exactly two pieces iff the name has one `__` and no later one. The two pieces are the text before and after it |
| Filenames.RenameFor | app/api/storage/route.js:102-111 | a new name exists exactly for names with one `__`. It is the new status, `__`, and the old suffix verbatim, and the old name is its own prefix, `__` and suffix |
| Filenames.RenameJoined | app/api/storage/route.js:110-111 | a name built from an underscore-free prefix and suffix is renamed by swapping the prefix and keeping the suffix |
| Filenames.RenameToCurrentIsIdentity | app/api/storage/route.js:110-111 | renaming to the current prefix gives the same name |
| Filenames.RenameTwice | app/api/storage/route.js:110-111 | renaming to a valid status and then to another status equals renaming directly to the last one |
| Filenames.RenameExample | app/api/storage/route.js:110-111 | `pending__2024-01-01-x.yaml` moved to `approved` becomes `approved__2024-01-01-x.yaml` |
| Filenames.RenameMalformedExample | app/api/storage/route.js:102-108 | a name without `__` has no rename |
| Filenames.ValidStatusesHaveNoUnderscore | app/api/storage/route.js:87 | none of the five statuses contains `_`, so a renamed name still has one `__` |
| Filenames.StatusOf | app/page.tsx:38 | a name's status is the lowercased text before its first `__`, or the whole lowercased name when it has none |
| HomePage.StatusOfOpp | app/page.tsx:38 | an entry without a name has status `''`, and one with a name has the status of that name, which holds no capital letter |
| Filenames.CreatedFilenameIsPending | app/api/storage/route.js:44 | the pages read the status `pending` from every name the `POST` route creates |
| JsText.Trim | app/api/storage/join/route.js:39 | the trimmed text is an infix of the input with only whitespace around it. It is empty iff the input is all whitespace, and otherwise neither starts nor ends with whitespace |
| JsText.TrimPadded | app/api/storage/join/route.js:39 | trimming removes exactly the whitespace padding around unpadded text |
| JsText.SplitLines | app/api/storage/join/route.js:38 | splitting on `\r?\n` gives one more line than there are newlines, and no line contains `\n` |
| JsText.SplitLinesJoin | app/browse/page.tsx:108 | joining the lines with `\n` gives the text back with each `\r\n` written as `\n`, so nothing but the `\r` of a pair is lost |
| JsText.Split | app/api/storage/route.js:102 | splitting on a literal gives at least one piece, the pieces joined by the separator are the input, and the last piece holds no separator |
| JsText.SplitAfterHead | app/api/storage/route.js:102 | when the first occurrence of the separator follows `head`, the split is `head` followed by the split of the rest |
| JsText.FindFrom | app/api/storage/route.js:102 | the search returns the leftmost occurrence at or after the start, or none when there is none |
| JsText.ToLower | app/api/storage/route.js:43 | lowercasing keeps the length and maps each character by itself, `A`-`Z` to `a`-`z` |
| JsText.Utf16Length | lib/microproduct-schema.js:4-6 | a string's JavaScript length is between its code-point count and twice it, and is 0 only for the empty string |
| JsText.NatToStringInjective | app/submit/page.tsx:67 | distinct row indices print as distinct decimal texts |
| Schema.AcceptsMeansStatedBounds | lib/microproduct-schema.js:3-74 | the rule table accepts a value iff it is an object and each of the fifteen fields meets its stated bound, literal list, integer range, email test or optional default |
| Schema.AcceptsUnrolled | lib/microproduct-schema.js:3-74 | acceptance is the conjunction of the fifteen rules, one per field |
| Schema.Accepts | lib/microproduct-schema.js:3-74 | an accepted value is an object that holds every field without a default |
| Schema.FieldOk | lib/microproduct-schema.js:3-74 | `null` never passes a field rule, and a missing field passes only the rules with a default, team_members and dependencies |
| Schema.RuleHolds | lib/microproduct-schema.js:3-74 | a field rule without a default holds only when the field is present |
| Schema.RequiredKeysPresent | lib/microproduct-schema.js:3-74 | when every rule holds, every field without a default is present |
| Schema.FirstFiveRules | lib/microproduct-schema.js:4-27 | title, purpose, deliverable and scope have the raw lengths [10,100], [10,1000], [10,500] and [10,2000], and output_type is one of its six literals |
| Schema.MiddleFiveRules | lib/microproduct-schema.js:29-46 | target_audience is [1,500], releasability is `public` or `cosmic-only`, duration_weeks is an integer in [1,12], milestones is [10,2000] and effort_estimate is [1,300] |
| Schema.LastFiveRules | lib/microproduct-schema.js:48-73 | lead_name is [1,100] and lead_email is a valid email of at most 100. Each member has a name of [1,100] and an email absent, `''` or valid of at most 100. focus_area is one of five, and dependencies is absent or at most 500 |
| Schema.ParseMembers | lib/microproduct-schema.js:57-60 | an absent list parses to `[]`; a list gives one member per item, in order, with the item's name (of length [1,100]) and its email when that is a string, and no email otherwise |
| Schema.ParseSubmission | lib/microproduct-schema.js:3-74 | parsing succeeds exactly for accepted values. Every string field keeps its input text, and the duration keeps its input number, which lies in [1,12]. A present dependencies text is kept and an absent one becomes `""`. An absent team_members becomes `[]`; a list gives one member per item, with the item's name (of length [1,100]) and its email when that is a string |
| Schema.FieldsDecideIndependently | lib/microproduct-schema.js:3-74 | replacing one field of an accepted value keeps it accepted iff the new value passes that field's own rule |
| Schema.KeysDistinct | lib/microproduct-schema.js:3-74 | the fifteen rules are about fifteen different keys |
| Schema.StatusRequestOk | lib/microproduct-schema.js:77-82 | the status schema accepts iff the filename is a non-empty string and the status is one of pending, approved, in-progress, completed, rejected |
| Schema.JoinRequestOk | lib/microproduct-schema.js:84-89 | the join schema accepts iff filename and name are non-empty strings and the email is absent, `''`, or a string that passes the email test |
| StorageRoute.List | app/api/storage/route.js:14-32 | the listing holds exactly the names of the files directly under `submissions/`; it fails (500) exactly when the directory holds no file |
| StorageRoute.Create | app/api/storage/route.js:35-77 | creation succeeds iff the body has a string title and the generated path is free. It then answers the generated name and adds exactly that one path, holding the body plus `submitted_date`, with every other file unchanged. A failure changes nothing |
| StorageRoute.ChangeStatus | app/api/storage/route.js:80-146 | 400 for an invalid status exactly when the body destructures, with no store change. A 400 for a malformed name means the file was read and has no single `__`, and changes nothing. A rename means a valid status, a stored old file, and the new name from the rename rule holding the same content under a key set with the old path replaced by the new one. Conversely, for a valid status and a stored file, a name without a single `__` always gets that 400, and a well-formed name is renamed exactly when its target is the old path or free. A 500 before the delete (no object body, a non-string or unstored name) leaves the store as it was; a 500 for a stored, well-formed name has lost only the old path. Nothing else changes |
| StorageRoute.Move | app/api/storage/route.js:114-130 | delete then create: it succeeds iff the target is the old path or free. On success only the two paths change and the content is kept; on failure the old file is gone and everything else is kept |
| StorageRoute.InvalidStatusTouchesNothing | app/api/storage/route.js:87-93 | a status outside the five is answered 400 for every store, with the store unchanged |
| StorageRoute.MalformedMissingNameFailsOnRead | app/api/storage/route.js:96-108 | a malformed name that is not stored fails on the read (500), before the shape check, and changes nothing |
| StorageRoute.CreateThenChangeStatus | app/api/storage/route.js:42-130 | a proposal the `POST` route has just created can be moved to any status whose target is free. Its date and slug are kept and its content moves with it |
| StorageRoute.CreatedRenameTarget | app/api/storage/route.js:42-111 | a created name has one `__` after `pending`, and its rename target is the new status, `__` and `{date}-{slug}.yaml` |
| StorageRoute.PendingThenMoved | app/api/storage/route.js:102-130 | a file just stored under a pending name moves to the new status with the same content |
| StorageRoute.MoveTargetFree | app/api/storage/route.js:125-130 | after a create, the rename target is free unless it is the created file itself |
| StorageRoute.RenameSucceeds | app/api/storage/route.js:96-130 | a stored, well-formed name with a valid status and a free target is renamed to the rename rule's name with the same content |
| StorageRoute.TakenTargetLosesRecord | app/api/storage/route.js:117-130 | when the target name holds another file, the route answers 500 after the old file is already deleted, and the other file is kept |
| StorageRoute.CreateSkipsSchema | app/api/storage/route.js:35-62 | the route stores a body the schema rejects |
| Team.MatchWithHead | app/api/storage/join/route.js:40 | with group 1 fixed, it finds the `<` where the rest of `\s*<([^>]+)>$` matches, or reports that none exists |
| Team.Search | app/api/storage/join/route.js:40 | the backtracking search returns the longest group 1 for which the pattern matches, or reports that no split matches |
| Team.LegacyMatch | app/api/storage/join/route.js:40 | a match's groups come from a matching split with the longest group 1, as a greedy `(.*)` gives; no match means no split matches |
| Team.LegacyMatchPlain | app/api/storage/join/route.js:40 | `HEAD<ADDR>` with a single-line head and a plain address matches with exactly those groups |
| Team.ParseLine | app/api/storage/join/route.js:39-42 | a line always gives string name and email. A trimmed line that matches the legacy pattern gives its two groups trimmed, as name and email; one that does not match is all name with email `''` |
| Team.ParseLineWithoutAngle | app/api/storage/join/route.js:42 | a trimmed line without `<` is the name and the email is `''` |
| Team.ParseLineWithAddress | app/api/storage/join/route.js:39-41 | a trimmed line `HEAD<ADDR>` gives the trimmed head and the trimmed address |
| Team.ParseEntryLine | app/api/storage/join/route.js:39-41 | the legacy entry `NAME <EMAIL>` reads back as exactly that name and email |
| Team.ParseBareName | app/api/storage/join/route.js:42 | a bare name reads back as itself with email `''` |
| Team.KeepNamed | app/api/storage/join/route.js:43 | the filter keeps only entries of its input with a non-empty name, keeps every such entry, and is no longer than its input |
| Team.KeepNamedOne | app/api/storage/join/route.js:43 | a single entry is kept iff its name is non-empty |
| Team.KeepNamedAppend | app/api/storage/join/route.js:43 | the filter of a concatenation is the concatenation of the filters. With `KeepNamedOne` this fixes the result: the named entries, in input order |
| Team.ParseLines | app/api/storage/join/route.js:38-42 | one entry per line, in order, each the parse of its line |
| Team.MapLines | app/api/storage/join/route.js:38 | mapping keeps the length and puts at each position the parse of that line |
| Team.NormaliseItems | app/api/storage/join/route.js:36 | normalising a list succeeds iff no item is `null` or `undefined`. It then keeps the length and normalises each item in place |
| Team.NormaliseItem | app/api/storage/join/route.js:36 | an item fails iff it is `null` or `undefined`. Its name is a truthy `item.name`, else the item itself. Its email is a truthy `item.email`, else `''` |
| Team.ParseTeam | app/api/storage/join/route.js:34-46 | a falsy value, or one neither list nor string, gives `[]`. A list fails exactly when it holds a `null` or `undefined` item; otherwise each item becomes its normalised entry, in order. A text never fails, gives at most one entry per line, and every name is a non-empty string. A non-empty text gives exactly the parse of its lines |
| Team.ParseText | app/api/storage/join/route.js:37-44 | the text gives at most one entry per line, each with a non-empty string name and a string email |
| Team.ParseTextSingle | app/api/storage/join/route.js:38-43 | a text of one line gives that line's parse when its name is non-empty, and nothing otherwise |
| Team.ParseTextFirstLine | app/api/storage/join/route.js:38-43 | the entries of `a\nb` are those of `a` followed by those of `b`, so the lines are read one by one in order |
| Team.ParseLinesAppend | app/api/storage/join/route.js:38-42 | the parses of two blocks of lines are the parses of the first block followed by those of the second |
| Team.ParseTeamList | app/api/storage/join/route.js:36 | on a list, entry `i` takes `item.name` or the item itself as its name, and `item.email` or `''` as its email |
| Team.MembersToValue | app/api/storage/join/route.js:50 | the written-back list has one `{name, email}` object per entry, in order, carrying that entry's name and email |
| Team.NormaliseStructuredIdempotent | app/api/storage/join/route.js:36 | normalising the written-back form of a list whose names are truthy gives the same list |
| Team.LegacyTextMigrates | app/api/storage/join/route.js:34-50 | for any text, the empty one included, once the parsed entries are written back as a list, normalising them again gives the same entries |
| Team.FalsyItemNotIdempotent | app/api/storage/join/route.js:36 | the item `""` normalises to a member named `""`, whose written-back form does not normalise to itself |
| Team.LegacyTextExample | app/api/storage/join/route.js:37-44 | `Alice <a@x.com>` and `Bob` on two lines give Alice with her address and Bob with `''` |
| JoinRoute.ResponseBody | app/api/storage/join/route.js:14-67 | only the 200 body has a truthy `success`. The 400 body's error is `filename and name are required`, and the 500 body's error is the caught message |
| JoinRoute.ReadRequest | app/api/storage/join/route.js:13 | destructuring fails exactly on `null` or `undefined`. From an object, `filename`, `name` and `email` are its own properties, `undefined` when missing; any other value gives three `undefined`s |
| JoinRoute.DecodeBody | app/api/storage/join/route.js:26-31 | the decoded record is always truthy: a throwing or falsy decode becomes `{}`, and any other value is kept |
| JoinRoute.NewEntry | app/api/storage/join/route.js:49 | the new entry has exactly the keys name, email and joined_date. It holds the given name, the email when it is truthy and `''` otherwise, and the `now` timestamp |
| JoinRoute.AddJoiner | app/api/storage/join/route.js:48-50 | the update succeeds iff normalising succeeds and the record is an object or a list. For an object, only `team_members` changes: it becomes the normalised earlier members followed by exactly the new entry |
| JoinRoute.Prepare | app/api/storage/join/route.js:13-52 | it is 400 exactly when the body destructures but `filename` or `name` is falsy. A plan targets `submissions/{filename}`, which was read, carries the revision marker of that read, and writes the updated record. Conversely, truthy `filename` and `name`, a stored file and an update that succeeds always give a plan |
| JoinRoute.Commit | app/api/storage/join/route.js:55-61 | the write succeeds iff the file still has the marker read. It then changes only that path's content, and otherwise it is 500 with nothing changed |
| JoinRoute.Join | app/api/storage/join/route.js:11-69 | every failure leaves the store unchanged. Success means the plan exists and only the planned path gets the planned content. A request with truthy `filename` and `name` for a stored file whose update succeeds always joins, and writes the planned content to `submissions/{filename}` |
| JoinRoute.MissingFieldsTouchNothing | app/api/storage/join/route.js:14-16 | a falsy filename or name is answered 400 for every store, with the store unchanged |
| JoinRoute.JoinSchemaPassesGuard | app/api/storage/join/route.js:14-16 | every request the join schema accepts gets past the route's own guard |
| JoinRoute.NumericNameSkipsSchema | app/api/storage/join/route.js:14-16 | a numeric name gets past the guard although the join schema rejects it |
| JoinRoute.UndecodableBodyStillJoins | app/api/storage/join/route.js:26-31 | a stored file that does not decode, or decodes to a falsy value, is treated as `{}`. The join succeeds with a team of just the joiner |
| JoinRoute.EarlierJoinDatesDropped | app/api/storage/join/route.js:36 | every earlier member is written back with only the keys name and email |
| JoinRoute.ListBodyLosesJoiner | app/api/storage/join/route.js:50-52 | for a top-level list record, the content written is the list as it was read |
| JoinRoute.StaleReadRefused | app/api/storage/join/route.js:55-61 | when the file changed or vanished between the read and the write, the write fails and the store is left as it is |
| JoinRoute.JoinAgainstSameStore | app/api/storage/join/route.js:18-61 | with no intervening write, reading and writing separately is the route |
| SubmitPage.IsValidEmailMeansShape | app/submit/page.tsx:49-51 | `isValidEmail` holds iff the text matches `^[^\s@]+@[^\s@]+\.[^\s@]+$` at some `@` and `.` |
| SubmitPage.IsValidEmail | app/submit/page.tsx:49-51 | an accepted address has no whitespace, has an `@` that is not its first character, and is at least five characters long |
| SubmitPage.ValidEmailHasShape | app/submit/page.tsx:49-51 | an accepted address has a non-empty local part, one `@`, and a `.` with text on both sides in the domain |
| SubmitPage.ShapeIsValidEmail | app/submit/page.tsx:49-51 | any address matching the pattern is accepted |
| SubmitPage.ShapeHasNoSpace | app/submit/page.tsx:50 | a matching address has no whitespace |
| SubmitPage.ValidateForm | app/submit/page.tsx:53-72 | each field key is reported iff its check fails. A row gets a name key iff its trimmed name is empty and an email key iff its email is non-blank and invalid. No row key is outside the list |
| SubmitPage.FieldErrors | app/submit/page.tsx:55-63 | a field key is reported iff its check fails, with that field's message, and no other key is reported |
| SubmitPage.MemberErrors | app/submit/page.tsx:66-69 | a row's name key is reported iff its trimmed name is empty, and its email key iff its email is non-blank and invalid. Every key names a row of the list and carries the contributor message |
| SubmitPage.NameErrors | app/submit/page.tsx:67 | a name key is reported exactly for the rows whose trimmed name is empty |
| SubmitPage.EmailErrors | app/submit/page.tsx:68 | an email key is reported exactly for the rows whose email is non-blank and invalid |
| SubmitPage.FlaggedRows | app/submit/page.tsx:66-69 | a row key is reported exactly for the flagged rows, with its message |
| SubmitPage.FieldErrorsAt | app/submit/page.tsx:55-63 | a field is reported iff its check fails: trimmed length below 10 or 1, an empty or invalid lead email, or a duration that is not an integer in [2,12] |
| SubmitPage.NameErrorAt | app/submit/page.tsx:67 | a row's name is reported iff its trimmed name is empty |
| SubmitPage.EmailErrorAt | app/submit/page.tsx:68 | a row's email is reported iff it is non-blank and invalid, so a blank email is never reported |
| SubmitPage.RowsInRange | app/submit/page.tsx:66-69 | only rows of the list are reported |
| SubmitPage.PartsApart | app/submit/page.tsx:53-71 | the field checks report no row key and the row checks report no field key |
| SubmitPage.ValidateFormMessage | app/submit/page.tsx:55-68 | each reported key carries its check's message |
| SubmitPage.MemberErrorsMessage | app/submit/page.tsx:67-68 | each row key carries the contributor message |
| SubmitPage.KeyTextInjective | app/submit/page.tsx:55-68 | two keys have the same text in the error record iff they are the same key, so no check overwrites another |
| SubmitPage.MemberKeysAgree | app/submit/page.tsx:67-68 | equal `team_members.i.part` texts name the same row and part |
| SubmitPage.DurationRanges | app/submit/page.tsx:63 | every duration the form accepts is accepted by the schema, and the only one the schema alone accepts is 1 |
| SubmitPage.OneWeekRejectedByFormOnly | app/submit/page.tsx:63 | a one-week duration passes the schema but the form reports it |
| SubmitPage.AddTeamMember | app/submit/page.tsx:87-92 | adding appends one blank row and keeps every earlier row |
| SubmitPage.UpdateTeamMember | app/submit/page.tsx:94-100 | an update exists iff the index is in range. It changes only the given field of that row and keeps the length and every other row |
| SubmitPage.KeepOthers | app/submit/page.tsx:105 | the filter drops exactly the row at the index, and keeps the list when the index is out of range |
| SubmitPage.RemoveTeamMember | app/submit/page.tsx:102-107 | removing a valid index drops exactly that row and keeps the others in order; any other index keeps the list |
| SubmitPage.RemoveUndoesAdd | app/submit/page.tsx:87-107 | removing the row just added restores the list |
| SubmitPage.UpdateWithSameValue | app/submit/page.tsx:94-100 | writing a row's own value back changes nothing |
| SubmitPage.LaterUpdateWins | app/submit/page.tsx:94-100 | of two updates to the same field of the same row, the later one wins |
| SubmitPage.LastWins | app/submit/page.tsx:119-122 | the record has exactly the keys written |
| SubmitPage.LastWinsKeepsLast | app/submit/page.tsx:119-122 | an entry not overwritten later is the value its key keeps |
| SubmitPage.SegmentTexts | app/submit/page.tsx:120 | each path segment is its key, or its position in decimal |
| SubmitPage.PathText | app/submit/page.tsx:120 | a path is joined by `.`: empty for no segment, the segment's text for one, and the first segment, `.` and the rest otherwise |
| SubmitPage.IssueEntries | app/submit/page.tsx:119-121 | one record entry per issue: its joined path and its message |
| SubmitPage.IssueErrors | app/submit/page.tsx:117-122 | the field errors hold exactly the joined paths of the issues. Each path shows the message of its last issue |
| SubmitPage.BodyData | app/submit/page.tsx:135-139 | the response body is used exactly when it is declared JSON and parses, and is then the parsed value; otherwise it is `null` |
| SubmitPage.DetailEntries | app/submit/page.tsx:184-187 | `details` is written without error iff no item is `null` or `undefined`. It then holds exactly the entries of items with a truthy `field` |
| SubmitPage.DetailEntry | app/submit/page.tsx:186 | one detail writes one entry, its `field` as text and its `message`, exactly when its `field` is truthy |
| SubmitPage.DetailEntriesCons | app/submit/page.tsx:186 | the entries of a list are its first detail's entry followed by the entries of the rest |
| SubmitPage.DetailEntriesOne | app/submit/page.tsx:186 | one detail gives exactly its own entry |
| SubmitPage.DetailEntriesAppend | app/submit/page.tsx:186 | the entries of a concatenation are the entries of its parts in order, so the details are written one by one |
| SubmitPage.HandleSubmit | app/submit/page.tsx:109-197 | schema issues block the request and show their errors. With none, success means `response.ok` or a truthy `success`. A rejection means the response was not ok. It shows a truthy `error` as its message, and `Submission failed (status)` otherwise. Its field errors are the last-wins record of the `details` entries when `details` is a list, and empty otherwise. A crash means a `null` or `undefined` details item |
| SubmitPage.LaterDetailWins | app/submit/page.tsx:184-187 | of two details on the same field, the field shows the later message |
| SubmitPage.TwoDetailsSameField | app/submit/page.tsx:186 | two details on one field write two entries in order |
| HomePage.Count | app/page.tsx:38-41 | a counter never exceeds the listing, and is 0 iff no entry has that status |
| HomePage.StatsOf | app/page.tsx:36-42 | the total is the listing's length and each counter is the count of its status, so pending, approved, in-progress and completed never add up to more than the total |
| HomePage.CountsWithinTotal | app/page.tsx:36-42 | counters for four distinct statuses add up to at most the number of entries |
| HomePage.CountAppend | app/page.tsx:38-41 | one more entry adds one to its own status's counter and nothing to the others |
| HomePage.NewSubmissionIsPending | app/page.tsx:36-42 | a newly created proposal adds one to the total and to pending, and leaves the other counters alone |
| HomePage.FindDate | app/page.tsx:46 | the search returns the leftmost `\d{4}-\d{2}-\d{2}` match from the start position, or none when there is none |
| HomePage.TimeOf | app/page.tsx:58-60 | an entry without a date gets time 0, and one with a date gets the time of that date |
| HomePage.DateText | app/page.tsx:44-48 | a date is read iff the name is present and contains the pattern. The text read is the 10 characters of the leftmost match |
| HomePage.DateBehindNoDigits | app/page.tsx:46 | behind a digit-free prefix, the date read is the one starting the rest |
| HomePage.CreatedFilenameDate | app/page.tsx:44-48 | the landing page reads back the creation date that the `POST` route put into the name |
| HomePage.ShownOnly | app/page.tsx:51-54 | the filter keeps only approved, in-progress and completed entries, drawn from the listing. Each shown entry is kept as many times as it occurs, and no other entry is kept |
| HomePage.ShownOnlyAppend | app/page.tsx:51-54 | the filter of a concatenation is the concatenation of the filters, so kept entries stay in listing order |
| HomePage.ShownOnlyKeepsShown | app/page.tsx:51-54 | every entry with a shown status survives the filter |
| HomePage.Eligible | app/page.tsx:51-59 | the candidates are exactly the shown entries of the listing, in listing order and each as often as it occurs. Each carries the time of its date, or 0 without one |
| HomePage.EligibleKeepsShown | app/page.tsx:51-59 | every shown entry is a candidate, with its date or time 0 |
| HomePage.Insert | app/page.tsx:60 | insertion keeps the list newest first and adds exactly the one item |
| HomePage.SortNewestFirst | app/page.tsx:60 | the sort returns a newest-first permutation of its input |
| HomePage.WithTime | app/page.tsx:60 | the entries with a given time are drawn from the list and carry that time |
| HomePage.WithTimeAppend | app/page.tsx:60 | picking the entries with a given time works entry by entry |
| HomePage.NothingDatedAfterHead | app/page.tsx:60 | a newest-first list whose head is older than a time has no entry with that time |
| HomePage.InsertAfterTies | app/page.tsx:60 | inserting an item puts it after every item with the same time, and keeps the order of those items |
| HomePage.SortIsStable | app/page.tsx:60 | the sort is stable: entries with the same time come out in the order they went in |
| HomePage.InsertOldest | app/page.tsx:60 | an item no newer than any other goes last |
| HomePage.SortKeepsSorted | app/page.tsx:60 | a list already newest first is left as it is |
| HomePage.FirstFive | app/page.tsx:61 | the slice is a prefix of length min(n, 5) and stays newest first |
| HomePage.FirstFiveKeepsNewest | app/page.tsx:60-61 | what the slice drops from a newest-first list is no newer than anything it keeps |
| HomePage.RecentOf | app/page.tsx:50-61 | `recent` has at most five entries, is newest first, and contains only shown entries of the listing |
| HomePage.RecentIsNewest | app/page.tsx:50-61 | `recent` holds min(n, 5) of the n candidates, and every candidate left out is no newer than every one shown |
| BrowsePage.KeepClassChars | app/browse/page.tsx:130 | the replacement keeps only characters of `[a-z0-9-_]`, keeps every such character the status holds, and leaves a clean text unchanged |
| BrowsePage.KeepClassCharsOne | app/browse/page.tsx:130 | one character is kept iff it is in `[a-z0-9-_]` |
| BrowsePage.KeepClassCharsAppend | app/browse/page.tsx:130 | the replacement works character by character: on a concatenation it is the concatenation of the results, so kept characters stay in order |
| BrowsePage.StatusClass | app/browse/page.tsx:130 | the class is the status with every character outside `[a-z0-9-_]` removed, or `unknown` when nothing is left. So it is non-empty and uses only `[a-z0-9-_]`, and a clean status is its own class |
| BrowsePage.StatusClassIdempotent | app/browse/page.tsx:130 | a class is its own class |
| BrowsePage.ValidStatusClasses | app/browse/page.tsx:129-130 | each of the five statuses is its own class |
| BrowsePage.EntryStatusClass | app/browse/page.tsx:129-130 | every card gets a non-empty class from `[a-z0-9-_]` |
| BrowsePage.CreatedEntryIsPending | app/browse/page.tsx:129-130 | the card of a newly created proposal has the class `pending` |
| BrowsePage.MemberLineOf | app/browse/page.tsx:104 | a line fails iff the item is `null` or `undefined`. It shows `m.name` and, only when the email is truthy, ` <email>` |
| BrowsePage.MemberLinesOf | app/browse/page.tsx:102-105 | a list team renders without error iff no item is `null` or `undefined`, one line per item in order |
| BrowsePage.RenderTeam | app/browse/page.tsx:98-113 | a falsy record, a falsy team or a team that is neither list nor string renders nothing. A list with a `null` or `undefined` item throws, and any other list gives exactly the member lines of its items. A non-empty text gives one line per `\r?\n` segment |
| BrowsePage.TextTeamLosesNothing | app/browse/page.tsx:107-110 | the lines of a text team joined by `\n` give back the whole text, up to `\r\n` pairs |
| BrowsePage.TextTeamShowsAllLines | app/browse/page.tsx:107-110 | the card shows at least as many lines as the join route keeps members |
| BrowsePage.BlankLineDropped | app/browse/page.tsx:107-110 | a text with an empty line keeps fewer members in the join route than the card shows lines |
| BrowsePage.TextTeamParsed | app/api/storage/join/route.js:37-43 | a non-empty text team is read through the legacy line parser |
| BrowsePage.BlankLineLeavesFewer | app/api/storage/join/route.js:38-43 | a text with an empty line gives fewer entries than it has lines |
| BrowsePage.UnnamedLineDropped | app/api/storage/join/route.js:38-43 | lines with an empty one give fewer named entries than lines |
| BrowsePage.EmptyLineUnnamed | app/api/storage/join/route.js:39-42 | an empty line parses to an empty name and an empty email |
| BrowsePage.BlankLineShownNotKept | app/browse/page.tsx:107-110 | two names around a blank line give three lines on the card and fewer than three members in the join route |
| BrowsePage.ObjectTeamLines | app/browse/page.tsx:102-105 | a team of objects renders one member line per object |
| BrowsePage.JoinEntryLine | app/browse/page.tsx:104 | the joiner's entry renders as its name, plus ` <email>` when the email is truthy |
| BrowsePage.JoinerShownLast | app/browse/page.tsx:102-105 | after a join, the card lists the joiner last |
| BrowsePage.JoinedTeamObjects | app/api/storage/join/route.js:48-50 | after a join the team is a non-empty list of objects ending with the new entry |
| BrowsePage.StartJoin | app/browse/page.tsx:45-47 | the filename gets a blank form and every other form is kept |
| BrowsePage.CancelJoin | app/browse/page.tsx:49-55 | only the filename's form is removed |
| BrowsePage.CancelUndoesStart | app/browse/page.tsx:45-55 | cancelling a form just opened for a filename that had none restores the forms |
| BrowsePage.StartJoinResets | app/browse/page.tsx:45-47 | opening a form again discards what the open one held |
| BrowsePage.IssueText | app/browse/page.tsx:78-83 | an item with a truthy path shows the path (a list joined by `.`, anything else as a string), `: `, and then its message as a string or, without a message, `JSON.stringify` of the item. Otherwise it shows a truthy message, and else the item as a string |
| BrowsePage.IssueTexts | app/browse/page.tsx:78-84 | one text per item, in order |
| BrowsePage.JoinErrorMessage | app/browse/page.tsx:73-90 | without data it shows `Failed to join`. A string error is shown verbatim and a list error as its item texts joined by `; `. Any other truthy error shows its truthy `message`, or else its string form. A falsy error gives `Failed to join` |
| BrowsePage.IssueWithPath | app/browse/page.tsx:79-81 | an issue with the key path `a.b` and a message reads `a.b: message` |
| JsValue.Truthy | app/api/storage/join/route.js:14 | a value is falsy exactly when it is `undefined`, `null`, `false`, `''`, `0` or `NaN` |
| JsValue.Prop | app/api/storage/join/route.js:36 | reading a property throws exactly on `null` and `undefined`, with the property's name in the error. An object gives the stored value, and anything else `undefined` |
| JsValue.ToJsString | app/api/storage/join/route.js:18 | a string is itself; `undefined`, `null` and booleans give their names, a number its decimal text and an object `[object Object]`. An empty list gives `''`, and a one-item list its item's text, or `''` for `null` and `undefined` |
| JsValue.ElementStringsOfStrings | app/browse/page.tsx:80 | joining a path of strings uses the strings themselves |
| JsValue.ArrayOfStringsText | app/api/storage/join/route.js:18 | a list of strings becomes its strings joined by `,` when it is put into a template literal |
| BrowsePage.RouteErrorShownVerbatim | app/browse/page.tsx:75-76 | whatever error text the join route answers with is shown verbatim |
| BrowsePage.BeginJoin | app/browse/page.tsx:58-60 | nothing happens without an open form. Otherwise the form is marked submitting, its error is cleared and its fields are kept, and the other forms stay the same |
| BrowsePage.JoinRequestBody | app/browse/page.tsx:65 | the route reads back the filename, name and email the page sent |
| BrowsePage.FinishJoin | app/browse/page.tsx:69-91 | a successful answer closes the form and marks the filename joined. Any other answer reopens the form with the composed error. Every other form and mark is kept |
| BrowsePage.EmptyNameShowsRequiredMessage | app/browse/page.tsx:57-91 | submitting an empty name leaves the store unchanged, and the form shows `filename and name are required` |

## Left out

- The GitHub contents API is modelled by the `Store` map and its revision-marker checks. Authentication, the network, commit messages and base64 transport are not modelled. Directories are not modelled: the store holds files only, so reading a subdirectory of `submissions/`, or the directory itself through an empty `filename`, is modelled as a failed read. The contents API would instead return a listing, and PATCH would go on to the name check.
- StorageRoute.MalformedMissingNameFailsOnRead: for an empty `filename` the read is of `submissions/` itself. The lemma answers 500 there because the store model has no directories; the route would most likely reach `"".split('__')` and answer 400 (app/api/storage/route.js:102-108).
- `yaml.load` and `yaml.dump` are function parameters (`load`, `dump`). No YAML round trip is claimed. `JSON.stringify` is the parameter `stringify`, and number-to-text conversion is the parameter `numberText`.
- Zod's email test is the parameter `isEmail`. The schema check's issues are the parameter `issues` of `SubmitPage.HandleSubmit`, not derived from the schema.
- The clocks are parameters: `POST` reads the time twice, once for the name and once for `submitted_date`. In the join route, `now` stands for `joined_date`.
- JavaScript `Date` parsing is the parameter `toTime` of the landing page. The order that an invalid date (`NaN`) gives the comparator is not modelled.
- HomePage.SortNewestFirst: the sort assumes a consistent comparator and does not model how the engine orders `NaN` comparisons. It does not claim that an undated entry (time 0) sorts after dated ones, because that holds only for dates after 1970.
- Concurrent requests are not modelled. Only the single write's marker check is, with a read and a write against different store states (`JoinRoute.StaleReadRefused`). The PATCH delete and create are two steps with no other write between them.
- `toLowerCase` maps only `A`-`Z`. JavaScript also lowercases other letters, for example U+0130 and the Kelvin sign, which can then match `[a-z]`.
- Request fields that are not strings are kept as `Value`s. A request body that is not valid JSON makes `request.json()` throw and is not modelled. PATCH and join still answer 500 through their catch-all handlers.
- React state plumbing and rendering are not modelled: hooks, `fetch`, form reset after success, console logging and the `stack` field of 500 responses. The browse page renders a member's `name` value as React would; that rendering is not modelled.
- The pages' listing loads (app/page.tsx:17-34, app/browse/page.tsx:21-43) are left out: they fetch and pass data through. A `fetch` that rejects in `submitJoin` (its catch at app/browse/page.tsx:93-95) is left out as network I/O.
- Team.ParseTextFirstLine: the line-by-line reading is stated for a first line without `\r`. A first line ending in `\r` before `\n` is covered by `JsText.SplitLines` but not restated here.
- SubmitPage.HandleSubmit: the `catch` for a failed `fetch` (app/submit/page.tsx:191-193) is not modelled, because the response is a parameter.

=== FILE: browse_page.dfy ===
/** The browse page: the CSS class derived from an entry's status, the lines
    of its team list, and the join forms it keeps per filename together with
    the message it shows when a join fails. */
module BrowsePage {
  import opened Wrappers
  import opened JsText
  import opened JsValue
  import Filenames
  import HomePage
  import Team
  import JoinRoute
  import Store

  /** A character the status class keeps: `[a-z0-9-_]`. */
  predicate IsClassChar(c: char) {
    ('a' <= c <= 'z') || ('0' <= c <= '9') || c == '-' || c == '_'
  }

  /** `s.replace(/[^a-z0-9-_]/g, '')`. */
  function KeepClassChars(s: string): (r: string)
    ensures |r| <= |s|
    ensures forall k :: 0 <= k < |r| ==> IsClassChar(r[k])
    ensures forall c :: c in r <==> c in s && IsClassChar(c)
    ensures (forall k :: 0 <= k < |s| ==> IsClassChar(s[k])) ==> r == s
  {
    if |s| == 0 then ""
    else
      var rest := KeepClassChars(s[1..]);
      assert forall c :: c in s <==> c == s[0] || c in s[1..];
      if IsClassChar(s[0]) then
        var r := [s[0]] + rest;
        assert forall c :: c in r <==> c == s[0] || c in rest;
        assert forall k :: 0 < k < |r| ==> r[k] == rest[k - 1];
        r
      else rest
  }

  /** A single character survives exactly when it is a class character. */
  lemma KeepClassCharsOne(c: char)
    ensures KeepClassChars([c]) == if IsClassChar(c) then [c] else ""
  {
    assert [c][1..] == "";
  }

  /** The filter works character by character: filtering a concatenation
      concatenates the filtered parts, so kept characters stay in order and
      keep their multiplicity. */
  lemma {:induction false} KeepClassCharsAppend(a: string, b: string)
    ensures KeepClassChars(a + b) == KeepClassChars(a) + KeepClassChars(b)
    decreases |a|
  {
    if |a| > 0 {
      assert (a + b)[0] == a[0];
      assert (a + b)[1..] == a[1..] + b;
      KeepClassCharsAppend(a[1..], b);
    } else {
      assert a + b == b;
    }
  }

  /** The class used when nothing of the status survives. */
  const UnknownClass: string := "unknown"

  /** `status.replace(/[^a-z0-9-_]/g, '') || 'unknown'`. */
  function StatusClass(status: string): (r: string)
    ensures |r| > 0
    ensures forall k :: 0 <= k < |r| ==> IsClassChar(r[k])
    ensures |status| > 0 && (forall k :: 0 <= k < |status| ==> IsClassChar(status[k])) ==> r == status
    ensures (forall k :: 0 <= k < |status| ==> !IsClassChar(status[k])) ==> r == UnknownClass
    ensures r != UnknownClass ==> forall c :: c in r ==> c in status
    ensures KeepClassChars(status) != "" ==> r == KeepClassChars(status)
    ensures KeepClassChars(status) == "" ==> r == UnknownClass
  {
    var kept := KeepClassChars(status);
    assert kept != "" ==> kept[0] in kept;
    if kept == "" then UnknownClass else kept
  }

  /** A status class is its own status class. */
  lemma StatusClassIdempotent(status: string)
    ensures StatusClass(StatusClass(status)) == StatusClass(status)
  {
  }

  /** Each of the five statuses is its own class. */
  lemma ValidStatusClasses()
    ensures forall st :: st in Filenames.ValidStatuses ==> StatusClass(st) == st
  {
    forall st | st in Filenames.ValidStatuses ensures StatusClass(st) == st {
      assert |st| > 0 && forall k :: 0 <= k < |st| ==> IsClassChar(st[k]);
    }
  }

  /** The class shown on the card of a listing entry. */
  function EntryStatusClass(o: HomePage.Opp): (r: string)
    ensures |r| > 0 && forall k :: 0 <= k < |r| ==> IsClassChar(r[k])
  {
    StatusClass(HomePage.StatusOfOpp(o))
  }

  /** A newly created submission's card carries the class `pending`. */
  lemma CreatedEntryIsPending(isoTimestamp: string, title: string, path: string)
    requires '_' !in isoTimestamp
    ensures EntryStatusClass(HomePage.Opp(Some(Filenames.CreatedFilename(isoTimestamp, title)), path)) == "pending"
  {
    Filenames.CreatedFilenameIsPending(isoTimestamp, title);
    ValidStatusClasses();
    assert "pending" == Filenames.ValidStatuses[0];
  }

  /** One line of an array team: the member's `name` as React renders it,
      then ` <email>` when the email is truthy. */
  datatype MemberLine = MemberLine(name: Value, suffix: string)

  /** What `renderTeam` produces. */
  datatype TeamView =
    | NoTeam
    | MemberLines(lines: seq<MemberLine>)
    | TextLines(texts: seq<string>)
    | Crashed(error: TypeError)

  /** `m.name` and `m.email ? \` <${m.email}>\` : ''` for one array item. */
  function MemberLineOf(m: Value, numberText: Number -> string): (r: Result<MemberLine, TypeError>)
    ensures r.Err? <==> m.Undefined? || m.Null?
    ensures r.Ok? ==> r.value.name == Field(m, "name")
    ensures r.Ok? ==> (r.value.suffix == "" <==> !Truthy(Field(m, "email")))
    ensures r.Ok? && Truthy(Field(m, "email")) ==>
              r.value.suffix == " <" + ToJsString(Field(m, "email"), numberText) + ">"
  {
    if m.Undefined? || m.Null? then Err(CannotReadProperty("name"))
    else
      var email := Field(m, "email");
      Ok(MemberLine(Field(m, "name"),
                    if Truthy(email) then " <" + ToJsString(email, numberText) + ">" else ""))
  }

  /** `tm.map(...)` over an array team. */
  function MemberLinesOf(items: seq<Value>, numberText: Number -> string): (r: Result<seq<MemberLine>, TypeError>)
    ensures r.Ok? <==> forall i :: 0 <= i < |items| ==> !items[i].Undefined? && !items[i].Null?
    ensures r.Ok? ==> |r.value| == |items|
    ensures r.Ok? ==> forall i :: 0 <= i < |items| ==> Ok(r.value[i]) == MemberLineOf(items[i], numberText)
  {
    MapItems(m => MemberLineOf(m, numberText), items)
  }

  /** `items.map(line)`, stopping at the first item that throws. */
  function MapItems(line: Value -> Result<MemberLine, TypeError>, items: seq<Value>): (r: Result<seq<MemberLine>, TypeError>)
    ensures r.Ok? <==> forall i :: 0 <= i < |items| ==> line(items[i]).Ok?
    ensures r.Ok? ==> |r.value| == |items|
    ensures r.Ok? ==> forall i :: 0 <= i < |items| ==> Ok(r.value[i]) == line(items[i])
  {
    if |items| == 0 then Ok([])
    else
      var tail := items[1..];
      assert forall i :: 1 <= i < |items| ==> items[i] == tail[i - 1];
      match line(items[0])
      case Err(e) => Err(e)
      case Ok(first) =>
        match MapItems(line, tail)
        case Err(e) =>
          assert exists j :: 0 <= j < |tail| && line(tail[j]).Err?;
          Err(e)
        case Ok(rest) => Ok([first] + rest)
  }

  /** `renderTeam(p)`. */
  function RenderTeam(p: Value, numberText: Number -> string): (r: TeamView)
    ensures !Truthy(p) ==> r == NoTeam
    ensures Truthy(p) ==>
              var tm := Field(p, "team_members");
              && (r.NoTeam? <==> !Truthy(tm) || !(tm.Arr? || tm.Str?))
              && (r.Crashed? <==> tm.Arr? && exists i :: 0 <= i < |tm.items| && (tm.items[i].Undefined? || tm.items[i].Null?))
              && (r.MemberLines? ==> tm.Arr? && |r.lines| == |tm.items|)
              && (r.MemberLines? ==> Ok(r.lines) == MemberLinesOf(tm.items, numberText))
              && (r.TextLines? <==> tm.Str? && Truthy(tm))
              && (r.TextLines? ==> r.texts == SplitLines(tm.s) && |r.texts| == NewlineCount(tm.s) + 1)
  {
    if !Truthy(p) then NoTeam
    else
      var tm := Field(p, "team_members");
      if !Truthy(tm) then NoTeam
      else match tm
        case Arr(items) =>
          (match MemberLinesOf(items, numberText)
           case Ok(lines) => MemberLines(lines)
           case Err(e) => Crashed(e))
        case Str(text) => TextLines(SplitLines(text))
        case _ => NoTeam
  }

  /** The lines of a text team hold the whole text: joined with `\n` they give
      it back, with each `\r\n` read as `\n`. */
  lemma TextTeamLosesNothing(p: Value, numberText: Number -> string)
    requires RenderTeam(p, numberText).TextLines?
    ensures Join(RenderTeam(p, numberText).texts, "\n") == FoldCrLf(Field(p, "team_members").s)
  {
    SplitLinesJoin(Field(p, "team_members").s);
  }

  /** The card shows every line of a text team, blank ones included, while
      the join route keeps only the lines with a name: the card never shows
      fewer lines than the route keeps members. */
  lemma TextTeamShowsAllLines(p: Value, numberText: Number -> string)
    requires RenderTeam(p, numberText).TextLines?
    ensures var kept := Team.ParseTeam(Field(p, "team_members"));
            kept.Ok? && |kept.value| <= |RenderTeam(p, numberText).texts|
  {
  }

  /** The join route's filter drops an entry with an empty name. */
  lemma {:induction false} KeepNamedDropsBlank(ms: seq<Team.Member>, i: nat)
    requires forall j :: 0 <= j < |ms| ==> ms[j].name.Str?
    requires i < |ms| && ms[i].name.s == ""
    ensures |Team.KeepNamed(ms)| < |ms|
  {
    if i > 0 {
      assert ms[1..][i - 1] == ms[i];
      KeepNamedDropsBlank(ms[1..], i - 1);
    }
  }

  /** Two names with a blank line between them make three lines. */
  lemma BlankLineSplit(a: string, b: string)
    requires '\n' !in a && '\r' !in a && '\n' !in b && '\r' !in b
    ensures SplitLines(a + "\n\n" + b) == [a, "", b]
  {
    assert a + "\n\n" + b == a + "\n" + ("" + "\n" + b);
    SplitLinesFirst(a, "" + "\n" + b);
    SplitLinesFirst("", b);
    SplitLinesSingle(b);
  }

  /** A text whose lines include an empty one keeps fewer members than it
      has lines. */
  lemma BlankLineDropped(text: string, i: nat)
    requires text != "" && i < |SplitLines(text)| && SplitLines(text)[i] == ""
    ensures |Team.ParseTeam(Str(text)).value| < |SplitLines(text)|
  {
    BlankLineLeavesFewer(text, i);
    TextTeamParsed(text);
  }

  /** A non-empty text team is read through the legacy text parser. */
  lemma TextTeamParsed(text: string)
    requires text != ""
    ensures Team.ParseTeam(Str(text)) == Ok(Team.ParseText(text))
  {
  }

  /** `BlankLineDropped` for the parsed text. */
  lemma BlankLineLeavesFewer(text: string, i: nat)
    requires i < |SplitLines(text)| && SplitLines(text)[i] == ""
    ensures |Team.ParseText(text)| < |SplitLines(text)|
  {
    UnnamedLineDropped(SplitLines(text), i);
  }

  /** Of a list of lines with an empty one, fewer entries have a name than
      there are lines. */
  lemma UnnamedLineDropped(lines: seq<string>, i: nat)
    requires i < |lines| && lines[i] == ""
    ensures |Team.KeepNamed(Team.ParseLines(lines))| < |lines|
  {
    EmptyLineUnnamed();
    MapLinesDropsBlank(Team.ParseLine, lines, i);
  }

  /** `UnnamedLineDropped` for any per-line parser that always gives a string
      name. */
  lemma MapLinesDropsBlank(parse: string -> Team.Member, lines: seq<string>, i: nat)
    requires forall l :: parse(l).name.Str?
    requires i < |lines| && parse(lines[i]).name.s == ""
    ensures |Team.KeepNamed(Team.MapLines(parse, lines))| < |lines|
  {
    KeepNamedDropsBlank(Team.MapLines(parse, lines), i);
  }

  /** An empty line parses to an entry with an empty name. */
  lemma EmptyLineUnnamed()
    ensures Team.ParseLine("") == Team.Member(Str(""), Str(""))
  {
    assert |Trim("")| == 0;
    Team.ParseLineWithoutAngle("");
  }

  /** A blank line between two names: the card shows all three lines, the
      join route keeps fewer members. */
  lemma BlankLineShownNotKept(a: string, b: string)
    requires '\n' !in a && '\r' !in a && '\n' !in b && '\r' !in b
    ensures var text := a + "\n\n" + b;
            && SplitLines(text) == [a, "", b]
            && |Team.ParseTeam(Str(text)).value| < 3
  {
    var text := a + "\n\n" + b;
    BlankLineSplit(a, b);
    assert text[|a|] == '\n';
    BlankLineDropped(text, 1);
  }

  /** A team of objects renders one member line per object. */
  lemma ObjectTeamLines(p: Value, items: seq<Value>, numberText: Number -> string)
    requires p.Obj? && Field(p, "team_members") == Arr(items)
    requires forall i :: 0 <= i < |items| ==> items[i].Obj?
    ensures RenderTeam(p, numberText).MemberLines?
    ensures forall i :: 0 <= i < |items| ==> Ok(RenderTeam(p, numberText).lines[i]) == MemberLineOf(items[i], numberText)
  {
  }

  /** The line of the entry the join route appends. */
  lemma JoinEntryLine(name: Value, email: Value, now: string, numberText: Number -> string)
    ensures MemberLineOf(JoinRoute.NewEntry(name, email, now), numberText)
            == Ok(MemberLine(name, if Truthy(email) then " <" + ToJsString(email, numberText) + ">" else ""))
  {
    var e := JoinRoute.NewEntry(name, email, now);
    assert Field(e, "name") == name;
    assert Field(e, "email") == Or(email, Str(""));
  }

  /** After a join the card lists the joiner last, with the address when one
      was given. */
  lemma JoinerShownLast(parsed: Value, name: Value, email: Value, now: string, numberText: Number -> string)
    requires parsed.Obj?
    requires JoinRoute.AddJoiner(parsed, JoinRoute.NewEntry(name, email, now)).Ok?
    ensures var view := RenderTeam(JoinRoute.AddJoiner(parsed, JoinRoute.NewEntry(name, email, now)).value, numberText);
            && view.MemberLines? && |view.lines| > 0
            && view.lines[|view.lines| - 1]
               == MemberLine(name, if Truthy(email) then " <" + ToJsString(email, numberText) + ">" else "")
  {
    var entry := JoinRoute.NewEntry(name, email, now);
    var after := JoinRoute.AddJoiner(parsed, entry).value;
    JoinedTeamObjects(parsed, entry);
    var items := Field(after, "team_members").items;
    ObjectTeamLines(after, items, numberText);
    JoinEntryLine(name, email, now, numberText);
  }

  /** The record the join route stores holds a list of objects ending with the
      new entry. */
  lemma JoinedTeamObjects(parsed: Value, entry: Value)
    requires parsed.Obj? && entry.Obj?
    requires JoinRoute.AddJoiner(parsed, entry).Ok?
    ensures var after := JoinRoute.AddJoiner(parsed, entry).value;
            var tm := Field(after, "team_members");
            && after.Obj? && tm.Arr? && |tm.items| > 0 && tm.items[|tm.items| - 1] == entry
            && forall i :: 0 <= i < |tm.items| ==> tm.items[i].Obj?
  {
    var after := JoinRoute.AddJoiner(parsed, entry).value;
    var existing := Team.ParseTeam(Field(parsed, "team_members")).value;
    var team := after.fields["team_members"];
    var prior := Team.MembersToValue(existing).items;
    assert forall i :: 0 <= i < |existing| ==> team.items[i] == prior[i];
    assert Field(after, "team_members") == team;
  }

  /** The join form kept for one filename. */
  datatype JoinForm = JoinForm(name: string, email: string, submitting: bool, error: Option<Value>)

  /** `{ name: '', email: '' }`. */
  const BlankForm: JoinForm := JoinForm("", "", false, None)

  /** Open forms by filename. */
  type Forms = map<string, JoinForm>

  /** `startJoin(filename)`. */
  function StartJoin(forms: Forms, filename: string): (r: Forms)
    ensures r.Keys == forms.Keys + {filename}
    ensures r[filename] == BlankForm
    ensures forall g :: g in forms && g != filename ==> r[g] == forms[g]
  {
    forms[filename := BlankForm]
  }

  /** `cancelJoin(filename)`. */
  function CancelJoin(forms: Forms, filename: string): (r: Forms)
    ensures r.Keys == forms.Keys - {filename}
    ensures forall g :: g in r ==> r[g] == forms[g]
  {
    map g | g in forms && g != filename :: forms[g]
  }

  /** Cancelling a form just opened for a filename that had none restores the
      forms as they were. */
  lemma CancelUndoesStart(forms: Forms, filename: string)
    requires filename !in forms
    ensures CancelJoin(StartJoin(forms, filename), filename) == forms
  {
  }

  /** Opening a form again discards whatever the open one held. */
  lemma StartJoinResets(forms: Forms, filename: string, edited: JoinForm)
    ensures StartJoin(forms[filename := edited], filename) == StartJoin(forms, filename)
  {
  }

  /** The fallback message. */
  const DefaultJoinError: string := "Failed to join"

  /** The text one item of an array `error` contributes: `path: message`
      when it has a path, otherwise its message or `String(e)`. */
  function IssueText(e: Value, numberText: Number -> string, stringify: Value -> string): (r: string)
    ensures Truthy(e) && Truthy(Field(e, "path")) ==>
              var path := Field(e, "path");
              var message := Field(e, "message");
              var pathText := if path.Arr? then Join(ElementStrings(path.items, numberText), ".")
                              else ToJsString(path, numberText);
              var messageText := if Truthy(message) then ToJsString(message, numberText) else stringify(e);
              r == pathText + ": " + messageText
    ensures Truthy(e) && !Truthy(Field(e, "path")) && Truthy(Field(e, "message")) ==>
              r == ToJsString(Field(e, "message"), numberText)
    ensures Truthy(e) && !Truthy(Field(e, "path")) && !Truthy(Field(e, "message")) ==>
              r == ToJsString(e, numberText)
    ensures !Truthy(e) ==> r == ToJsString(e, numberText)
  {
    if Truthy(e) && Truthy(Field(e, "path")) then
      var path := Field(e, "path");
      var pathText := if path.Arr? then Join(ElementStrings(path.items, numberText), ".") else ToJsString(path, numberText);
      pathText + ": " + ToJsString(Or(Field(e, "message"), Str(stringify(e))), numberText)
    else if Truthy(e) && Truthy(Field(e, "message")) then ToJsString(Field(e, "message"), numberText)
    else ToJsString(e, numberText)
  }

  /** The text of each issue of a list, in order. */
  function IssueTexts(items: seq<Value>, numberText: Number -> string, stringify: Value -> string): (r: seq<string>)
    ensures |r| == |items|
    ensures forall i :: 0 <= i < |items| ==> r[i] == IssueText(items[i], numberText, stringify)
  {
    if |items| == 0 then [] else [IssueText(items[0], numberText, stringify)] + IssueTexts(items[1..], numberText, stringify)
  }

  /** The message the form shows when a join fails, from the parsed response
      body `data` (`Null` when the body was not JSON). `stringify` is
      `JSON.stringify`. */
  function JoinErrorMessage(data: Value, numberText: Number -> string, stringify: Value -> string): (r: Value)
    ensures !Truthy(data) ==> r == Str(DefaultJoinError)
    ensures Truthy(data) && Field(data, "error").Str? ==> r == Field(data, "error")
    ensures Truthy(data) && Field(data, "error").Arr? ==>
              r == Str(Join(IssueTexts(Field(data, "error").items, numberText, stringify), "; "))
    ensures Truthy(data) && !Truthy(Field(data, "error")) && !Field(data, "error").Str? ==> r == Str(DefaultJoinError)
    ensures Truthy(data) && Truthy(Field(data, "error")) && !Field(data, "error").Str? && !Field(data, "error").Arr? ==>
              var err := Field(data, "error");
              && (Truthy(Field(err, "message")) ==> r == Field(err, "message"))
              && (!Truthy(Field(err, "message")) ==> r == Str(ToJsString(err, numberText)))
    ensures r.Str? || Truthy(r)
  {
    if !Truthy(data) then Str(DefaultJoinError)
    else
      var err := Field(data, "error");
      if err.Str? then err
      else if err.Arr? then Str(Join(IssueTexts(err.items, numberText, stringify), "; "))
      else if Truthy(err) && Truthy(Field(err, "message")) then Field(err, "message")
      else if Truthy(err) then Str(ToJsString(err, numberText))
      else Str(DefaultJoinError)
  }

  /** An issue with a list path of keys and a message reads `a.b: message`. */
  lemma IssueWithPath(path: seq<Value>, keys: seq<string>, message: string,
                      numberText: Number -> string, stringify: Value -> string)
    requires |path| == |keys| > 0 && message != ""
    requires forall i :: 0 <= i < |path| ==> path[i] == Str(keys[i])
    ensures IssueText(Obj(map["path" := Arr(path), "message" := Str(message)]), numberText, stringify)
              == Join(keys, ".") + ": " + message
  {
    var e := Obj(map["path" := Arr(path), "message" := Str(message)]);
    assert Field(e, "path") == Arr(path);
    assert Field(e, "message") == Str(message);
    ElementStringsOfStrings(path, keys, numberText);
  }

  /** Whatever error text the join route answers with is shown verbatim. */
  lemma RouteErrorShownVerbatim(o: JoinRoute.Outcome, caught: string, numberText: Number -> string,
                                stringify: Value -> string)
    requires o != JoinRoute.Joined
    ensures var body := JoinRoute.ResponseBody(o, caught);
            && !JoinSucceeded(body)
            && JoinErrorMessage(body, numberText, stringify) == body.fields["error"]
  {
  }

  /** `data && data.success`. */
  predicate JoinSucceeded(data: Value) {
    Truthy(data) && Truthy(Field(data, "success"))
  }

  /** The forms and the filenames already joined. */
  datatype BrowseState = BrowseState(forms: Forms, joined: map<string, bool>)

  /** The first step of `submitJoin(filename)`: nothing happens without an
      open form; otherwise the form is marked as submitting, its error
      cleared, and the form as it was is kept for the later steps. */
  function BeginJoin(forms: Forms, filename: string): (r: Option<(JoinForm, Forms)>)
    ensures r.Some? <==> filename in forms
    ensures r.Some? ==> r.value.0 == forms[filename]
    ensures r.Some? ==> r.value.1.Keys == forms.Keys
    ensures r.Some? ==> var f := r.value.1[filename];
              f.submitting && f.error.None? && f.name == forms[filename].name && f.email == forms[filename].email
    ensures r.Some? ==> forall g :: g in forms && g != filename ==> r.value.1[g] == forms[g]
  {
    if filename !in forms then None
    else
      var form := forms[filename];
      Some((form, forms[filename := form.(submitting := true, error := None)]))
  }

  /** The request body `submitJoin` posts. */
  function JoinRequestBody(filename: string, form: JoinForm): (v: Value)
    ensures JoinRoute.ReadRequest(v) == Some(JoinRoute.JoinRequest(Str(filename), Str(form.name), Str(form.email)))
  {
    Obj(map["filename" := Str(filename), "name" := Str(form.name), "email" := Str(form.email)])
  }

  /** The last step of `submitJoin(filename)`, given the parsed response body
      and the form kept by `BeginJoin`. */
  function FinishJoin(st: BrowseState, filename: string, form: JoinForm, data: Value,
                      numberText: Number -> string, stringify: Value -> string): (r: BrowseState)
    ensures JoinSucceeded(data) ==>
              && r.forms.Keys == st.forms.Keys - {filename}
              && r.joined.Keys == st.joined.Keys + {filename} && r.joined[filename]
    ensures !JoinSucceeded(data) ==>
              && r.joined == st.joined
              && r.forms.Keys == st.forms.Keys + {filename}
              && r.forms[filename] == form.(submitting := false, error := Some(JoinErrorMessage(data, numberText, stringify)))
    ensures forall g :: g in st.forms && g != filename ==> g in r.forms && r.forms[g] == st.forms[g]
    ensures forall g :: g in st.joined && g != filename ==> r.joined[g] == st.joined[g]
  {
    if JoinSucceeded(data) then
      BrowseState(CancelJoin(st.forms, filename), st.joined[filename := true])
    else
      BrowseState(st.forms[filename := form.(submitting := false, error := Some(JoinErrorMessage(data, numberText, stringify)))],
                  st.joined)
  }

  /** Submitting a form with an empty name: the route answers 400 without
      touching the store, and the form shows the route's message. */
  lemma EmptyNameShowsRequiredMessage(st: BrowseState, filename: string, form: JoinForm,
                                      s: Store.Store, now: string, load: string -> Option<Value>,
                                      dump: Value -> string, blobSha: string -> string,
                                      numberText: Number -> string, stringify: Value -> string)
    requires form.name == ""
    ensures var outcome := JoinRoute.Join(s, JoinRequestBody(filename, form), now, load, dump, blobSha, numberText);
            && outcome == (JoinRoute.MissingFields, s)
            && var after := FinishJoin(st, filename, form, JoinRoute.ResponseBody(outcome.0, ""), numberText, stringify);
               after.forms[filename].error == Some(Str(JoinRoute.MissingFieldsMessage))
  {
    var body := JoinRequestBody(filename, form);
    assert JoinRoute.Prepare(s, body, now, load, dump, numberText) == Err(JoinRoute.MissingFields);
  }
}

=== FILE: filenames.dfy ===
/** The filename scheme that doubles as a submission's key and its workflow state:
    `{status}__{YYYY-MM-DD}-{slug}.yaml`. */
module Filenames {
  import opened Wrappers
  import opened JsText

  /** The separator between the status and the rest of a filename. */
  const Separator: string := "__"

  /** The five workflow states the status change accepts. */
  const ValidStatuses: seq<string> := ["pending", "approved", "in-progress", "completed", "rejected"]

  /** Longest slug kept in a filename. */
  const MaxSlugLength: nat := 50

  /** The class `[a-z0-9]`. */
  predicate IsSlugAlnum(c: char) {
    ('a' <= c <= 'z') || ('0' <= c <= '9')
  }

  predicate IsSlugChar(c: char) {
    IsSlugAlnum(c) || c == '-'
  }

  /** No two hyphens are adjacent. */
  predicate NoDoubleHyphen(s: string) {
    forall i :: 0 <= i < |s| - 1 ==> !(s[i] == '-' && s[i + 1] == '-')
  }

  /** The letters and digits of `s`, in order. */
  function Alnums(s: string): string {
    if |s| == 0 then ""
    else (if IsSlugAlnum(s[0]) then [s[0]] else "") + Alnums(s[1..])
  }

  /** Length of the run of characters outside `[a-z0-9]` at the start of `s`. */
  function RunLength(s: string): (n: nat)
    ensures n <= |s|
    ensures forall i :: 0 <= i < n ==> !IsSlugAlnum(s[i])
    ensures n < |s| ==> IsSlugAlnum(s[n])
  {
    if |s| == 0 || IsSlugAlnum(s[0]) then 0 else RunLength(s[1..]) + 1
  }

  /** A run of non-alphanumerics contributes nothing to `Alnums`. */
  lemma {:induction false} AlnumsSkipRun(s: string, n: nat)
    requires n <= |s|
    requires forall i :: 0 <= i < n ==> !IsSlugAlnum(s[i])
    ensures Alnums(s) == Alnums(s[n..])
  {
    if n > 0 {
      assert s[1..][n - 1..] == s[n..];
      AlnumsSkipRun(s[1..], n - 1);
    }
  }

  /** `.replace(/[^a-z0-9]+/g, '-')`: every maximal run of characters outside
      `[a-z0-9]` becomes one hyphen. */
  function CollapseRuns(s: string): (r: string)
    decreases |s|
    ensures |r| <= |s|
    ensures forall i :: 0 <= i < |r| ==> IsSlugChar(r[i])
    ensures NoDoubleHyphen(r)
    ensures |r| > 0 ==> (r[0] == '-' <==> !IsSlugAlnum(s[0]))
  {
    if |s| == 0 then ""
    else if IsSlugAlnum(s[0]) then [s[0]] + CollapseRuns(s[1..])
    else
      var n := RunLength(s);
      var rest := CollapseRuns(s[n..]);
      assert n < |s| && |rest| > 0 ==> rest[0] != '-';
      "-" + rest
  }

  /** Collapsing keeps every letter and digit, in order, and adds none. */
  lemma {:induction false} CollapseRunsKeepsAlnums(s: string)
    decreases |s|
    ensures Alnums(CollapseRuns(s)) == Alnums(s)
  {
    if |s| == 0 {
    } else if IsSlugAlnum(s[0]) {
      CollapseRunsKeepsAlnums(s[1..]);
      var r := CollapseRuns(s);
      assert r[1..] == CollapseRuns(s[1..]);
    } else {
      var n := RunLength(s);
      AlnumsSkipRun(s, n);
      CollapseRunsKeepsAlnums(s[n..]);
      var r := CollapseRuns(s);
      assert r[1..] == CollapseRuns(s[n..]);
    }
  }

  /** On text that is already collapsed, collapsing changes nothing. */
  lemma {:induction false} CollapseRunsFixpoint(s: string)
    requires forall i :: 0 <= i < |s| ==> IsSlugChar(s[i])
    requires NoDoubleHyphen(s)
    ensures CollapseRuns(s) == s
  {
    if |s| > 0 {
      if IsSlugAlnum(s[0]) {
        CollapseRunsFixpoint(s[1..]);
      } else {
        assert RunLength(s) == 1 by {
          assert |s| > 1 ==> IsSlugAlnum(s[1]);
        }
        CollapseRunsFixpoint(s[1..]);
      }
    }
  }

  /** The slug of a title: lower-cased, runs collapsed, cut to 50 characters. */
  function Slug(title: string): (r: string)
    ensures |r| <= MaxSlugLength
    ensures forall i :: 0 <= i < |r| ==> IsSlugChar(r[i])
    ensures NoDoubleHyphen(r)
    ensures '_' !in r
    ensures |r| <= |CollapseRuns(ToLower(title))| && r == CollapseRuns(ToLower(title))[..|r|]
    ensures |CollapseRuns(ToLower(title))| >= MaxSlugLength ==> |r| == MaxSlugLength
    ensures |CollapseRuns(ToLower(title))| <= MaxSlugLength ==> r == CollapseRuns(ToLower(title))
  {
    var full := CollapseRuns(ToLower(title));
    var r := if |full| <= MaxSlugLength then full else full[..MaxSlugLength];
    assert forall i :: 0 <= i < |r| ==> r[i] != '_' by {
      assert forall i :: 0 <= i < |r| ==> IsSlugChar(r[i]);
    }
    r
  }

  /** A slug is its own slug. */
  lemma SlugIdempotent(title: string)
    ensures Slug(Slug(title)) == Slug(title)
  {
    var s := Slug(title);
    assert ToLower(s) == s by {
      forall i | 0 <= i < |s| ensures LowerChar(s[i]) == s[i] {
        assert IsSlugChar(s[i]);
      }
    }
    CollapseRunsFixpoint(s);
  }

  /** `new Date().toISOString().split('T')[0]`: the calendar-date part of an ISO
      timestamp, everything before its first `T`. */
  function DatePart(isoTimestamp: string): (r: string)
    ensures |r| <= |isoTimestamp| && r == isoTimestamp[..|r|]
    ensures 'T' !in r
    ensures 'T' in isoTimestamp ==> |r| < |isoTimestamp| && isoTimestamp[|r|] == 'T'
    ensures 'T' !in isoTimestamp ==> r == isoTimestamp
  {
    var r := Split(isoTimestamp, "T")[0];
    SplitFirstPiece(isoTimestamp, "T");
    ContainsChar(r, 'T');
    ContainsChar(isoTimestamp, 'T');
    r
  }

  /** The filename a new submission is stored under. */
  function CreatedFilename(isoTimestamp: string, title: string): (r: string)
    ensures |r| >= 15 && r[..9] == "pending__" && r[|r| - 5..] == ".yaml"
    ensures r[9..] == CreatedSuffix(isoTimestamp, title)
  {
    var suffix := CreatedSuffix(isoTimestamp, title);
    var r := "pending" + Separator + suffix;
    assert r[9..] == suffix;
    assert suffix[|suffix| - 5..] == ".yaml";
    assert r[|r| - 5..] == suffix[|suffix| - 5..];
    r
  }

  /** What follows the separator in a created filename: `{date}-{slug}.yaml`. */
  function CreatedSuffix(isoTimestamp: string, title: string): string {
    DatePart(isoTimestamp) + "-" + Slug(title) + ".yaml"
  }

  /** `filename.split('__')` has exactly two pieces exactly when the filename holds
      one `__` and no second one after it. */
  predicate HasOneSeparator(filename: string) {
    match FindFrom(filename, Separator, 0)
    case None => false
    case Some(i) => !Contains(filename[i + 2..], Separator)
  }

  /** Everything after the first `__`. */
  function AfterSeparator(filename: string): string
    requires HasOneSeparator(filename)
  {
    filename[FindFrom(filename, Separator, 0).value + 2..]
  }

  /** Everything before the first `__`. */
  function BeforeSeparator(filename: string): string
    requires HasOneSeparator(filename)
  {
    filename[..FindFrom(filename, Separator, 0).value]
  }

  /** A piece count of one means no separator at all. */
  lemma SplitSingle(s: string)
    ensures |Split(s, Separator)| == 1 <==> !Contains(s, Separator)
  {
    if !Contains(s, Separator) {
      SplitWithout(s, Separator);
    } else {
      var f := FindFrom(s, Separator, 0);
      assert f.Some?;
    }
  }

  /** The two-piece split, described by the separator's position. */
  lemma SplitTwo(filename: string)
    ensures |Split(filename, Separator)| == 2 <==> HasOneSeparator(filename)
    ensures HasOneSeparator(filename) ==>
      Split(filename, Separator) == [BeforeSeparator(filename), AfterSeparator(filename)]
  {
    match FindFrom(filename, Separator, 0)
    case None =>
    case Some(i) =>
      SplitSingle(filename[i + 2..]);
      if HasOneSeparator(filename) {
        SplitWithout(filename[i + 2..], Separator);
      }
  }

  /** The filename PATCH moves a file to: `newStatus__suffix`, or nothing when
      `filename.split('__')` does not give exactly two pieces. */
  function RenameFor(filename: string, newStatus: string): (r: Option<string>)
    ensures r.Some? <==> HasOneSeparator(filename)
    ensures r.Some? ==> r.value == newStatus + Separator + AfterSeparator(filename)
    ensures r.Some? ==> filename == BeforeSeparator(filename) + Separator + AfterSeparator(filename)
  {
    SplitTwo(filename);
    var parts := Split(filename, Separator);
    if |parts| != 2 then None else Some(newStatus + Separator + parts[1])
  }

  /** A status with no underscore cannot hold a separator. */
  predicate NoUnderscore(s: string) {
    '_' !in s
  }

  /** Text with no underscore has no occurrence of `__` inside it. */
  lemma NoSeparatorStartsIn(head: string, rest: string)
    requires NoUnderscore(head)
    ensures forall j: nat :: j < |head| ==> !OccursAt(head + rest, Separator, j)
  {
    forall j: nat | j < |head| ensures !OccursAt(head + rest, Separator, j) {
      assert (head + rest)[j] == head[j];
    }
  }

  /** `head + "__" + tail` with an underscore-free head and a tail free of `__`
      has its one separator right after `head`. */
  lemma {:induction false} JoinedHasOneSeparator(head: string, tail: string)
    requires NoUnderscore(head)
    requires !Contains(tail, Separator)
    ensures HasOneSeparator(head + Separator + tail)
    ensures BeforeSeparator(head + Separator + tail) == head
    ensures AfterSeparator(head + Separator + tail) == tail
  {
    var s := head + Separator + tail;
    NoSeparatorStartsIn(head, Separator + tail);
    assert s == head + (Separator + tail);
    SplitAfterHead(head, Separator, tail);
    SplitWithout(tail, Separator);
    SplitTwo(s);
  }

  /** Every status on the whitelist is free of underscores. */
  lemma ValidStatusesHaveNoUnderscore(status: string)
    requires status in ValidStatuses
    ensures NoUnderscore(status)
  {
  }

  /** Text without underscores holds no `__`. */
  lemma UnderscoreFreeHasNoSeparator(t: string)
    requires NoUnderscore(t)
    ensures !Contains(t, Separator)
  {
    forall j: nat | j <= |t| ensures !OccursAt(t, Separator, j) {
      if j < |t| {
        assert t[j] in t;
      }
    }
  }

  /** A filename built at creation is always accepted by the status change:
      neither the date part nor the slug can hold an underscore. */
  lemma {:induction false} CreatedFilenameRenamable(isoTimestamp: string, title: string)
    requires '_' !in isoTimestamp
    ensures HasOneSeparator(CreatedFilename(isoTimestamp, title))
    ensures BeforeSeparator(CreatedFilename(isoTimestamp, title)) == "pending"
    ensures AfterSeparator(CreatedFilename(isoTimestamp, title))
            == DatePart(isoTimestamp) + "-" + Slug(title) + ".yaml"
  {
    var tail := CreatedSuffix(isoTimestamp, title);
    CreatedSuffixHasNoUnderscore(isoTimestamp, title);
    UnderscoreFreeHasNoSeparator(tail);
    JoinedHasOneSeparator("pending", tail);
  }

  /** Neither the date part nor the slug holds an underscore. */
  lemma CreatedSuffixHasNoUnderscore(isoTimestamp: string, title: string)
    requires '_' !in isoTimestamp
    ensures NoUnderscore(CreatedSuffix(isoTimestamp, title))
  {
    var d := DatePart(isoTimestamp);
    var slug := Slug(title);
    assert '_' !in d;
    var t := d + "-" + slug + ".yaml";
    forall i | 0 <= i < |t| ensures t[i] != '_' {
      if i < |d| {
        assert t[i] == d[i];
      } else if i == |d| {
      } else if i < |d| + 1 + |slug| {
        assert t[i] == slug[i - |d| - 1];
      } else {
        assert t[i] == ".yaml"[i - |d| - 1 - |slug|];
      }
    }
  }

  /** `head__tail` with no underscore in either part moves to `status__tail`. */
  lemma RenameJoined(head: string, tail: string, status: string)
    requires NoUnderscore(head) && NoUnderscore(tail)
    ensures RenameFor(head + Separator + tail, status) == Some(status + Separator + tail)
  {
    UnderscoreFreeHasNoSeparator(tail);
    JoinedHasOneSeparator(head, tail);
  }

  /** Renaming to the status a filename already carries gives the same filename. */
  lemma RenameToCurrentIsIdentity(filename: string)
    requires HasOneSeparator(filename)
    ensures RenameFor(filename, BeforeSeparator(filename)) == Some(filename)
  {
  }

  /** Two successive status changes equal one change to the last status. */
  lemma {:induction false} RenameTwice(filename: string, first: string, second: string)
    requires first in ValidStatuses
    requires RenameFor(filename, first).Some?
    ensures RenameFor(RenameFor(filename, first).value, second) == RenameFor(filename, second)
  {
    var suffix := AfterSeparator(filename);
    var i := FindFrom(filename, Separator, 0).value;
    assert !Contains(suffix, Separator);
    JoinedHasOneSeparator(first, suffix);
  }

  /** The status shown for a directory entry: the lower-cased text before the
      first `__`, or the whole name when there is none. */
  function StatusOf(name: string): (r: string)
    ensures FindFrom(name, Separator, 0).Some? ==>
              r == ToLower(name[..FindFrom(name, Separator, 0).value])
    ensures FindFrom(name, Separator, 0).None? ==> r == ToLower(name)
  {
    ToLower(Split(name, Separator)[0])
  }

  /** A created filename reads back as status `pending`. */
  lemma CreatedFilenameIsPending(isoTimestamp: string, title: string)
    requires '_' !in isoTimestamp
    ensures StatusOf(CreatedFilename(isoTimestamp, title)) == "pending"
  {
    var name := CreatedFilename(isoTimestamp, title);
    CreatedFilenameRenamable(isoTimestamp, title);
    StatusOfOneSeparator(name);
    PendingIsLowerCase();
  }

  lemma PendingIsLowerCase()
    ensures ToLower("pending") == "pending"
  {
    ToLowerWithoutCapitals("pending");
  }

  /** A filename with one separator reads its status off the part before it. */
  lemma StatusOfOneSeparator(name: string)
    requires HasOneSeparator(name)
    ensures StatusOf(name) == ToLower(BeforeSeparator(name))
  {
  }

  /** Collapsing passes a leading letter or digit through. */
  lemma CollapseAlnumHead(s: string)
    requires |s| > 0 && IsSlugAlnum(s[0])
    ensures CollapseRuns(s) == [s[0]] + CollapseRuns(s[1..])
  {
  }

  /** Collapsing passes a leading block of letters and digits through unchanged. */
  lemma {:induction false} CollapseAlnumBlock(a: string, b: string)
    requires forall i :: 0 <= i < |a| ==> IsSlugAlnum(a[i])
    ensures CollapseRuns(a + b) == a + CollapseRuns(b)
  {
    if |a| == 0 {
      assert a + b == b;
    } else {
      var s := a + b;
      var tail := CollapseRuns(b);
      assert s[1..] == a[1..] + b;
      CollapseAlnumHead(s);
      CollapseAlnumBlock(a[1..], b);
      assert [s[0]] + (a[1..] + tail) == a + tail by {
        assert s[0] == a[0];
        assert [a[0]] + a[1..] == a;
      }
    }
  }

  /** Collapsing turns a leading maximal run of other characters into one hyphen. */
  lemma CollapseOtherRun(r: string, b: string)
    requires |r| > 0
    requires forall i :: 0 <= i < |r| ==> !IsSlugAlnum(r[i])
    requires |b| > 0 ==> IsSlugAlnum(b[0])
    ensures CollapseRuns(r + b) == "-" + CollapseRuns(b)
  {
    var s := r + b;
    assert RunLength(s) == |r| by {
      assert forall i :: 0 <= i < |r| ==> !IsSlugAlnum(s[i]);
      assert |s| > |r| ==> IsSlugAlnum(s[|r|]);
    }
    assert s[|r|..] == b;
  }

  /** The worked example of the slug rule. */
  lemma SlugExample()
    ensures Slug("Hello, World! 2024") == "hello-world-2024"
  {
    assert ToLower("Hello, World! 2024") == "hello, world! 2024";
    CollapseExample();
  }

  /** Collapsing `word run word run word`. */
  lemma CollapseThreeWords(a: string, r1: string, b: string, r2: string, c: string)
    requires forall i :: 0 <= i < |a| ==> IsSlugAlnum(a[i])
    requires forall i :: 0 <= i < |b| ==> IsSlugAlnum(b[i])
    requires forall i :: 0 <= i < |c| ==> IsSlugAlnum(c[i])
    requires |r1| > 0 && forall i :: 0 <= i < |r1| ==> !IsSlugAlnum(r1[i])
    requires |r2| > 0 && forall i :: 0 <= i < |r2| ==> !IsSlugAlnum(r2[i])
    requires |b| > 0 && |c| > 0
    ensures CollapseRuns(a + (r1 + (b + (r2 + c)))) == a + ("-" + (b + ("-" + c)))
  {
    CollapseAlnumBlock(c, "");
    assert c + "" == c;
    CollapseOtherRun(r2, c);
    CollapseAlnumBlock(b, r2 + c);
    CollapseOtherRun(r1, b + (r2 + c));
    CollapseAlnumBlock(a, r1 + (b + (r2 + c)));
  }

  lemma CollapseExample()
    ensures CollapseRuns("hello, world! 2024") == "hello-world-2024"
  {
    assert "hello" + (", " + ("world" + ("! " + "2024"))) == "hello, world! 2024";
    assert "hello" + ("-" + ("world" + ("-" + "2024"))) == "hello-world-2024";
    CollapseThreeWords("hello", ", ", "world", "! ", "2024");
  }

  /** The worked example of a status change. */
  lemma RenameExample()
    ensures RenameFor("pending__2024-01-01-x.yaml", "approved") == Some("approved__2024-01-01-x.yaml")
  {
    var tail := "2024-01-01-x.yaml";
    ExampleNames();
    assert NoUnderscore(tail) && NoUnderscore("pending");
    RenameJoined("pending", tail, "approved");
  }

  lemma ExampleNames()
    ensures "pending" + Separator + "2024-01-01-x.yaml" == "pending__2024-01-01-x.yaml"
    ensures "approved" + Separator + "2024-01-01-x.yaml" == "approved__2024-01-01-x.yaml"
  {
  }

  /** The worked example of a rejected filename. */
  lemma RenameMalformedExample()
    ensures RenameFor("bad-filename", "approved") == None
  {
    UnderscoreFreeHasNoSeparator("bad-filename");
  }
}

=== FILE: home_page.dfy ===
/** The landing page's summary of the submissions directory: the count of
    entries per status, and the five most recent entries that have been
    approved, are in progress or are completed, newest first. */
module HomePage {
  import opened Wrappers
  import opened JsText
  import opened Seqs
  import Filenames

  /** One entry of the directory listing; `name` is `None` when the entry has
      none. */
  datatype Opp = Opp(name: Option<string>, path: string)

  /** `(o.name?.split('__')?.[0] ?? '').toLowerCase()`. */
  function StatusOfOpp(o: Opp): (r: string)
    ensures o.name.None? ==> r == ""
    ensures o.name.Some? ==> r == Filenames.StatusOf(o.name.value)
    ensures forall k :: 0 <= k < |r| ==> !('A' <= r[k] <= 'Z')
  {
    match o.name
    case None => ""
    case Some(n) => Filenames.StatusOf(n)
  }

  /** The number of entries whose status reads `status`. */
  function Count(opps: seq<Opp>, status: string): (n: nat)
    ensures n <= |opps|
    ensures n == 0 <==> forall i :: 0 <= i < |opps| ==> StatusOfOpp(opps[i]) != status
  {
    if |opps| == 0 then 0
    else
      assert forall i :: 0 < i < |opps| ==> opps[i] == opps[1..][i - 1];
      (if StatusOfOpp(opps[0]) == status then 1 else 0) + Count(opps[1..], status)
  }

  /** The counters shown on the landing page. */
  datatype Stats = Stats(total: nat, pending: nat, approved: nat, inProgress: nat, completed: nat)

  /** `stats`. */
  function StatsOf(opps: seq<Opp>): (st: Stats)
    ensures st.total == |opps|
    ensures st.pending == Count(opps, "pending") && st.approved == Count(opps, "approved")
    ensures st.inProgress == Count(opps, "in-progress") && st.completed == Count(opps, "completed")
    ensures st.pending + st.approved + st.inProgress + st.completed <= st.total
  {
    CountsWithinTotal(opps, "pending", "approved", "in-progress", "completed");
    Stats(|opps|, Count(opps, "pending"), Count(opps, "approved"),
          Count(opps, "in-progress"), Count(opps, "completed"))
  }

  /** An entry has one status, so the four status counters never add up to
      more than the total; the rest are entries with another status (such as
      `rejected`) or a malformed name. */
  lemma {:induction false} CountsWithinTotal(opps: seq<Opp>, a: string, b: string, c: string, d: string)
    requires a != b && a != c && a != d && b != c && b != d && c != d
    ensures Count(opps, a) + Count(opps, b) + Count(opps, c) + Count(opps, d) <= |opps|
  {
    if |opps| > 0 {
      CountsWithinTotal(opps[1..], a, b, c, d);
    }
  }

  /** Counting over a listing with one more entry. */
  lemma {:induction false} CountAppend(opps: seq<Opp>, o: Opp, status: string)
    ensures Count(opps + [o], status) == Count(opps, status) + (if StatusOfOpp(o) == status then 1 else 0)
  {
    if |opps| > 0 {
      assert (opps + [o])[1..] == opps[1..] + [o];
      CountAppend(opps[1..], o, status);
    }
  }

  /** A newly created submission adds one to the pending counter and leaves
      the other counters alone. */
  lemma NewSubmissionIsPending(opps: seq<Opp>, isoTimestamp: string, title: string, path: string)
    requires '_' !in isoTimestamp
    ensures var before := StatsOf(opps);
            var after := StatsOf(opps + [Opp(Some(Filenames.CreatedFilename(isoTimestamp, title)), path)]);
            && after.total == before.total + 1
            && after.pending == before.pending + 1
            && after.approved == before.approved
            && after.inProgress == before.inProgress
            && after.completed == before.completed
  {
    var o := Opp(Some(Filenames.CreatedFilename(isoTimestamp, title)), path);
    Filenames.CreatedFilenameIsPending(isoTimestamp, title);
    assert StatusOfOpp(o) == "pending";
    CountAppend(opps, o, "pending");
    CountAppend(opps, o, "approved");
    CountAppend(opps, o, "in-progress");
    CountAppend(opps, o, "completed");
  }

  /** `\d` (ASCII digits only). */
  predicate IsDigit(c: char) {
    '0' <= c <= '9'
  }

  /** `\d{4}-\d{2}-\d{2}` matches `s` at `i`. */
  predicate DateAt(s: string, i: nat) {
    && i + 10 <= |s|
    && IsDigit(s[i]) && IsDigit(s[i + 1]) && IsDigit(s[i + 2]) && IsDigit(s[i + 3])
    && s[i + 4] == '-' && IsDigit(s[i + 5]) && IsDigit(s[i + 6])
    && s[i + 7] == '-' && IsDigit(s[i + 8]) && IsDigit(s[i + 9])
  }

  /** The leftmost match of the date pattern at or after `from`. */
  function FindDate(s: string, from: nat): (r: Option<nat>)
    decreases |s| - from
    ensures r.Some? ==> from <= r.value && DateAt(s, r.value)
    ensures r.Some? ==> forall j: nat :: from <= j < r.value ==> !DateAt(s, j)
    ensures r.None? ==> forall j: nat :: from <= j ==> !DateAt(s, j)
  {
    if from + 10 > |s| then None
    else if DateAt(s, from) then Some(from)
    else FindDate(s, from + 1)
  }

  /** The text `parseDateFromName` hands to `new Date`, if any. */
  function DateText(name: Option<string>): (r: Option<string>)
    ensures r.Some? <==> name.Some? && exists i: nat :: DateAt(name.value, i)
    ensures r.Some? ==> exists i: nat :: DateAt(name.value, i) && r.value == name.value[i..i + 10]
                                      && forall j: nat :: j < i ==> !DateAt(name.value, j)
  {
    match name
    case None => None
    case Some(n) =>
      match FindDate(n, 0)
      case None => None
      case Some(i) => Some(n[i..i + 10])
  }

  /** A date at the front of `head` is still there once text is appended. */
  lemma DateAtFront(head: string, more: string)
    requires DateAt(head, 0)
    ensures DateAt(head + more, 0) && (head + more)[..10] == head[..10]
  {
  }

  /** Behind a prefix without digits, the first date is the one the rest
      starts with. */
  lemma DateBehindNoDigits(prefix: string, rest: string)
    requires forall j :: 0 <= j < |prefix| ==> !IsDigit(prefix[j])
    requires DateAt(rest, 0)
    ensures DateText(Some(prefix + rest)) == Some(rest[..10])
  {
    var s := prefix + rest;
    assert forall j :: 0 <= j < |prefix| ==> s[j] == prefix[j];
    assert forall j: nat :: j < |prefix| ==> !DateAt(s, j);
    assert forall k :: 0 <= k < 10 ==> s[|prefix| + k] == rest[k];
    assert DateAt(s, |prefix|);
    assert s[|prefix|..|prefix| + 10] == rest[..10];
  }

  /** The home page reads a new submission's creation date back out of the
      filename it was stored under. */
  lemma CreatedFilenameDate(isoTimestamp: string, title: string)
    requires DateAt(Filenames.DatePart(isoTimestamp), 0)
    ensures DateText(Some(Filenames.CreatedFilename(isoTimestamp, title))) == Some(Filenames.DatePart(isoTimestamp)[..10])
  {
    var d := Filenames.DatePart(isoTimestamp);
    var more := "-" + Filenames.Slug(title) + ".yaml";
    CreatedFilenameParts(isoTimestamp, title);
    DateAtFront(d, more);
    PendingPrefixHasNoDigits();
    DateBehindNoDigits("pending__", d + more);
  }

  /** A created filename is the pending prefix, the date part, and the rest. */
  lemma CreatedFilenameParts(isoTimestamp: string, title: string)
    ensures Filenames.CreatedFilename(isoTimestamp, title)
            == "pending__" + (Filenames.DatePart(isoTimestamp) + ("-" + Filenames.Slug(title) + ".yaml"))
  {
    var d := Filenames.DatePart(isoTimestamp);
    var more := "-" + Filenames.Slug(title) + ".yaml";
    assert Filenames.CreatedSuffix(isoTimestamp, title) == d + more;
  }

  /** The literal status prefix of a created name holds no digit. */
  lemma PendingPrefixHasNoDigits()
    ensures forall j :: 0 <= j < |"pending__"| ==> !IsDigit("pending__"[j])
  {
  }

  /** An entry of `recent`: the entry and its date as milliseconds since the
      epoch; its status is `StatusOfOpp(opp)`. */
  datatype Recent = Recent(opp: Opp, time: int)

  /** The statuses `recent` shows. */
  const ShownStatuses: seq<string> := ["approved", "in-progress", "completed"]

  /** `recent` keeps the entry. */
  predicate Shown(o: Opp) {
    StatusOfOpp(o) in ShownStatuses
  }

  /** `(parseDateFromName(o.name) || new Date(0)).getTime()`, with `toTime`
      standing for `new Date(text).getTime()`. */
  function TimeOf(o: Opp, toTime: string -> int): (t: int)
    ensures DateText(o.name).None? ==> t == 0
    ensures DateText(o.name).Some? ==> t == toTime(DateText(o.name).value)
  {
    var dt := DateText(o.name);
    if dt.Some? then toTime(dt.value) else 0
  }

  /** The `filter` step of `recent`. */
  function ShownOnly(opps: seq<Opp>): (r: seq<Opp>)
    ensures |r| <= |opps|
    ensures forall k :: 0 <= k < |r| ==> Shown(r[k]) && r[k] in opps
    ensures forall o :: multiset(r)[o] == if Shown(o) then multiset(opps)[o] else 0
  {
    if |opps| == 0 then []
    else
      var rest := ShownOnly(opps[1..]);
      var r := if Shown(opps[0]) then [opps[0]] + rest else rest;
      assert forall x :: x in opps[1..] ==> x in opps;
      FilterStepCounts(Shown, opps, rest, r);
      r
  }

  /** The step of a filter's count: keeping or dropping the head adds its
      occurrence, or not, to the counts kept from the rest. */
  lemma FilterStepCounts<T>(keep: T -> bool, xs: seq<T>, rest: seq<T>, r: seq<T>)
    requires |xs| > 0
    requires forall o :: multiset(rest)[o] == if keep(o) then multiset(xs[1..])[o] else 0
    requires r == if keep(xs[0]) then [xs[0]] + rest else rest
    ensures forall o :: multiset(r)[o] == if keep(o) then multiset(xs)[o] else 0
  {
    assert xs == [xs[0]] + xs[1..];
  }

  /** The filter works entry by entry, so the kept entries keep their order. */
  lemma {:induction false} ShownOnlyAppend(a: seq<Opp>, b: seq<Opp>)
    ensures ShownOnly(a + b) == ShownOnly(a) + ShownOnly(b)
    decreases |a|
  {
    if |a| > 0 {
      assert (a + b)[0] == a[0];
      assert (a + b)[1..] == a[1..] + b;
      ShownOnlyAppend(a[1..], b);
    } else {
      assert a + b == b;
    }
  }

  /** Every entry with a shown status makes it through the filter. */
  lemma {:induction false} ShownOnlyKeepsShown(opps: seq<Opp>, i: nat)
    requires i < |opps| && Shown(opps[i])
    ensures opps[i] in ShownOnly(opps)
  {
    if i > 0 {
      assert opps[i] == opps[1..][i - 1];
      ShownOnlyKeepsShown(opps[1..], i - 1);
    }
  }

  /** The `filter` and `map` steps of `recent`. */
  function Eligible(opps: seq<Opp>, toTime: string -> int): (r: seq<Recent>)
    ensures |r| <= |opps|
    ensures forall k :: 0 <= k < |r| ==> Shown(r[k].opp) && r[k].opp in opps
    ensures forall k :: 0 <= k < |r| ==> r[k].time == TimeOf(r[k].opp, toTime)
    ensures forall o :: multiset(OppsOf(r))[o] == if Shown(o) then multiset(opps)[o] else 0
    ensures OppsOf(r) == ShownOnly(opps)
  {
    var kept := ShownOnly(opps);
    var r := seq(|kept|, k requires 0 <= k < |kept| => Recent(kept[k], TimeOf(kept[k], toTime)));
    assert OppsOf(r) == kept;
    r
  }

  /** The entries behind a list of candidates. */
  function OppsOf(r: seq<Recent>): (os: seq<Opp>)
    ensures |os| == |r| && forall k :: 0 <= k < |r| ==> os[k] == r[k].opp
  {
    seq(|r|, k requires 0 <= k < |r| => r[k].opp)
  }

  /** Every entry with a shown status is a candidate for `recent`, with its
      own date. */
  lemma EligibleKeepsShown(opps: seq<Opp>, toTime: string -> int, i: nat)
    requires i < |opps| && Shown(opps[i])
    ensures Recent(opps[i], TimeOf(opps[i], toTime)) in Eligible(opps, toTime)
  {
    ShownOnlyKeepsShown(opps, i);
    var kept := ShownOnly(opps);
    var k :| 0 <= k < |kept| && kept[k] == opps[i];
    assert Eligible(opps, toTime)[k] == Recent(opps[i], TimeOf(opps[i], toTime));
  }

  /** Two lists that are permutations of each other hold the same items. */
  lemma SameItems(a: seq<Recent>, b: seq<Recent>)
    requires multiset(a) == multiset(b)
    ensures forall x :: x in a <==> x in b
  {
    assert forall x :: x in a <==> x in multiset(a);
    assert forall x :: x in b <==> x in multiset(b);
  }

  /** Newest first. */
  predicate NewestFirst(s: seq<Recent>) {
    forall i, j :: 0 <= i < j < |s| ==> s[i].time >= s[j].time
  }

  /** Puts `x` into the newest-first list `s` after every item at least as new,
      which is where a stable sort places a later element. */
  function Insert(x: Recent, s: seq<Recent>): (r: seq<Recent>)
    requires NewestFirst(s)
    ensures NewestFirst(r)
    ensures multiset(r) == multiset(s) + multiset{x}
    ensures |r| == |s| + 1
  {
    if |s| == 0 then [x]
    else if s[0].time < x.time then [x] + s
    else
      var rest := Insert(x, s[1..]);
      assert multiset(rest) == multiset(s[1..]) + multiset{x};
      assert s == [s[0]] + s[1..];
      assert rest[0] in multiset(rest);
      [s[0]] + rest
  }

  /** `sort((a, b) => b.date.getTime() - a.date.getTime())`: a stable sort,
      newest first. */
  function SortNewestFirst(s: seq<Recent>): (r: seq<Recent>)
    ensures NewestFirst(r)
    ensures multiset(r) == multiset(s)
    ensures |r| == |s|
  {
    if |s| == 0 then []
    else
      var n := |s| - 1;
      assert s == s[..n] + [s[n]];
      Insert(s[n], SortNewestFirst(s[..n]))
  }

  /** An item no newer than anything in the list goes to its end. */
  lemma {:induction false} InsertOldest(x: Recent, s: seq<Recent>)
    requires NewestFirst(s)
    requires forall k :: 0 <= k < |s| ==> x.time <= s[k].time
    ensures Insert(x, s) == s + [x]
  {
    if |s| > 0 {
      InsertOldest(x, s[1..]);
      assert s == [s[0]] + s[1..];
    }
  }

  /** The sort is stable: a list that is already newest first, ties
      included, comes out as it went in. */
  lemma {:induction false} SortKeepsSorted(s: seq<Recent>)
    requires NewestFirst(s)
    ensures SortNewestFirst(s) == s
  {
    if |s| > 0 {
      var n := |s| - 1;
      var init := s[..n];
      assert NewestFirst(init) by {
        forall i, j | 0 <= i < j < |init| ensures init[i].time >= init[j].time {
          assert init[i] == s[i] && init[j] == s[j];
        }
      }
      assert forall k :: 0 <= k < |init| ==> s[n].time <= init[k].time by {
        forall k | 0 <= k < |init| ensures s[n].time <= init[k].time {
          assert init[k] == s[k];
        }
      }
      assert s == init + [s[n]];
      SortKeepsSorted(init);
      InsertOldest(s[n], init);
    }
  }

  /** The entries of `s` dated `t`, in their order in `s`: one class of ties. */
  function WithTime(s: seq<Recent>, t: int): (r: seq<Recent>)
    ensures |r| <= |s|
    ensures forall k :: 0 <= k < |r| ==> r[k].time == t && r[k] in s
  {
    if |s| == 0 then []
    else
      var rest := WithTime(s[1..], t);
      assert forall x :: x in s[1..] ==> x in s;
      (if s[0].time == t then [s[0]] else []) + rest
  }

  /** Picking one date's entries works part by part on a concatenation. */
  lemma {:induction false} WithTimeAppend(a: seq<Recent>, b: seq<Recent>, t: int)
    ensures WithTime(a + b, t) == WithTime(a, t) + WithTime(b, t)
    decreases |a|
  {
    if |a| > 0 {
      assert (a + b)[0] == a[0];
      assert (a + b)[1..] == a[1..] + b;
      WithTimeAppend(a[1..], b, t);
    } else {
      assert a + b == b;
    }
  }

  /** A newest-first list whose head is older than `t` has nothing dated `t`. */
  lemma {:induction false} NothingDatedAfterHead(s: seq<Recent>, t: int)
    requires NewestFirst(s) && |s| > 0 && s[0].time < t
    ensures WithTime(s, t) == []
    decreases |s|
  {
    if |s| > 1 {
      NewestFirstTail(s);
      assert s[1..][0].time <= s[0].time;
      NothingDatedAfterHead(s[1..], t);
    } else {
      assert s[1..] == [];
    }
  }

  /** Inserting puts the new item after every item it ties with. */
  lemma {:induction false} InsertAfterTies(x: Recent, s: seq<Recent>, t: int)
    requires NewestFirst(s)
    ensures WithTime(Insert(x, s), t) == WithTime(s, t) + (if x.time == t then [x] else [])
    decreases |s|
  {
    if |s| == 0 {
      assert WithTime([x], t) == (if x.time == t then [x] else []) + WithTime([], t);
    } else if s[0].time < x.time {
      assert ([x] + s)[1..] == s;
      if x.time == t {
        NothingDatedAfterHead(s, t);
      }
    } else {
      NewestFirstTail(s);
      InsertAfterTies(x, s[1..], t);
      InsertAfterTiesStep(x, s, t);
    }
  }

  /** The tail of a newest-first list is newest first. */
  lemma NewestFirstTail(s: seq<Recent>)
    requires NewestFirst(s) && |s| > 0
    ensures NewestFirst(s[1..])
  {
    forall i, j | 0 <= i < j < |s[1..]| ensures s[1..][i].time >= s[1..][j].time {
      assert s[1..][i] == s[i + 1] && s[1..][j] == s[j + 1];
    }
  }

  /** The step of `InsertAfterTies` when `x` goes behind the head. */
  lemma InsertAfterTiesStep(x: Recent, s: seq<Recent>, t: int)
    requires NewestFirst(s) && |s| > 0 && x.time <= s[0].time && NewestFirst(s[1..])
    requires WithTime(Insert(x, s[1..]), t) == WithTime(s[1..], t) + (if x.time == t then [x] else [])
    ensures WithTime(Insert(x, s), t) == WithTime(s, t) + (if x.time == t then [x] else [])
  {
    var rest := Insert(x, s[1..]);
    InsertBehindHead(x, s);
    WithTimeCons(s[0], rest, t);
    WithTimeUnfold(s, t);
    var head := if s[0].time == t then [s[0]] else [];
    var tie := if x.time == t then [x] else [];
    Regroup(head, WithTime(s[1..], t), tie);
  }

  /** An item no newer than the head goes in behind it. */
  lemma InsertBehindHead(x: Recent, s: seq<Recent>)
    requires NewestFirst(s) && |s| > 0 && x.time <= s[0].time && NewestFirst(s[1..])
    ensures Insert(x, s) == [s[0]] + Insert(x, s[1..])
  {
  }

  /** The filter looks at the head, then at the rest. */
  lemma WithTimeCons(y: Recent, r: seq<Recent>, t: int)
    ensures WithTime([y] + r, t) == (if y.time == t then [y] else []) + WithTime(r, t)
  {
    assert ([y] + r)[1..] == r;
  }

  /** One step of picking one date's entries: the head if it has that date,
      then the picks from the rest. */
  lemma WithTimeUnfold(s: seq<Recent>, t: int)
    requires |s| > 0
    ensures WithTime(s, t) == (if s[0].time == t then [s[0]] else []) + WithTime(s[1..], t)
  {
  }

  /** The sort is stable: the entries that tie on a date come out in the
      order they went in. */
  lemma {:induction false} SortIsStable(s: seq<Recent>, t: int)
    ensures WithTime(SortNewestFirst(s), t) == WithTime(s, t)
    decreases |s|
  {
    if |s| > 0 {
      var n := |s| - 1;
      var init, last := s[..n], s[n];
      var tie := if last.time == t then [last] else [];
      assert s == init + [last];
      assert SortNewestFirst(s) == Insert(last, SortNewestFirst(init));
      SortIsStable(init, t);
      InsertAfterTies(last, SortNewestFirst(init), t);
      assert WithTime(SortNewestFirst(s), t) == WithTime(init, t) + tie;
      WithTimeAppend(init, [last], t);
      assert WithTime([last], t) == tie + WithTime([last][1..], t);
      assert [last][1..] == [];
    }
  }

  /** `slice(0, 5)`. */
  function FirstFive(s: seq<Recent>): (r: seq<Recent>)
    ensures |r| == if |s| < 5 then |s| else 5
    ensures r <= s
    ensures NewestFirst(s) ==> NewestFirst(r)
    ensures forall k :: 0 <= k < |r| ==> r[k] in s
  {
    if |s| <= 5 then s else s[..5]
  }

  /** The items a newest-first list loses to `FirstFive` are no newer than
      the ones it keeps. */
  lemma FirstFiveKeepsNewest(s: seq<Recent>)
    requires NewestFirst(s)
    ensures exists rest: seq<Recent> ::
              && multiset(FirstFive(s)) + multiset(rest) == multiset(s)
              && forall i, j :: 0 <= i < |FirstFive(s)| && 0 <= j < |rest| ==> rest[j].time <= FirstFive(s)[i].time
  {
    var r := FirstFive(s);
    var rest := s[|r|..];
    assert s == r + rest;
    assert multiset(r) + multiset(rest) == multiset(s);
    NewestFirstSplit(r, rest);
  }

  /** In a newest-first list every entry of the head is at least as new as every
      entry of the tail. */
  lemma NewestFirstSplit(head: seq<Recent>, tail: seq<Recent>)
    requires NewestFirst(head + tail)
    ensures forall i, j :: 0 <= i < |head| && 0 <= j < |tail| ==> tail[j].time <= head[i].time
  {
    var s := head + tail;
    forall i, j | 0 <= i < |head| && 0 <= j < |tail| ensures tail[j].time <= head[i].time {
      assert head[i] == s[i] && tail[j] == s[|head| + j];
    }
  }

  /** `recent`: the five newest entries with a shown status. */
  function RecentOf(opps: seq<Opp>, toTime: string -> int): (r: seq<Recent>)
    ensures |r| <= 5
    ensures NewestFirst(r)
    ensures forall k :: 0 <= k < |r| ==> Shown(r[k].opp) && r[k].opp in opps
  {
    var all := Eligible(opps, toTime);
    var sorted := SortNewestFirst(all);
    SameItems(sorted, all);
    FirstFive(sorted)
  }

  /** The entries `recent` leaves out are no newer than any it shows, and it
      shows five whenever there are five to show. */
  lemma RecentIsNewest(opps: seq<Opp>, toTime: string -> int)
    ensures var all := Eligible(opps, toTime);
            var r := RecentOf(opps, toTime);
            && |r| == (if |all| < 5 then |all| else 5)
            && exists rest: seq<Recent> ::
                 && multiset(r) + multiset(rest) == multiset(all)
                 && forall i, j :: 0 <= i < |r| && 0 <= j < |rest| ==> rest[j].time <= r[i].time
  {
    FirstFiveKeepsNewest(SortNewestFirst(Eligible(opps, toTime)));
  }
}

=== FILE: join_route.dfy ===
/** The join endpoint (`POST /api/storage/join`): add one person to the team of
    a stored submission. The route reads the file, decodes its YAML body,
    normalises the existing `team_members`, appends the joiner and writes the
    file back under the revision marker it read. */
module JoinRoute {
  import opened Wrappers
  import opened JsValue
  import opened Store
  import opened Team
  import Schema

  /** How a join request ends: 200, 400 or 500. */
  datatype Outcome = Joined | MissingFields | Failed {
    function Status(): nat {
      match this
      case Joined => 200
      case MissingFields => 400
      case Failed => 500
    }
  }

  /** The error text of the 400 response. */
  const MissingFieldsMessage: string := "filename and name are required"

  /** The JSON body of each response: `{ success: true, message: 'Joined' }`,
      the 400 body, or the 500 body carrying the message of the error the route
      caught (`caught`). */
  function ResponseBody(o: Outcome, caught: string): (v: Value)
    ensures v.Obj? && "success" in v.fields
    ensures Truthy(v.fields["success"]) <==> o == Joined
    ensures o != Joined ==> "error" in v.fields && v.fields["error"].Str?
    ensures o == MissingFields ==> v.fields["error"] == Str(MissingFieldsMessage)
    ensures o == Failed ==> v.fields["error"] == Str(caught)
  {
    match o
    case Joined => Obj(map["success" := Bool(true), "message" := Str("Joined")])
    case MissingFields => Obj(map["success" := Bool(false), "error" := Str(MissingFieldsMessage)])
    case Failed => Obj(map["success" := Bool(false), "error" := Str(caught)])
  }

  /** The three fields destructured from the request body. */
  datatype JoinRequest = JoinRequest(filename: Value, name: Value, email: Value)

  /** `const { filename, name, email } = await request.json()`: destructuring
      `null` throws; any other value yields its three properties. */
  function ReadRequest(body: Value): (r: Option<JoinRequest>)
    ensures r.None? <==> body.Undefined? || body.Null?
    ensures body.Obj? ==> r.Some? && (("filename" !in body.fields) ==> r.value.filename.Undefined?)
    ensures body.Obj? ==> r.value.filename == (if "filename" in body.fields then body.fields["filename"] else Undefined)
    ensures body.Obj? ==> r.value.name == (if "name" in body.fields then body.fields["name"] else Undefined)
    ensures body.Obj? ==> r.value.email == (if "email" in body.fields then body.fields["email"] else Undefined)
    ensures r.Some? && !body.Obj? ==> r.value == JoinRequest(Undefined, Undefined, Undefined)
  {
    if body.Undefined? || body.Null? then None
    else Some(JoinRequest(Field(body, "filename"), Field(body, "name"), Field(body, "email")))
  }

  /** `yaml.load(raw) || {}`, with a throwing `load` (here `None`) caught as `{}`. */
  function DecodeBody(raw: string, load: string -> Option<Value>): (v: Value)
    ensures Truthy(v)
    ensures load(raw).None? || !Truthy(load(raw).value) ==> v == Obj(map[])
    ensures load(raw).Some? && Truthy(load(raw).value) ==> v == load(raw).value
  {
    match load(raw)
    case None => Obj(map[])
    case Some(v) => Or(v, Obj(map[]))
  }

  /** The entry appended for the joiner: `{ name, email: email || '', joined_date }`. */
  function NewEntry(name: Value, email: Value, now: string): (e: Value)
    ensures e.Obj? && e.fields.Keys == {"name", "email", "joined_date"}
    ensures Truthy(e.fields["email"]) || e.fields["email"] == Str("")
    ensures e.fields["name"] == name && e.fields["joined_date"] == Str(now)
    ensures Truthy(email) ==> e.fields["email"] == email
    ensures !Truthy(email) ==> e.fields["email"] == Str("")
  {
    Obj(map["name" := name, "email" := Or(email, Str("")), "joined_date" := Str(now)])
  }

  /** Lines 48-50: normalise `parsed.team_members`, append the entry and store the
      list back on the record. Setting a property on an array leaves what gets
      serialised unchanged; on any other primitive it throws. */
  function AddJoiner(parsed: Value, entry: Value): (r: Result<Value, TypeError>)
    requires Truthy(parsed)
    ensures r.Ok? <==> ParseTeam(Field(parsed, "team_members")).Ok? && (parsed.Obj? || parsed.Arr?)
    ensures parsed.Arr? ==> r == Ok(parsed)
    ensures parsed.Obj? && r.Ok? ==> r.value.Obj? && r.value.fields.Keys == parsed.fields.Keys + {"team_members"}
    ensures parsed.Obj? && r.Ok? ==> forall k :: k in parsed.fields && k != "team_members" ==>
              r.value.fields[k] == parsed.fields[k]
    ensures parsed.Obj? && r.Ok? ==>
              var team := r.value.fields["team_members"];
              var existing := ParseTeam(Field(parsed, "team_members")).value;
              && team.Arr? && |team.items| == |existing| + 1
              && team.items[..|existing|] == MembersToValue(existing).items
              && team.items[|existing|] == entry
  {
    match ParseTeam(Field(parsed, "team_members"))
    case Err(e) => Err(e)
    case Ok(existing) =>
      var team := Arr(MembersToValue(existing).items + [entry]);
      match parsed
      case Obj(fields) => Ok(Obj(fields["team_members" := team]))
      case Arr(_) => Ok(parsed)
      case _ => Err(CannotCreateProperty("team_members"))
  }

  /** What the route will write: the path it read, the new content and the
      revision marker that read returned. */
  datatype Plan = Plan(path: string, content: string, sha: string)

  /** Everything before the write: the request guard, the read, the decode and
      the record update. `Err` carries the response the route gives instead. */
  function Prepare(s: Store, body: Value, now: string, load: string -> Option<Value>,
                   dump: Value -> string, numberText: Number -> string): (r: Result<Plan, Outcome>)
    ensures r.Err? ==> r.error != Joined
    ensures (r == Err(MissingFields)) <==>
              (ReadRequest(body).Some? && (!Truthy(ReadRequest(body).value.filename) || !Truthy(ReadRequest(body).value.name)))
    ensures r.Ok? ==> ReadRequest(body).Some?
    ensures r.Ok? ==> r.value.path == SubmissionsDir + ToJsString(ReadRequest(body).value.filename, numberText)
    ensures r.Ok? ==> r.value.path in s && r.value.sha == s[r.value.path].sha
    ensures r.Ok? ==>
              var req := ReadRequest(body).value;
              var updated := AddJoiner(DecodeBody(s[r.value.path].content, load), NewEntry(req.name, req.email, now));
              updated.Ok? && r.value.content == dump(updated.value)
    ensures ReadRequest(body).Some? ==>
              var req := ReadRequest(body).value;
              var path := SubmissionsDir + ToJsString(req.filename, numberText);
              Truthy(req.filename) && Truthy(req.name) && path in s
              && AddJoiner(DecodeBody(s[path].content, load), NewEntry(req.name, req.email, now)).Ok?
              ==> r.Ok?
  {
    match ReadRequest(body)
    case None => Err(Failed)
    case Some(req) =>
      if !Truthy(req.filename) || !Truthy(req.name) then Err(MissingFields)
      else
        var path := SubmissionsDir + ToJsString(req.filename, numberText);
        match Read(s, path)
        case Err(_) => Err(Failed)
        case Ok(file) =>
          var parsed := DecodeBody(file.content, load);
          match AddJoiner(parsed, NewEntry(req.name, req.email, now))
          case Err(_) => Err(Failed)
          case Ok(updated) => Ok(Plan(path, dump(updated), file.sha))
  }

  /** The write, against the store as it is when the write arrives. */
  function Commit(s: Store, plan: Plan, blobSha: string -> string): (r: (Outcome, Store))
    ensures r.0 == Joined <==> plan.path in s && s[plan.path].sha == plan.sha
    ensures r.0 != Joined ==> r.0 == Failed && r.1 == s
    ensures r.0 == Joined ==> r.1.Keys == s.Keys && r.1[plan.path].content == plan.content
    ensures r.0 == Joined ==> forall p :: p in s && p != plan.path ==> r.1[p] == s[p]
    ensures Consistent(s, blobSha) ==> Consistent(r.1, blobSha)
  {
    match Write(s, plan.path, plan.content, Some(plan.sha), blobSha)
    case Ok(next) => (Joined, next)
    case Err(_) => (Failed, s)
  }

  /** The whole route, with no other write between its read and its write. */
  function Join(s: Store, body: Value, now: string, load: string -> Option<Value>,
                dump: Value -> string, blobSha: string -> string,
                numberText: Number -> string): (r: (Outcome, Store))
    ensures r.0 != Joined ==> r.1 == s
    ensures r.0 == Joined <==> Prepare(s, body, now, load, dump, numberText).Ok?
    ensures r.0 == Joined ==>
              var plan := Prepare(s, body, now, load, dump, numberText).value;
              && r.1.Keys == s.Keys
              && r.1[plan.path].content == plan.content
              && forall p :: p in s && p != plan.path ==> r.1[p] == s[p]
    ensures ReadRequest(body).Some? ==>
              var req := ReadRequest(body).value;
              var path := SubmissionsDir + ToJsString(req.filename, numberText);
              Truthy(req.filename) && Truthy(req.name) && path in s
              && AddJoiner(DecodeBody(s[path].content, load), NewEntry(req.name, req.email, now)).Ok?
              ==> r.0 == Joined && r.1[path].content == Prepare(s, body, now, load, dump, numberText).value.content
    ensures Consistent(s, blobSha) ==> Consistent(r.1, blobSha)
  {
    match Prepare(s, body, now, load, dump, numberText)
    case Err(o) => (o, s)
    case Ok(plan) => Commit(s, plan, blobSha)
  }

  /** The route prepared against one state of the store and writing into
      another, as when a second request changes the file in between. */
  function JoinAgainst(read: Store, current: Store, body: Value, now: string,
                       load: string -> Option<Value>, dump: Value -> string,
                       blobSha: string -> string, numberText: Number -> string): (Outcome, Store)
  {
    match Prepare(read, body, now, load, dump, numberText)
    case Err(o) => (o, current)
    case Ok(plan) => Commit(current, plan, blobSha)
  }

  /** A request without a truthy `filename` or `name` is answered 400 whatever the
      store holds, and the store is left as it was. */
  lemma MissingFieldsTouchNothing(body: Value, now: string, load: string -> Option<Value>,
                                  dump: Value -> string, blobSha: string -> string,
                                  numberText: Number -> string)
    requires ReadRequest(body).Some?
    requires !Truthy(ReadRequest(body).value.filename) || !Truthy(ReadRequest(body).value.name)
    ensures forall s :: Join(s, body, now, load, dump, blobSha, numberText) == (MissingFields, s)
  {
    forall s ensures Join(s, body, now, load, dump, blobSha, numberText) == (MissingFields, s) {
      assert Prepare(s, body, now, load, dump, numberText) == Err(MissingFields);
    }
  }

  /** A file whose body does not decode, or decodes to a falsy value, is treated
      as the empty record: the join still succeeds and writes a record holding
      only the new team list. */
  lemma UndecodableBodyStillJoins(s: Store, body: Value, now: string, load: string -> Option<Value>,
                                  dump: Value -> string, blobSha: string -> string,
                                  numberText: Number -> string)
    requires ReadRequest(body).Some?
    requires Truthy(ReadRequest(body).value.filename) && Truthy(ReadRequest(body).value.name)
    requires SubmissionsDir + ToJsString(ReadRequest(body).value.filename, numberText) in s
    requires var raw := s[SubmissionsDir + ToJsString(ReadRequest(body).value.filename, numberText)].content;
             load(raw).None? || !Truthy(load(raw).value)
    ensures var req := ReadRequest(body).value;
            var path := SubmissionsDir + ToJsString(req.filename, numberText);
            var r := Join(s, body, now, load, dump, blobSha, numberText);
            && r.0 == Joined
            && r.1[path].content == dump(Obj(map["team_members" := Arr([NewEntry(req.name, req.email, now)])]))
  {
    var req := ReadRequest(body).value;
    var entry := NewEntry(req.name, req.email, now);
    var path := SubmissionsDir + ToJsString(req.filename, numberText);
    assert DecodeBody(s[path].content, load) == Obj(map[]);
    assert Field(Obj(map[]), "team_members") == Undefined;
    assert MembersToValue([]).items + [entry] == [entry];
    assert AddJoiner(Obj(map[]), entry) == Ok(Obj(map["team_members" := Arr([entry])]));
  }

  /** The normalised earlier members are written back as `{name, email}` only, so
      a `joined_date` they carried is not kept. */
  lemma EarlierJoinDatesDropped(parsed: Value, entry: Value)
    requires parsed.Obj? && AddJoiner(parsed, entry).Ok?
    ensures var team := AddJoiner(parsed, entry).value.fields["team_members"];
            forall i :: 0 <= i < |team.items| - 1 ==>
              team.items[i].Obj? && team.items[i].fields.Keys == {"name", "email"}
  {
    var existing := ParseTeam(Field(parsed, "team_members")).value;
    var team := AddJoiner(parsed, entry).value.fields["team_members"];
    forall i | 0 <= i < |team.items| - 1
      ensures team.items[i].Obj? && team.items[i].fields.Keys == {"name", "email"}
    {
      assert team.items[i] == team.items[..|existing|][i] == MembersToValue(existing).items[i];
    }
  }

  /** A top-level YAML list takes the new list as a property that is never
      serialised: the join answers 200 and writes the list back unchanged. */
  lemma ListBodyLosesJoiner(s: Store, body: Value, now: string, load: string -> Option<Value>,
                            dump: Value -> string, numberText: Number -> string)
    requires ReadRequest(body).Some?
    requires Truthy(ReadRequest(body).value.filename) && Truthy(ReadRequest(body).value.name)
    requires SubmissionsDir + ToJsString(ReadRequest(body).value.filename, numberText) in s
    requires var raw := s[SubmissionsDir + ToJsString(ReadRequest(body).value.filename, numberText)].content;
             load(raw).Some? && load(raw).value.Arr?
    ensures var raw := s[SubmissionsDir + ToJsString(ReadRequest(body).value.filename, numberText)].content;
            var r := Prepare(s, body, now, load, dump, numberText);
            r.Ok? && r.value.content == dump(load(raw).value)
  {
  }

  /** When the file changed between the route's read and its write, the write is
      refused and the store keeps the other writer's version. */
  lemma StaleReadRefused(read: Store, current: Store, body: Value, now: string,
                         load: string -> Option<Value>, dump: Value -> string,
                         blobSha: string -> string, numberText: Number -> string)
    requires Prepare(read, body, now, load, dump, numberText).Ok?
    requires var path := Prepare(read, body, now, load, dump, numberText).value.path;
             path !in current || current[path].sha != read[path].sha
    ensures JoinAgainst(read, current, body, now, load, dump, blobSha, numberText) == (Failed, current)
  {
  }

  /** Without an intervening write, the split route is the route. */
  lemma JoinAgainstSameStore(s: Store, body: Value, now: string, load: string -> Option<Value>,
                             dump: Value -> string, blobSha: string -> string,
                             numberText: Number -> string)
    ensures JoinAgainst(s, s, body, now, load, dump, blobSha, numberText)
         == Join(s, body, now, load, dump, blobSha, numberText)
  {
  }

  /** The route never consults the join schema, and its own guard is looser:
      every request the schema accepts gets past the guard, but so does one
      whose name is a number. */
  lemma JoinSchemaPassesGuard(body: Value, isEmail: string -> bool)
    requires ReadRequest(body).Some?
    requires var req := ReadRequest(body).value;
             Schema.JoinRequestOk(req.filename, req.name, req.email, isEmail)
    ensures Truthy(ReadRequest(body).value.filename) && Truthy(ReadRequest(body).value.name)
    ensures forall s, now, load, dump, numberText ::
              Prepare(s, body, now, load, dump, numberText) != Err(MissingFields)
  {
  }

  /** A numeric name passes the route's guard and fails the join schema. */
  lemma NumericNameSkipsSchema(isEmail: string -> bool)
    ensures var body := Obj(map["filename" := Str("f.yaml"), "name" := Num(Finite(1.0))]);
            var req := ReadRequest(body).value;
            && Truthy(req.filename) && Truthy(req.name)
            && !Schema.JoinRequestOk(req.filename, req.name, req.email, isEmail)
  {
  }
}

=== FILE: js_text.dfy ===
/** The JavaScript string primitives the portal relies on: `trim`, the `\s`
    character class, ASCII `toLowerCase`, UTF-16 `.length`, `split` on a literal
    separator and on `/\r?\n/`, `Array.prototype.join`, and decimal rendering of
    array indices. */
module JsText {
  import opened Wrappers

  /** Characters matched by the regular-expression class `\s`; `String.prototype.trim`
      strips exactly these (WhiteSpace and LineTerminator of ECMA-262). */
  predicate IsSpace(c: char) {
    || c == '\t' || c == '\n' || c == '\U{000B}' || c == '\U{000C}' || c == '\r'
    || c == ' ' || c == '\U{00A0}' || c == '\U{1680}'
    || ('\U{2000}' <= c <= '\U{200A}')
    || c == '\U{2028}' || c == '\U{2029}' || c == '\U{202F}' || c == '\U{205F}'
    || c == '\U{3000}' || c == '\U{FEFF}'
  }

  /** Characters the regular-expression `.` does not match. */
  predicate IsLineTerminator(c: char) {
    c == '\n' || c == '\r' || c == '\U{2028}' || c == '\U{2029}'
  }

  predicate AllSpace(s: string) {
    forall i :: 0 <= i < |s| ==> IsSpace(s[i])
  }

  predicate NoSpace(s: string) {
    forall i :: 0 <= i < |s| ==> !IsSpace(s[i])
  }

  /** Number of whitespace characters at the start of `s`. */
  function LeadingSpaces(s: string): (n: nat)
    ensures n <= |s|
    ensures AllSpace(s[..n])
    ensures n < |s| ==> !IsSpace(s[n])
  {
    if |s| == 0 || !IsSpace(s[0]) then 0
    else
      var k := LeadingSpaces(s[1..]);
      assert s[1..][..k] == s[1..k + 1];
      k + 1
  }

  /** Number of whitespace characters at the end of `s`. */
  function TrailingSpaces(s: string): (n: nat)
    ensures n <= |s|
    ensures AllSpace(s[|s| - n..])
    ensures n < |s| ==> !IsSpace(s[|s| - 1 - n])
  {
    if |s| == 0 || !IsSpace(s[|s| - 1]) then 0
    else
      var k := TrailingSpaces(s[..|s| - 1]);
      assert s[..|s| - 1][|s| - 1 - k..] == s[|s| - 1 - k..|s| - 1];
      k + 1
  }

  /** `String.prototype.trim`: the result is the infix of `s` left after removing
      the whitespace on both ends. */
  function Trim(s: string): (r: string)
    ensures |r| <= |s|
    ensures r == "" <==> AllSpace(s)
    ensures r != "" ==> !IsSpace(r[0]) && !IsSpace(r[|r| - 1])
    ensures exists i :: 0 <= i <= |s| - |r| && s[i..i + |r|] == r
                        && AllSpace(s[..i]) && AllSpace(s[i + |r|..])
  {
    var a := LeadingSpaces(s);
    var t := s[a..];
    var b := TrailingSpaces(t);
    TrimSliceInfix(s, a, b);
    TrimSliceEnds(s, a, b);
    t[..|t| - b]
  }

  /** The middle left between a leading and a trailing whitespace run is an
      infix framed by whitespace. */
  lemma TrimSliceInfix(s: string, a: nat, b: nat)
    requires a <= |s| && b <= |s| - a
    requires AllSpace(s[..a]) && AllSpace(s[a..][|s| - a - b..])
    ensures var r := s[a..][..|s| - a - b];
            exists i :: 0 <= i <= |s| - |r| && s[i..i + |r|] == r
                        && AllSpace(s[..i]) && AllSpace(s[i + |r|..])
  {
    var t := s[a..];
    var r := t[..|t| - b];
    assert s[a..a + |r|] == r;
    assert s[a + |r|..] == t[|t| - b..];
  }

  /** When the runs are maximal, the middle is empty exactly for an all-space
      text and otherwise starts and ends with something else. */
  lemma TrimSliceEnds(s: string, a: nat, b: nat)
    requires a <= |s| && b <= |s| - a
    requires AllSpace(s[..a]) && (a < |s| ==> !IsSpace(s[a]))
    requires AllSpace(s[a..][|s| - a - b..])
    requires b < |s| - a ==> !IsSpace(s[a..][|s| - a - 1 - b])
    ensures var r := s[a..][..|s| - a - b];
            && (r == "" <==> AllSpace(s))
            && (r != "" ==> !IsSpace(r[0]) && !IsSpace(r[|r| - 1]))
  {
    var t := s[a..];
    var r := t[..|t| - b];
    if r != "" {
      assert r[0] == s[a] && r[|r| - 1] == t[|t| - 1 - b];
    }
    if AllSpace(s) {
      assert a == |s|;
    }
    EmptyMiddleAllSpace(s, a, b);
  }

  /** Trimming removes exactly the whitespace padding around a text that starts
      and ends with something else. */
  lemma TrimPadded(pre: string, s: string, post: string)
    requires AllSpace(pre) && AllSpace(post)
    requires s != "" && !IsSpace(s[0]) && !IsSpace(s[|s| - 1])
    ensures Trim(pre + s + post) == s
  {
    var x := pre + s + post;
    assert x[..|pre|] == pre && x[|pre|] == s[0];
    LeadingSpacesExact(x, |pre|);
    var t := x[|pre|..];
    assert t == s + post;
    assert t[|t| - |post|..] == post && t[|t| - 1 - |post|] == s[|s| - 1];
    TrailingSpacesExact(t, |post|);
    assert t[..|t| - |post|] == s;
  }

  /** A text that starts and ends with non-whitespace is its own trim. */
  lemma TrimUnpadded(s: string)
    requires s != "" && !IsSpace(s[0]) && !IsSpace(s[|s| - 1])
    ensures Trim(s) == s
  {
    assert "" + s + "" == s;
    TrimPadded("", s, "");
  }

  /** Trimming drops one trailing blank. */
  lemma TrimTrailingBlank(s: string)
    requires s != "" && !IsSpace(s[0]) && !IsSpace(s[|s| - 1])
    ensures Trim(s + " ") == s
  {
    assert "" + s + " " == s + " ";
    TrimPadded("", s, " ");
  }

  /** The leading whitespace run ends at the first other character. */
  lemma LeadingSpacesExact(s: string, n: nat)
    requires n < |s| && AllSpace(s[..n]) && !IsSpace(s[n])
    ensures LeadingSpaces(s) == n
  {
  }

  /** The trailing whitespace run ends at the last other character. */
  lemma TrailingSpacesExact(s: string, n: nat)
    requires n < |s| && AllSpace(s[|s| - n..]) && !IsSpace(s[|s| - 1 - n])
    ensures TrailingSpaces(s) == n
  {
  }

  /** When nothing is left between the leading and trailing whitespace, all of
      `s` is whitespace. */
  lemma EmptyMiddleAllSpace(s: string, a: nat, b: nat)
    requires a <= |s| && b <= |s| - a
    requires AllSpace(s[..a]) && AllSpace(s[a..][|s| - a - b..])
    ensures |s| - a - b == 0 ==> AllSpace(s)
  {
    if |s| - a - b == 0 {
      forall k | 0 <= k < |s| ensures IsSpace(s[k]) {
        if k < a {
          assert s[..a][k] == s[k];
        } else {
          assert s[a..][|s| - a - b..][k - a] == s[k];
        }
      }
    }
  }

  /** `String.prototype.toLowerCase`, restricted to the ASCII letters. */
  function LowerChar(c: char): char {
    if 'A' <= c <= 'Z' then (c as int - 'A' as int + 'a' as int) as char else c
  }

  function ToLower(s: string): (r: string)
    ensures |r| == |s|
    ensures forall i :: 0 <= i < |s| ==> r[i] == LowerChar(s[i])
  {
    seq(|s|, i requires 0 <= i < |s| => LowerChar(s[i]))
  }

  /** Text without capital letters is its own lower case. */
  lemma ToLowerWithoutCapitals(s: string)
    requires forall i :: 0 <= i < |s| ==> !('A' <= s[i] <= 'Z')
    ensures ToLower(s) == s
  {
  }

  /** The JavaScript `.length` of a string: the number of UTF-16 code units, so a
      character outside the Basic Multilingual Plane counts twice. */
  function Utf16Length(s: string): (n: nat)
    ensures |s| <= n <= 2 * |s|
    ensures n == 0 <==> s == ""
  {
    if s == "" then 0
    else (if s[0] as int > 0xFFFF then 2 else 1) + Utf16Length(s[1..])
  }

  /** `sep` occurs in `s` starting at index `i`. */
  predicate OccursAt(s: string, sep: string, i: nat) {
    i + |sep| <= |s| && s[i..i + |sep|] == sep
  }

  predicate Contains(s: string, sep: string) {
    exists i: nat :: i <= |s| && OccursAt(s, sep, i)
  }

  /** `String.prototype.indexOf(sep, from)`: the leftmost occurrence at or after `from`. */
  function FindFrom(s: string, sep: string, from: nat): (r: Option<nat>)
    decreases |s| - from
    ensures r.Some? ==> from <= r.value && OccursAt(s, sep, r.value)
    ensures r.Some? ==> forall j: nat :: from <= j < r.value ==> !OccursAt(s, sep, j)
    ensures r.None? ==> forall j: nat :: from <= j ==> !OccursAt(s, sep, j)
  {
    if from + |sep| > |s| then None
    else if OccursAt(s, sep, from) then Some(from)
    else FindFrom(s, sep, from + 1)
  }

  /** `Array.prototype.join(sep)` on an array of strings. */
  function Join(parts: seq<string>, sep: string): string {
    if |parts| == 0 then ""
    else if |parts| == 1 then parts[0]
    else parts[0] + sep + Join(parts[1..], sep)
  }

  /** `String.prototype.split(sep)` for a non-empty literal separator: cut at every
      occurrence, scanning left to right without overlaps. */
  function Split(s: string, sep: string): (parts: seq<string>)
    requires |sep| > 0
    decreases |s|
    ensures |parts| >= 1
    ensures Join(parts, sep) == s
    ensures !Contains(parts[|parts| - 1], sep)
  {
    match FindFrom(s, sep, 0)
    case None => [s]
    case Some(i) =>
      var rest := Split(s[i + |sep|..], sep);
      assert s == s[..i] + sep + s[i + |sep|..];
      [s[..i]] + rest
  }

  /** The first piece of a split is the text before the first occurrence of
      `sep`, or the whole text when `sep` does not occur. */
  lemma SplitFirstPiece(s: string, sep: string)
    requires |sep| > 0
    ensures var p := Split(s, sep)[0];
            && |p| <= |s| && p == s[..|p|]
            && !Contains(p, sep)
            && (Contains(s, sep) ==> |p| + |sep| <= |s| && s[|p|..|p| + |sep|] == sep)
            && (!Contains(s, sep) ==> p == s)
  {
    match FindFrom(s, sep, 0)
    case None =>
      assert !Contains(s, sep);
    case Some(i) =>
      var p := s[..i];
      assert Split(s, sep)[0] == p;
      forall j: nat | j <= |p| && OccursAt(p, sep, j) ensures false {
        assert p[j..j + |sep|] == s[j..j + |sep|];
        assert OccursAt(s, sep, j);
      }
      assert OccursAt(s, sep, i);
  }

  /** A one-character separator occurs exactly where that character does. */
  lemma ContainsChar(s: string, c: char)
    ensures Contains(s, [c]) <==> c in s
  {
    if c in s {
      var i :| 0 <= i < |s| && s[i] == c;
      assert OccursAt(s, [c], i);
    }
    if Contains(s, [c]) {
      var i: nat :| i <= |s| && OccursAt(s, [c], i);
      assert s[i] == s[i..i + 1][0];
    }
  }

  /** Splitting `head + sep + tail`, where no occurrence of `sep` starts inside
      `head`, yields `head` followed by the pieces of `tail`. */
  lemma {:induction false} SplitAfterHead(head: string, sep: string, tail: string)
    requires |sep| > 0
    requires forall j: nat :: j < |head| ==> !OccursAt(head + sep + tail, sep, j)
    ensures Split(head + sep + tail, sep) == [head] + Split(tail, sep)
  {
    var s := head + sep + tail;
    assert OccursAt(s, sep, |head|) by {
      assert s[|head|..|head| + |sep|] == sep;
    }
    var f := FindFrom(s, sep, 0);
    assert f == Some(|head|);
    assert s[..|head|] == head;
    assert s[|head| + |sep|..] == tail;
  }

  /** A string free of `sep` is its own single piece. */
  lemma SplitWithout(s: string, sep: string)
    requires |sep| > 0
    requires !Contains(s, sep)
    ensures Split(s, sep) == [s]
  {
    assert FindFrom(s, sep, 0).None?;
  }

  /** `s.split(/\r?\n/)`: cut at every `\r\n` or lone `\n`; a `\r` not followed by
      `\n` stays in its piece. */
  function SplitLines(s: string): (lines: seq<string>)
    decreases |s|
    ensures |lines| >= 1
    ensures |lines| == NewlineCount(s) + 1
    ensures forall k :: 0 <= k < |lines| ==> '\n' !in lines[k]
  {
    if |s| == 0 then [""]
    else if |s| >= 2 && s[0] == '\r' && s[1] == '\n' then [""] + SplitLines(s[2..])
    else if s[0] == '\n' then [""] + SplitLines(s[1..])
    else
      var rest := SplitLines(s[1..]);
      [[s[0]] + rest[0]] + rest[1..]
  }

  /** A text with no line break is one line. */
  lemma SplitLinesSingle(s: string)
    requires '\n' !in s && '\r' !in s
    ensures SplitLines(s) == [s]
  {
    if |s| > 0 {
      SplitLinesSingle(s[1..]);
      assert [s[0]] + s[1..] == s;
    }
  }

  /** A first line free of `\r` and `\n` is cut off whole at the first `\n`. */
  lemma {:induction false} SplitLinesFirst(a: string, b: string)
    requires '\n' !in a && '\r' !in a
    ensures SplitLines(a + "\n" + b) == [a] + SplitLines(b)
    decreases |a|
  {
    if |a| == 0 {
      assert a + "\n" + b == "\n" + b;
      assert ("\n" + b)[1..] == b;
    } else {
      SplitLinesFirst(a[1..], b);
      assert (a + "\n" + b)[1..] == a[1..] + "\n" + b;
      assert [a[0]] + a[1..] == a;
    }
  }

  /** Two lines free of `\r` and `\n`, joined by `\n`, split back into those lines. */
  lemma SplitLinesTwo(a: string, b: string)
    requires '\n' !in a && '\r' !in a && '\n' !in b && '\r' !in b
    ensures SplitLines(a + "\n" + b) == [a, b]
  {
    SplitLinesFirst(a, b);
    SplitLinesSingle(b);
  }

  function NewlineCount(s: string): nat {
    if |s| == 0 then 0 else (if s[0] == '\n' then 1 else 0) + NewlineCount(s[1..])
  }

  /** `s` with every `\r\n` pair written as a lone `\n`. */
  function FoldCrLf(s: string): string
    decreases |s|
  {
    if |s| == 0 then ""
    else if |s| >= 2 && s[0] == '\r' && s[1] == '\n' then "\n" + FoldCrLf(s[2..])
    else [s[0]] + FoldCrLf(s[1..])
  }

  /** The pieces of `SplitLines` put back together with `\n` give the input with its
      line breaks normalised to `\n`: nothing but the separators is lost. */
  lemma {:induction false} SplitLinesJoin(s: string)
    decreases |s|
    ensures Join(SplitLines(s), "\n") == FoldCrLf(s)
  {
    if |s| == 0 {
    } else if |s| >= 2 && s[0] == '\r' && s[1] == '\n' {
      SplitLinesJoin(s[2..]);
    } else if s[0] == '\n' {
      SplitLinesJoin(s[1..]);
    } else {
      var rest := SplitLines(s[1..]);
      SplitLinesJoin(s[1..]);
      if |rest| == 1 {
      } else {
        assert ([[s[0]] + rest[0]] + rest[1..])[1..] == rest[1..];
      }
    }
  }

  /** The decimal digit for `d`. */
  function Digit(d: nat): (c: char)
    requires d < 10
    ensures '0' <= c <= '9' && c as int - '0' as int == d
  {
    ('0' as int + d) as char
  }

  /** Decimal rendering of a non-negative integer, as in a template literal. */
  function NatToString(n: nat): (r: string)
    ensures |r| >= 1
    ensures forall i :: 0 <= i < |r| ==> '0' <= r[i] <= '9'
    ensures |r| == 1 <==> n < 10
  {
    if n < 10 then [Digit(n)] else NatToString(n / 10) + [Digit(n % 10)]
  }

  /** Distinct indices render differently. */
  lemma {:induction false} NatToStringInjective(n: nat, m: nat)
    requires NatToString(n) == NatToString(m)
    ensures n == m
  {
    if n < 10 || m < 10 {
      assert n < 10 && m < 10;
      assert Digit(n) == NatToString(n)[0] == NatToString(m)[0] == Digit(m);
    } else {
      var a := NatToString(n);
      var b := NatToString(m);
      assert a[..|a| - 1] == NatToString(n / 10);
      assert b[..|b| - 1] == NatToString(m / 10);
      NatToStringInjective(n / 10, m / 10);
      assert Digit(n % 10) == a[|a| - 1] == b[|b| - 1] == Digit(m % 10);
    }
  }
}

=== FILE: js_value.dfy ===
/** Decoded JSON and YAML values as the JavaScript code sees them: truthiness,
    property access (which throws on `null` and `undefined`), `||` defaults and
    `String(...)` conversion. */
module JsValue {
  import opened Wrappers
  import opened JsText

  /** A JavaScript number. */
  datatype Number = Finite(value: real) | NaN | Infinity(negative: bool)

  /** A value produced by `JSON.parse` or `yaml.load`; `Undefined` stands for a
      missing property. Objects have only their own keys: none of the keys the
      portal reads is inherited from a prototype. */
  datatype Value =
    | Undefined
    | Null
    | Bool(b: bool)
    | Num(n: Number)
    | Str(s: string)
    | Arr(items: seq<Value>)
    | Obj(fields: map<string, Value>)

  /** The value JavaScript treats as `true` in a condition. */
  predicate Truthy(v: Value)
    ensures !Truthy(v) <==> v == Undefined || v == Null || v == Bool(false) || v == Str("")
                            || v == Num(Finite(0.0)) || v == Num(NaN)
  {
    match v
    case Undefined => false
    case Null => false
    case Bool(b) => b
    case Num(n) => (n.Finite? && n.value != 0.0) || n.Infinity?
    case Str(s) => s != ""
    case Arr(_) => true
    case Obj(_) => true
  }

  /** `a || b`. */
  function Or(a: Value, b: Value): Value {
    if Truthy(a) then a else b
  }

  /** The `TypeError`s the code can run into: reading a property of `null` or
      `undefined`, and (in strict mode) setting a property on a primitive. */
  datatype TypeError = CannotReadProperty(key: string) | CannotCreateProperty(key: string)

  /** Property access `v.key`. */
  function Prop(v: Value, key: string): (r: Result<Value, TypeError>)
    ensures r.Err? <==> v.Undefined? || v.Null?
    ensures r.Err? ==> r.error == CannotReadProperty(key)
    ensures v.Obj? && key in v.fields ==> r == Ok(v.fields[key])
    ensures r.Ok? && !(v.Obj? && key in v.fields) ==> r.value == Undefined
  {
    match v
    case Undefined => Err(CannotReadProperty(key))
    case Null => Err(CannotReadProperty(key))
    case Obj(m) => Ok(if key in m then m[key] else Undefined)
    case _ => Ok(Undefined)
  }

  /** Property access on a value known not to be `null` or `undefined`. */
  function Field(v: Value, key: string): Value
    requires !v.Undefined? && !v.Null?
  {
    Prop(v, key).value
  }

  /** `String(v)`. How a number is printed is left to `numberText`. */
  function ToJsString(v: Value, numberText: Number -> string): (r: string)
    decreases v
    ensures v.Str? ==> r == v.s
    ensures v.Undefined? ==> r == "undefined"
    ensures v.Null? ==> r == "null"
    ensures v.Bool? ==> r == (if v.b then "true" else "false")
    ensures v.Num? ==> r == numberText(v.n)
    ensures v.Obj? ==> r == "[object Object]"
    ensures v.Arr? && |v.items| == 0 ==> r == ""
    ensures v.Arr? && |v.items| == 1 ==> r == (if v.items[0].Undefined? || v.items[0].Null? then "" else ToJsString(v.items[0], numberText))
  {
    match v
    case Undefined => "undefined"
    case Null => "null"
    case Bool(b) => if b then "true" else "false"
    case Num(n) => numberText(n)
    case Str(s) => s
    case Arr(items) => Join(ElementStrings(items, numberText), ",")
    case Obj(_) => "[object Object]"
  }

  /** The strings `Array.prototype.join` puts between its separators: `null` and
      `undefined` elements become empty. */
  function ElementStrings(items: seq<Value>, numberText: Number -> string): (r: seq<string>)
    decreases items
    ensures |r| == |items|
  {
    if |items| == 0 then []
    else
      [if items[0].Undefined? || items[0].Null? then "" else ToJsString(items[0], numberText)]
      + ElementStrings(items[1..], numberText)
  }

  /** `join` renders string elements as themselves. */
  lemma {:induction false} ElementStringsOfStrings(items: seq<Value>, texts: seq<string>, numberText: Number -> string)
    requires |items| == |texts|
    requires forall i :: 0 <= i < |items| ==> items[i] == Str(texts[i])
    ensures ElementStrings(items, numberText) == texts
  {
    if |items| > 0 {
      ElementStringsOfStrings(items[1..], texts[1..], numberText);
    }
  }

  /** An array of strings reads as those strings separated by commas. */
  lemma ArrayOfStringsText(items: seq<Value>, texts: seq<string>, numberText: Number -> string)
    requires |items| == |texts|
    requires forall i :: 0 <= i < |items| ==> items[i] == Str(texts[i])
    ensures ToJsString(Arr(items), numberText) == Join(texts, ",")
  {
    ElementStringsOfStrings(items, texts, numberText);
  }
}

=== FILE: schema.dfy ===
/** The validation rule tables of the shared schema module: the submission
    schema, the status-change schema and the join schema. The rules are data
    (`MicroproductRules`) read by one interpreter (`FieldOk`); the email check of
    the validation library is not visible and is the parameter `isEmail`. */
module Schema {
  import opened Wrappers
  import opened JsText
  import opened JsValue
  import Filenames

  /** One field rule. */
  datatype Rule =
    | Text(min: nat, max: nat)     // a string whose length lies in [min, max]
    | OneOf(options: seq<string>)  // a string equal to one of the literals
    | WholeNumber(lo: int, hi: int) // an integer-valued number in [lo, hi]
    | Email(max: nat)              // a valid email of length at most max
    | OptionalText(max: nat)       // absent (defaults to "") or a string of length at most max
    | Members                      // absent (defaults to []) or a list of team members

  const OutputTypes: seq<string> := [
    "Database", "Framework Document", "Analysis Report", "Whitepaper",
    "Architecture Document", "Other"
  ]

  const Releasabilities: seq<string> := ["public", "cosmic-only"]

  const FocusAreas: seq<string> := [
    "Research & Technology", "Demonstration Infrastructure", "Missions & Ecosystems",
    "Policy & Regulation", "Workforce Development"
  ]

  /** The submission schema, field by field. */
  const MicroproductRules: seq<(string, Rule)> := [
    ("title", Text(10, 100)),
    ("purpose", Text(10, 1000)),
    ("deliverable", Text(10, 500)),
    ("output_type", OneOf(OutputTypes)),
    ("scope", Text(10, 2000)),
    ("target_audience", Text(1, 500)),
    ("releasability", OneOf(Releasabilities)),
    ("duration_weeks", WholeNumber(1, 12)),
    ("milestones", Text(10, 2000)),
    ("effort_estimate", Text(1, 300)),
    ("lead_name", Text(1, 100)),
    ("lead_email", Email(100)),
    ("team_members", Members),
    ("focus_area", OneOf(FocusAreas)),
    ("dependencies", OptionalText(500))
  ]

  /** `Number.isInteger`. */
  predicate IsInteger(n: Number) {
    n.Finite? && n.value.Floor as real == n.value
  }

  /** The property `key` of an object, `Undefined` when it is missing. */
  function Get(v: Value, key: string): Value
    requires v.Obj?
  {
    if key in v.fields then v.fields[key] else Undefined
  }

  /** A string that is a valid email of length at most 100, the empty string, or
      nothing at all: the rule for a team member's email and the join email. */
  predicate OptionalEmailOk(v: Value, max: nat, isEmail: string -> bool) {
    v.Undefined? || (v.Str? && (v.s == "" || (isEmail(v.s) && Utf16Length(v.s) <= max)))
  }

  /** One entry of `team_members`. */
  predicate MemberOk(item: Value, isEmail: string -> bool) {
    && item.Obj?
    && LengthIn(Get(item, "name"), 1, 100)
    && OptionalEmailOk(Get(item, "email"), 100, isEmail)
  }

  /** A string whose length lies in [lo, hi]. */
  predicate LengthIn(v: Value, lo: nat, hi: nat) {
    v.Str? && lo <= Utf16Length(v.s) <= hi
  }

  /** A string equal to one of `options`. */
  predicate IsOneOf(v: Value, options: seq<string>) {
    v.Str? && v.s in options
  }

  /** An integer-valued number in [lo, hi]. */
  predicate WholeIn(v: Value, lo: int, hi: int) {
    v.Num? && IsInteger(v.n) && lo as real <= v.n.value <= hi as real
  }

  /** A valid email of length at most `max`. */
  predicate EmailUpTo(v: Value, max: nat, isEmail: string -> bool) {
    v.Str? && isEmail(v.s) && Utf16Length(v.s) <= max
  }

  /** Absent, or a string of length at most `max`. */
  predicate OptionalUpTo(v: Value, max: nat) {
    v.Undefined? || (v.Str? && Utf16Length(v.s) <= max)
  }

  /** Absent, or a list of valid team members. */
  predicate MembersOk(v: Value, isEmail: string -> bool) {
    v.Undefined? || (v.Arr? && forall i :: 0 <= i < |v.items| ==> MemberOk(v.items[i], isEmail))
  }

  /** The value `v` passes `rule`. */
  predicate FieldOk(rule: Rule, v: Value, isEmail: string -> bool)
    ensures v.Null? ==> !FieldOk(rule, v, isEmail)
    ensures v.Undefined? ==> (FieldOk(rule, v, isEmail) <==> rule.OptionalText? || rule.Members?)
  {
    match rule
    case Text(lo, hi) => LengthIn(v, lo, hi)
    case OneOf(options) => IsOneOf(v, options)
    case WholeNumber(lo, hi) => WholeIn(v, lo, hi)
    case Email(max) => EmailUpTo(v, max, isEmail)
    case OptionalText(max) => OptionalUpTo(v, max)
    case Members => MembersOk(v, isEmail)
  }

  /** `microproductSchema.safeParse(v).success`: an object whose every listed
      field passes its rule; other keys are ignored. */
  predicate Accepts(v: Value, isEmail: string -> bool)
    ensures Accepts(v, isEmail) ==> v.Obj?
    ensures Accepts(v, isEmail) ==> forall k :: 0 <= k < |MicroproductRules| ==>
              MicroproductRules[k].1.OptionalText? || MicroproductRules[k].1.Members? || MicroproductRules[k].0 in v.fields
  {
    if !v.Obj? then false
    else
      RequiredKeysPresent(v, isEmail);
      forall k :: 0 <= k < |MicroproductRules| ==> RuleHolds(v, k, isEmail)
  }

  /** An object passing every rule has every key whose rule is not optional. */
  lemma RequiredKeysPresent(v: Value, isEmail: string -> bool)
    requires v.Obj?
    ensures (forall k :: 0 <= k < |MicroproductRules| ==> RuleHolds(v, k, isEmail)) ==>
              forall k :: 0 <= k < |MicroproductRules| ==>
                MicroproductRules[k].1.OptionalText? || MicroproductRules[k].1.Members? || MicroproductRules[k].0 in v.fields
  {
    if forall k :: 0 <= k < |MicroproductRules| ==> RuleHolds(v, k, isEmail) {
      forall k | 0 <= k < |MicroproductRules|
        ensures MicroproductRules[k].1.OptionalText? || MicroproductRules[k].1.Members? || MicroproductRules[k].0 in v.fields
      {
        assert RuleHolds(v, k, isEmail);
      }
    }
  }

  /** Entry `k` of the rule table holds of the object `v`. */
  predicate RuleHolds(v: Value, k: nat, isEmail: string -> bool)
    requires v.Obj? && k < |MicroproductRules|
    ensures RuleHolds(v, k, isEmail) && !MicroproductRules[k].1.OptionalText? && !MicroproductRules[k].1.Members? ==>
              MicroproductRules[k].0 in v.fields
  {
    FieldOk(MicroproductRules[k].1, Get(v, MicroproductRules[k].0), isEmail)
  }

  /** The bounds the submission schema promises, written out field by field. */
  ghost predicate MeetsStatedBounds(v: Value, isEmail: string -> bool) {
    && v.Obj?
    && LengthIn(Get(v, "title"), 10, 100)
    && LengthIn(Get(v, "purpose"), 10, 1000)
    && LengthIn(Get(v, "deliverable"), 10, 500)
    && IsOneOf(Get(v, "output_type"), OutputTypes)
    && LengthIn(Get(v, "scope"), 10, 2000)
    && LengthIn(Get(v, "target_audience"), 1, 500)
    && IsOneOf(Get(v, "releasability"), Releasabilities)
    && WholeIn(Get(v, "duration_weeks"), 1, 12)
    && LengthIn(Get(v, "milestones"), 10, 2000)
    && LengthIn(Get(v, "effort_estimate"), 1, 300)
    && LengthIn(Get(v, "lead_name"), 1, 100)
    && EmailUpTo(Get(v, "lead_email"), 100, isEmail)
    && MembersOk(Get(v, "team_members"), isEmail)
    && IsOneOf(Get(v, "focus_area"), FocusAreas)
    && OptionalUpTo(Get(v, "dependencies"), 500)
  }

  /** All fifteen rules, one by one. */
  predicate AllFifteen(v: Value, isEmail: string -> bool)
    requires v.Obj?
  {
    RuleHolds(v, 0, isEmail) && RuleHolds(v, 1, isEmail) && RuleHolds(v, 2, isEmail)
    && RuleHolds(v, 3, isEmail) && RuleHolds(v, 4, isEmail) && RuleHolds(v, 5, isEmail)
    && RuleHolds(v, 6, isEmail) && RuleHolds(v, 7, isEmail) && RuleHolds(v, 8, isEmail)
    && RuleHolds(v, 9, isEmail) && RuleHolds(v, 10, isEmail) && RuleHolds(v, 11, isEmail)
    && RuleHolds(v, 12, isEmail) && RuleHolds(v, 13, isEmail) && RuleHolds(v, 14, isEmail)
  }

  lemma AcceptsUnrolled(v: Value, isEmail: string -> bool)
    requires v.Obj?
    ensures Accepts(v, isEmail) <==> AllFifteen(v, isEmail)
  {
    if AllFifteen(v, isEmail) {
      forall k | 0 <= k < |MicroproductRules| ensures RuleHolds(v, k, isEmail) {
        assert k in {0, 1, 2, 3, 4, 5, 6, 7, 8, 9, 10, 11, 12, 13, 14};
      }
    }
  }

  lemma UnrolledMeansStatedBounds(v: Value, isEmail: string -> bool)
    requires v.Obj?
    ensures AllFifteen(v, isEmail) <==> MeetsStatedBounds(v, isEmail)
  {
    FirstFiveRules(v, isEmail);
    MiddleFiveRules(v, isEmail);
    LastFiveRules(v, isEmail);
  }

  lemma FirstFiveRules(v: Value, isEmail: string -> bool)
    requires v.Obj?
    ensures RuleHolds(v, 0, isEmail) <==> LengthIn(Get(v, "title"), 10, 100)
    ensures RuleHolds(v, 1, isEmail) <==> LengthIn(Get(v, "purpose"), 10, 1000)
    ensures RuleHolds(v, 2, isEmail) <==> LengthIn(Get(v, "deliverable"), 10, 500)
    ensures RuleHolds(v, 3, isEmail) <==> IsOneOf(Get(v, "output_type"), OutputTypes)
    ensures RuleHolds(v, 4, isEmail) <==> LengthIn(Get(v, "scope"), 10, 2000)
  {
    assert MicroproductRules[0] == ("title", Text(10, 100));
    assert MicroproductRules[1] == ("purpose", Text(10, 1000));
    assert MicroproductRules[2] == ("deliverable", Text(10, 500));
    assert MicroproductRules[3] == ("output_type", OneOf(OutputTypes));
    assert MicroproductRules[4] == ("scope", Text(10, 2000));
  }

  lemma MiddleFiveRules(v: Value, isEmail: string -> bool)
    requires v.Obj?
    ensures RuleHolds(v, 5, isEmail) <==> LengthIn(Get(v, "target_audience"), 1, 500)
    ensures RuleHolds(v, 6, isEmail) <==> IsOneOf(Get(v, "releasability"), Releasabilities)
    ensures RuleHolds(v, 7, isEmail) <==> WholeIn(Get(v, "duration_weeks"), 1, 12)
    ensures RuleHolds(v, 8, isEmail) <==> LengthIn(Get(v, "milestones"), 10, 2000)
    ensures RuleHolds(v, 9, isEmail) <==> LengthIn(Get(v, "effort_estimate"), 1, 300)
  {
    assert MicroproductRules[5] == ("target_audience", Text(1, 500));
    assert MicroproductRules[6] == ("releasability", OneOf(Releasabilities));
    assert MicroproductRules[7] == ("duration_weeks", WholeNumber(1, 12));
    assert MicroproductRules[8] == ("milestones", Text(10, 2000));
    assert MicroproductRules[9] == ("effort_estimate", Text(1, 300));
  }

  lemma LastFiveRules(v: Value, isEmail: string -> bool)
    requires v.Obj?
    ensures RuleHolds(v, 10, isEmail) <==> LengthIn(Get(v, "lead_name"), 1, 100)
    ensures RuleHolds(v, 11, isEmail) <==> EmailUpTo(Get(v, "lead_email"), 100, isEmail)
    ensures RuleHolds(v, 12, isEmail) <==> MembersOk(Get(v, "team_members"), isEmail)
    ensures RuleHolds(v, 13, isEmail) <==> IsOneOf(Get(v, "focus_area"), FocusAreas)
    ensures RuleHolds(v, 14, isEmail) <==> OptionalUpTo(Get(v, "dependencies"), 500)
  {
    assert MicroproductRules[10] == ("lead_name", Text(1, 100));
    assert MicroproductRules[11] == ("lead_email", Email(100));
    assert MicroproductRules[12] == ("team_members", Members);
    assert MicroproductRules[13] == ("focus_area", OneOf(FocusAreas));
    assert MicroproductRules[14] == ("dependencies", OptionalText(500));
  }

  /** The rule table states exactly the written-out bounds. */
  lemma AcceptsMeansStatedBounds(v: Value, isEmail: string -> bool)
    ensures Accepts(v, isEmail) <==> MeetsStatedBounds(v, isEmail)
  {
    if v.Obj? {
      AcceptsUnrolled(v, isEmail);
      UnrolledMeansStatedBounds(v, isEmail);
    }
  }

  /** A team member after parsing: a missing email stays missing. */
  datatype Member = Member(name: string, email: Option<string>)

  /** A submission after parsing, with the schema's defaults filled in. */
  datatype Submission = Submission(
    title: string, purpose: string, deliverable: string, output_type: string,
    scope: string, target_audience: string, releasability: string,
    duration_weeks: int, milestones: string, effort_estimate: string,
    lead_name: string, lead_email: string, team_members: seq<Member>,
    focus_area: string, dependencies: string)

  function ParseMember(item: Value): Member
    requires item.Obj? && Get(item, "name").Str?
  {
    var e := Get(item, "email");
    Member(Get(item, "name").s, if e.Str? then Some(e.s) else None)
  }

  /** The parsed `team_members`: `[]` when absent, otherwise one member per item
      with the item's name and, when it is a string, its email. */
  function ParseMembers(tm: Value, isEmail: string -> bool): (ms: seq<Member>)
    requires MembersOk(tm, isEmail)
    ensures tm.Undefined? ==> ms == []
    ensures tm.Arr? ==> |ms| == |tm.items|
    ensures tm.Arr? ==> forall i :: 0 <= i < |tm.items| ==>
              var email := Get(tm.items[i], "email");
              && ms[i].name == Get(tm.items[i], "name").s
              && 1 <= Utf16Length(ms[i].name) <= 100
              && ms[i].email == (if email.Str? then Some(email.s) else None)
  {
    if tm.Undefined? then []
    else seq(|tm.items|, i requires 0 <= i < |tm.items| => ParseMember(tm.items[i]))
  }

  /** `microproductSchema.safeParse(v)`: the parsed submission when every rule
      passes; an absent `team_members` becomes `[]` and an absent `dependencies`
      becomes `""`. */
  function ParseSubmission(v: Value, isEmail: string -> bool): (r: Option<Submission>)
    ensures r.Some? <==> MeetsStatedBounds(v, isEmail)
    ensures r.Some? ==> v.Obj? && r.value.title == Get(v, "title").s
    ensures r.Some? ==> 1 <= r.value.duration_weeks <= 12
    ensures r.Some? ==> r.value.lead_email == Get(v, "lead_email").s
    ensures r.Some? && Get(v, "team_members").Undefined? ==> r.value.team_members == []
    ensures r.Some? ==> r.value.team_members == ParseMembers(Get(v, "team_members"), isEmail)
    ensures r.Some? && Get(v, "dependencies").Undefined? ==> r.value.dependencies == ""
    ensures r.Some? && Get(v, "dependencies").Str? ==> r.value.dependencies == Get(v, "dependencies").s
    ensures r.Some? ==> r.value.duration_weeks as real == Get(v, "duration_weeks").n.value
    ensures r.Some? ==>
              && r.value.purpose == Get(v, "purpose").s
              && r.value.deliverable == Get(v, "deliverable").s
              && r.value.output_type == Get(v, "output_type").s
              && r.value.scope == Get(v, "scope").s
              && r.value.target_audience == Get(v, "target_audience").s
              && r.value.releasability == Get(v, "releasability").s
              && r.value.milestones == Get(v, "milestones").s
              && r.value.effort_estimate == Get(v, "effort_estimate").s
              && r.value.lead_name == Get(v, "lead_name").s
              && r.value.focus_area == Get(v, "focus_area").s
  {
    AcceptsMeansStatedBounds(v, isEmail);
    if !Accepts(v, isEmail) then None
    else
      var tm := Get(v, "team_members");
      var members := ParseMembers(tm, isEmail);
      var deps := Get(v, "dependencies");
      Some(Submission(
        Get(v, "title").s, Get(v, "purpose").s, Get(v, "deliverable").s,
        Get(v, "output_type").s, Get(v, "scope").s, Get(v, "target_audience").s,
        Get(v, "releasability").s, Get(v, "duration_weeks").n.value.Floor,
        Get(v, "milestones").s, Get(v, "effort_estimate").s, Get(v, "lead_name").s,
        Get(v, "lead_email").s, members, Get(v, "focus_area").s,
        if deps.Undefined? then "" else deps.s))
  }

  /** Changing one field of an accepted submission keeps it accepted exactly when
      the new value passes that field's rule: the fields are checked independently. */
  lemma {:induction false} FieldsDecideIndependently(v: Value, k: nat, x: Value, isEmail: string -> bool)
    requires Accepts(v, isEmail)
    requires k < |MicroproductRules|
    ensures Accepts(Obj(v.fields[MicroproductRules[k].0 := x]), isEmail)
            <==> FieldOk(MicroproductRules[k].1, x, isEmail)
  {
    var w := Obj(v.fields[MicroproductRules[k].0 := x]);
    forall j | 0 <= j < |MicroproductRules| && j != k
      ensures Get(w, MicroproductRules[j].0) == Get(v, MicroproductRules[j].0)
    {
      KeysDistinct(j, k);
    }
    assert Get(w, MicroproductRules[k].0) == x;
    assert RuleHolds(w, k, isEmail) <==> FieldOk(MicroproductRules[k].1, x, isEmail);
    if FieldOk(MicroproductRules[k].1, x, isEmail) {
      forall j | 0 <= j < |MicroproductRules| ensures RuleHolds(w, j, isEmail) {
        if j != k {
          assert RuleHolds(v, j, isEmail);
        }
      }
    }
  }

  /** No key appears twice in the rule table. */
  lemma KeysDistinct(j: nat, k: nat)
    requires j < |MicroproductRules| && k < |MicroproductRules| && j != k
    ensures MicroproductRules[j].0 != MicroproductRules[k].0
  {
  }

  /** `statusSchema.safeParse({filename, newStatus}).success`: the status-change
      schema accepts a request exactly when the filename is a non-empty string and
      the status is one of the five workflow states. */
  predicate StatusRequestOk(filename: Value, newStatus: Value)
    ensures StatusRequestOk(filename, newStatus) <==>
      (filename.Str? && filename.s != "" && newStatus.Str?
       && (newStatus.s == "pending" || newStatus.s == "approved" || newStatus.s == "in-progress"
           || newStatus.s == "completed" || newStatus.s == "rejected"))
  {
    && filename.Str? && 1 <= Utf16Length(filename.s)
    && newStatus.Str? && newStatus.s in Filenames.ValidStatuses
  }

  /** `joinSchema.safeParse({filename, name, email}).success`: a non-empty
      filename and name, and an email that is absent, empty or valid. */
  predicate JoinRequestOk(filename: Value, name: Value, email: Value, isEmail: string -> bool)
    ensures JoinRequestOk(filename, name, email, isEmail) <==>
      && filename.Str? && filename.s != ""
      && name.Str? && name.s != ""
      && (email == Undefined || email == Str("") || (email.Str? && isEmail(email.s)))
  {
    && filename.Str? && 1 <= Utf16Length(filename.s)
    && name.Str? && 1 <= Utf16Length(name.s)
    && (email.Undefined? || (email.Str? && (email.s == "" || isEmail(email.s))))
  }
}

=== FILE: seqs.dfy ===
/** Facts about sequences shared by the page modules. */
module Seqs {
  /** Concatenation regroups: the step that lines up a head, the rest and a tail. */
  lemma Regroup<T>(a: seq<T>, b: seq<T>, c: seq<T>)
    ensures a + (b + c) == (a + b) + c
  {
  }
}

=== FILE: storage_route.dfy ===
/** The storage endpoint (`/api/storage`): list the submissions directory
    (`GET`), create a submission file (`POST`) and change a submission's status by
    renaming its file (`PATCH`). */
module StorageRoute {
  import opened Wrappers
  import opened JsText
  import opened JsValue
  import opened Store
  import opened Filenames
  import Schema

  /** A path directly inside the submissions directory. */
  predicate InSubmissions(p: string) {
    |p| > |SubmissionsDir| && p[..|SubmissionsDir|] == SubmissionsDir && '/' !in p[|SubmissionsDir|..]
  }

  /** `GET`: the raw directory listing, as the names of the files directly inside
      it. A directory with no file does not exist in the repository, so reading
      it fails and the route answers 500. */
  function List(s: Store): (r: Result<set<string>, StoreError>)
    ensures r.Ok? ==> forall n :: n in r.value <==> n != "" && '/' !in n && SubmissionsDir + n in s
    ensures r.Err? <==> forall p :: p in s ==> !InSubmissions(p)
  {
    var names := set p | p in s && InSubmissions(p) :: p[|SubmissionsDir|..];
    assert forall n :: n in names <==> n != "" && '/' !in n && SubmissionsDir + n in s by {
      forall p | p in s && InSubmissions(p) ensures p == SubmissionsDir + p[|SubmissionsDir|..] {
        assert p == p[..|SubmissionsDir|] + p[|SubmissionsDir|..];
      }
      forall n | n != "" && '/' !in n && SubmissionsDir + n in s ensures n in names {
        var p := SubmissionsDir + n;
        assert p[..|SubmissionsDir|] == SubmissionsDir && p[|SubmissionsDir|..] == n;
        assert InSubmissions(p);
      }
    }
    if names == {} then Err(NotFound)
    else
      Ok(names)
  }

  /** How a create request ends: 200 with the new filename, or 500. */
  datatype Created = Created(filename: string) | CreateFailed

  /** `POST`: the name is built from the first clock reading and the title, the
      record is the request body with `submitted_date` from the second reading,
      and the file is created without a revision marker. The body is not
      checked against the schema. A body without a string `title` makes
      `title.toLowerCase()` throw. */
  function Create(s: Store, body: Value, nameClock: string, recordClock: string,
                  dump: Value -> string, blobSha: string -> string): (r: (Created, Store))
    ensures r.0.Created? <==>
              && body.Obj? && "title" in body.fields && body.fields["title"].Str?
              && SubmissionsDir + CreatedFilename(nameClock, body.fields["title"].s) !in s
    ensures r.0.CreateFailed? ==> r.1 == s
    ensures r.0.Created? ==>
              var path := SubmissionsDir + r.0.filename;
              && r.0.filename == CreatedFilename(nameClock, body.fields["title"].s)
              && r.1.Keys == s.Keys + {path}
              && path !in s
              && r.1[path].content == dump(Obj(body.fields["submitted_date" := Str(recordClock)]))
              && forall p :: p in s ==> r.1[p] == s[p]
    ensures Consistent(s, blobSha) ==> Consistent(r.1, blobSha)
  {
    if !body.Obj? || "title" !in body.fields || !body.fields["title"].Str? then (CreateFailed, s)
    else
      var filename := CreatedFilename(nameClock, body.fields["title"].s);
      var record := Obj(body.fields["submitted_date" := Str(recordClock)]);
      match Write(s, SubmissionsDir + filename, dump(record), None, blobSha)
      case Ok(next) => (Created(filename), next)
      case Err(_) => (CreateFailed, s)
  }

  /** How a status change ends: 200 with the new name, 400, or 500. */
  datatype Renamed = Renamed(newFilename: string) | InvalidStatus | InvalidFilename | RenameFailed {
    function Status(): nat {
      match this
      case Renamed(_) => 200
      case InvalidStatus => 400
      case InvalidFilename => 400
      case RenameFailed => 500
    }
  }

  /** `validStatuses.includes(newStatus)`: only a string can equal a listed status. */
  predicate IsValidStatus(v: Value) {
    v.Str? && v.s in ValidStatuses
  }

  /** `PATCH`: check the status, read the file, check the name has one `__`, then
      delete the old path under the revision marker read and create the new path
      with the same content. A destructured `null` body, a failed read, a
      non-string `filename` and any failed store call answer 500. */
  function ChangeStatus(s: Store, body: Value, blobSha: string -> string,
                        numberText: Number -> string): (r: (Renamed, Store))
    ensures r.0 == InvalidStatus <==> !body.Undefined? && !body.Null? && !IsValidStatus(Field(body, "newStatus"))
    ensures r.0 == InvalidStatus || r.0 == InvalidFilename ==> r.1 == s
    ensures r.0 != RenameFailed ==> !body.Undefined? && !body.Null?
    ensures r.0 == InvalidFilename || r.0.Renamed? ==> Field(body, "filename").Str?
    ensures r.0 == InvalidFilename ==>
              var filename := Field(body, "filename");
              filename.Str? && SubmissionsDir + filename.s in s && !HasOneSeparator(filename.s)
    ensures r.0.Renamed? ==>
              var filename := Field(body, "filename").s;
              var oldPath := SubmissionsDir + filename;
              var newPath := SubmissionsDir + r.0.newFilename;
              && IsValidStatus(Field(body, "newStatus"))
              && RenameFor(filename, Field(body, "newStatus").s) == Some(r.0.newFilename)
              && oldPath in s
              && newPath in r.1 && r.1[newPath].content == s[oldPath].content
              && (oldPath != newPath ==> oldPath !in r.1)
              && r.1.Keys == s.Keys - {oldPath} + {newPath}
              && forall p :: p in s && p != oldPath && p != newPath ==> r.1[p] == s[p]
    ensures !body.Undefined? && !body.Null? && IsValidStatus(Field(body, "newStatus"))
            && Field(body, "filename").Str? && SubmissionsDir + Field(body, "filename").s in s ==>
              var filename := Field(body, "filename").s;
              var oldPath := SubmissionsDir + filename;
              && (!HasOneSeparator(filename) ==> r == (InvalidFilename, s))
              && (HasOneSeparator(filename) ==>
                    var newPath := SubmissionsDir + RenameFor(filename, Field(body, "newStatus").s).value;
                    (r.0.Renamed? <==> newPath == oldPath || newPath !in s))
    ensures r.0 == RenameFailed
            && (body.Undefined? || body.Null? || !Field(body, "filename").Str?
                || SubmissionsDir + ToJsString(Field(body, "filename"), numberText) !in s) ==>
              r.1 == s
    ensures r.0 == RenameFailed && !body.Undefined? && !body.Null? && Field(body, "filename").Str?
            && SubmissionsDir + Field(body, "filename").s in s ==>
              var oldPath := SubmissionsDir + Field(body, "filename").s;
              r.1 == map p | p in s && p != oldPath :: s[p]
    ensures Consistent(s, blobSha) ==> Consistent(r.1, blobSha)
  {
    if body.Undefined? || body.Null? then (RenameFailed, s)
    else
      var filename := Field(body, "filename");
      var newStatus := Field(body, "newStatus");
      if !IsValidStatus(newStatus) then (InvalidStatus, s)
      else
        var oldPath := SubmissionsDir + ToJsString(filename, numberText);
        match Read(s, oldPath)
        case Err(_) => (RenameFailed, s)
        case Ok(file) =>
          if !filename.Str? then (RenameFailed, s)
          else
            match RenameFor(filename.s, newStatus.s)
            case None => (InvalidFilename, s)
            case Some(newFilename) =>
              Move(s, oldPath, SubmissionsDir + newFilename, file, newFilename, blobSha)
  }

  /** Lines 114-130: delete the old path under the revision marker read, then
      create the new path, without a marker, with the content read. */
  function Move(s: Store, oldPath: string, newPath: string, file: File, newFilename: string,
                blobSha: string -> string): (r: (Renamed, Store))
    requires oldPath in s && s[oldPath] == file
    ensures r.0.Renamed? ==> r.0.newFilename == newFilename
    ensures r.0 == RenameFailed || r.0.Renamed?
    ensures r.0.Renamed? <==> newPath == oldPath || newPath !in s
    ensures r.0.Renamed? ==>
              && newPath in r.1 && r.1[newPath].content == file.content
              && r.1.Keys == s.Keys - {oldPath} + {newPath}
              && forall p :: p in s && p != oldPath && p != newPath ==> r.1[p] == s[p]
    ensures r.0 == RenameFailed ==> r.1 == map p | p in s && p != oldPath :: s[p]
    ensures Consistent(s, blobSha) ==> Consistent(r.1, blobSha)
  {
    match Delete(s, oldPath, file.sha)
    case Err(_) => (RenameFailed, s)
    case Ok(removed) =>
      match Write(removed, newPath, file.content, None, blobSha)
      case Err(_) => (RenameFailed, removed)
      case Ok(next) => (Renamed(newFilename), next)
  }

  /** A request body with a string `filename` and `newStatus`. */
  function StatusBody(filename: string, newStatus: string): Value {
    Obj(map["filename" := Str(filename), "newStatus" := Str(newStatus)])
  }

  /** A status outside the five is answered 400 whatever the store holds, and the
      store is left as it was. */
  lemma InvalidStatusTouchesNothing(body: Value, blobSha: string -> string, numberText: Number -> string)
    requires body.Obj? && !IsValidStatus(Field(body, "newStatus"))
    ensures forall s :: ChangeStatus(s, body, blobSha, numberText) == (InvalidStatus, s)
  {
  }

  /** The name check comes after the read: a malformed name that is not stored
      is answered 500, not 400. */
  lemma MalformedMissingNameFailsOnRead(s: Store, filename: string, newStatus: string,
                                        blobSha: string -> string, numberText: Number -> string)
    requires newStatus in ValidStatuses && !HasOneSeparator(filename)
    requires SubmissionsDir + filename !in s
    ensures ChangeStatus(s, StatusBody(filename, newStatus), blobSha, numberText) == (RenameFailed, s)
  {
    var body := StatusBody(filename, newStatus);
    assert Field(body, "filename") == Str(filename);
    assert Field(body, "newStatus") == Str(newStatus);
  }

  /** A file created by `POST` can then be moved to any status by `PATCH`, as long
      as no file already holds the target name: the new name is the status, the
      separator and the created name's date and slug, and the content moves
      unchanged. */
  lemma CreateThenChangeStatus(s: Store, title: string, body: Value, nameClock: string,
                               recordClock: string, newStatus: string, dump: Value -> string,
                               blobSha: string -> string, numberText: Number -> string)
    requires '_' !in nameClock
    requires body.Obj? && "title" in body.fields && body.fields["title"] == Str(title)
    requires SubmissionsDir + CreatedFilename(nameClock, title) !in s
    requires newStatus in ValidStatuses
    requires var suffix := DatePart(nameClock) + "-" + Slug(title) + ".yaml";
             SubmissionsDir + newStatus + Separator + suffix !in s || newStatus == "pending"
    ensures var (created, s1) := Create(s, body, nameClock, recordClock, dump, blobSha);
            var suffix := DatePart(nameClock) + "-" + Slug(title) + ".yaml";
            var (renamed, s2) := ChangeStatus(s1, StatusBody(created.filename, newStatus), blobSha, numberText);
            && created == Created(CreatedFilename(nameClock, title))
            && renamed == Renamed(newStatus + Separator + suffix)
            && s2[SubmissionsDir + renamed.newFilename].content == s1[SubmissionsDir + created.filename].content
  {
    var s1 := Create(s, body, nameClock, recordClock, dump, blobSha).1;
    var f := CreatedFilename(nameClock, title);
    CreatedRenameTarget(nameClock, title, newStatus);
    PendingThenMoved(s, s1, f, newStatus, blobSha, numberText);
  }

  /** A file just stored under a `pending` name moves to the new status. */
  lemma PendingThenMoved(s: Store, s1: Store, f: string, newStatus: string,
                         blobSha: string -> string, numberText: Number -> string)
    requires HasOneSeparator(f) && BeforeSeparator(f) == "pending"
    requires newStatus in ValidStatuses
    requires s1.Keys == s.Keys + {SubmissionsDir + f}
    requires SubmissionsDir + newStatus + Separator + AfterSeparator(f) !in s || newStatus == "pending"
    ensures var r := ChangeStatus(s1, StatusBody(f, newStatus), blobSha, numberText);
            && r.0 == Renamed(newStatus + Separator + AfterSeparator(f))
            && r.1[SubmissionsDir + r.0.newFilename].content == s1[SubmissionsDir + f].content
  {
    var target := newStatus + Separator + AfterSeparator(f);
    assert SubmissionsDir + newStatus + Separator + AfterSeparator(f) == SubmissionsDir + target;
    MoveTargetFree(s, s1, f, target, newStatus);
    RenameSucceeds(s1, f, newStatus, blobSha, numberText);
  }

  /** A created name moves to the new status with its date and slug kept. */
  lemma CreatedRenameTarget(nameClock: string, title: string, newStatus: string)
    requires '_' !in nameClock
    ensures var f := CreatedFilename(nameClock, title);
            && HasOneSeparator(f) && BeforeSeparator(f) == "pending"
            && AfterSeparator(f) == DatePart(nameClock) + "-" + Slug(title) + ".yaml"
            && RenameFor(f, newStatus) == Some(newStatus + Separator + AfterSeparator(f))
  {
    CreatedFilenameRenamable(nameClock, title);
  }

  /** `PATCH` on a stored, well-formed name with a listed status moves the file
      when the target name is free or is the name itself. */
  lemma RenameSucceeds(s: Store, filename: string, newStatus: string,
                       blobSha: string -> string, numberText: Number -> string)
    requires newStatus in ValidStatuses
    requires SubmissionsDir + filename in s
    requires RenameFor(filename, newStatus).Some?
    requires var target := SubmissionsDir + RenameFor(filename, newStatus).value;
             target == SubmissionsDir + filename || target !in s
    ensures var newFilename := RenameFor(filename, newStatus).value;
            var r := ChangeStatus(s, StatusBody(filename, newStatus), blobSha, numberText);
            && r.0 == Renamed(newFilename)
            && r.1[SubmissionsDir + newFilename].content == s[SubmissionsDir + filename].content
  {
    var body := StatusBody(filename, newStatus);
    assert Field(body, "filename") == Str(filename);
    assert Field(body, "newStatus") == Str(newStatus);
  }

  /** After the create, the target path of the move is free, or is the created
      path itself. */
  lemma MoveTargetFree(s: Store, s1: Store, f: string, target: string, newStatus: string)
    requires HasOneSeparator(f) && BeforeSeparator(f) == "pending"
    requires target == newStatus + Separator + AfterSeparator(f)
    requires newStatus in ValidStatuses
    requires s1.Keys == s.Keys + {SubmissionsDir + f}
    requires SubmissionsDir + target !in s || newStatus == "pending"
    ensures SubmissionsDir + target == SubmissionsDir + f || SubmissionsDir + target !in s1
  {
    if newStatus != "pending" {
      assert target != f by {
        JoinedHasOneSeparator(newStatus, AfterSeparator(f));
      }
      assert (SubmissionsDir + target)[|SubmissionsDir|..] == target;
      assert (SubmissionsDir + f)[|SubmissionsDir|..] == f;
    }
  }

  /** The rename is not atomic: when a file already holds the target name, the
      delete has happened, the create is refused, and the submission is stored
      under neither name's old content. */
  lemma TakenTargetLosesRecord(s: Store, filename: string, newStatus: string,
                               blobSha: string -> string, numberText: Number -> string)
    requires newStatus in ValidStatuses
    requires SubmissionsDir + filename in s
    requires RenameFor(filename, newStatus).Some?
    requires RenameFor(filename, newStatus).value != filename
    requires SubmissionsDir + RenameFor(filename, newStatus).value in s
    ensures var r := ChangeStatus(s, StatusBody(filename, newStatus), blobSha, numberText);
            && r.0 == RenameFailed
            && SubmissionsDir + filename !in r.1
            && r.1[SubmissionsDir + RenameFor(filename, newStatus).value] == s[SubmissionsDir + RenameFor(filename, newStatus).value]
  {
    var body := StatusBody(filename, newStatus);
    assert Field(body, "filename") == Str(filename);
    assert Field(body, "newStatus") == Str(newStatus);
    var newFilename := RenameFor(filename, newStatus).value;
    var oldPath := SubmissionsDir + filename;
    var newPath := SubmissionsDir + newFilename;
    assert newPath != oldPath by {
      assert newPath[|SubmissionsDir|..] == newFilename;
      assert oldPath[|SubmissionsDir|..] == filename;
    }
    assert ToJsString(Str(filename), numberText) == filename;
    assert ChangeStatus(s, body, blobSha, numberText)
           == Move(s, oldPath, newPath, s[oldPath], newFilename, blobSha);
  }

  /** `POST` creates a file for a body the schema rejects: a ten-character title
      minimum is not enforced. */
  lemma CreateSkipsSchema(nameClock: string, recordClock: string, dump: Value -> string,
                          blobSha: string -> string, isEmail: string -> bool)
    ensures var body := Obj(map["title" := Str("x")]);
            && Create(map[], body, nameClock, recordClock, dump, blobSha).0.Created?
            && !Schema.Accepts(body, isEmail)
  {
    var body := Obj(map["title" := Str("x")]);
    assert Schema.MicroproductRules[0] == ("title", Schema.Text(10, 100));
    assert Schema.Get(body, "title") == Str("x");
    assert Utf16Length("x") == 1;
    assert !Schema.RuleHolds(body, 0, isEmail);
  }
}

=== FILE: store.dfy ===
/** The repository directory used as the datastore, reached through the three
    GitHub contents operations the routes call: `getContent`,
    `createOrUpdateFileContents` and `deleteFile`. A file's revision marker (its
    `sha`) is the git blob id of its content, given here as the function `blobSha`. */
module Store {
  import opened Wrappers

  /** The directory that holds one file per submission. */
  const SubmissionsDir: string := "submissions/"

  /** A stored file: its decoded text and its revision marker. */
  datatype File = File(content: string, sha: string)

  /** Repository paths to files. */
  type Store = map<string, File>

  /** The failures the contents operations report; the routes turn every one of
      them into an HTTP 500 response. */
  datatype StoreError = NotFound | Conflict

  /** Every file carries the revision marker of its own content. */
  ghost predicate Consistent(s: Store, blobSha: string -> string) {
    forall p :: p in s ==> s[p].sha == blobSha(s[p].content)
  }

  /** `getContent(path)`. */
  function Read(s: Store, path: string): (r: Result<File, StoreError>)
    ensures r.Ok? <==> path in s
    ensures r.Ok? ==> r.value == s[path]
  {
    if path in s then Ok(s[path]) else Err(NotFound)
  }

  /** `createOrUpdateFileContents(path, content, sha?)`: with a revision marker the
      file must exist and still carry it; without one the file must not exist. */
  function Write(s: Store, path: string, content: string, sha: Option<string>,
                 blobSha: string -> string): (r: Result<Store, StoreError>)
    ensures r.Ok? <==> (if sha.Some? then path in s && s[path].sha == sha.value else path !in s)
    ensures r.Ok? ==> path in r.value && r.value[path].content == content
    ensures r.Ok? ==> r.value.Keys == s.Keys + {path}
    ensures r.Ok? ==> forall p :: p in s && p != path ==> r.value[p] == s[p]
    ensures r.Ok? && Consistent(s, blobSha) ==> Consistent(r.value, blobSha)
  {
    match sha
    case None =>
      if path in s then Err(Conflict) else Ok(s[path := File(content, blobSha(content))])
    case Some(expected) =>
      if path !in s then Err(NotFound)
      else if s[path].sha != expected then Err(Conflict)
      else Ok(s[path := File(content, blobSha(content))])
  }

  /** `deleteFile(path, sha)`: the file must exist and still carry `sha`. */
  function Delete(s: Store, path: string, sha: string): (r: Result<Store, StoreError>)
    ensures r.Ok? <==> path in s && s[path].sha == sha
    ensures r.Ok? ==> r.value.Keys == s.Keys - {path}
    ensures r.Ok? ==> forall p :: p in r.value ==> r.value[p] == s[p]
  {
    if path !in s then Err(NotFound)
    else if s[path].sha != sha then Err(Conflict)
    else Ok(map p | p in s && p != path :: s[p])
  }
}

=== FILE: submit_page.dfy ===
/** The pure helpers of the submission form: the email test, the form check,
    the team-member list edits, the mapping of schema issues to field errors and
    the reading of the server's answer. */
module SubmitPage {
  import opened Wrappers
  import opened JsText
  import opened Seqs
  import opened JsValue
  import Schema

  /** A character `[^\s@]` admits. */
  predicate EmailChar(c: char) {
    !IsSpace(c) && c != '@'
  }

  /** Every character of `s` is admitted by `[^\s@]`. */
  predicate Plain(s: string) {
    forall k :: 0 <= k < |s| ==> EmailChar(s[k])
  }

  /** `/^[^\s@]+@[^\s@]+\.[^\s@]+$/` matches `s` with the `@` at `i` and the
      literal `.` at `j`. */
  ghost predicate EmailShapeAt(s: string, i: nat, j: nat) {
    && 0 < i && i + 1 < j && j + 1 < |s|
    && s[i] == '@' && s[j] == '.'
    && Plain(s[..i]) && Plain(s[i + 1..j]) && Plain(s[j + 1..])
  }

  /** The position of the first `c` in `s`. */
  function IndexOf(s: string, c: char): (r: Option<nat>)
    ensures r.Some? ==> r.value < |s| && s[r.value] == c && c !in s[..r.value]
    ensures r.None? ==> c !in s
  {
    if |s| == 0 then None
    else if s[0] == c then Some(0)
    else match IndexOf(s[1..], c)
      case None => None
      case Some(k) =>
        assert s[..k + 1] == [s[0]] + s[1..][..k];
        Some(k + 1)
  }

  /** `isValidEmail(s)`: no whitespace, one `@` with text before it, and a `.`
      with text on both sides somewhere after it. */
  function IsValidEmail(s: string): (ok: bool)
    ensures ok ==> (forall k :: 0 <= k < |s| ==> !IsSpace(s[k])) && '@' in s && s[0] != '@'
    ensures ok ==> |s| >= 5
  {
    && (forall k :: 0 <= k < |s| ==> !IsSpace(s[k]))
    && match IndexOf(s, '@')
       case None => false
       case Some(i) =>
         var domain := s[i + 1..];
         && i > 0
         && '@' !in domain
         && |domain| >= 3
         && '.' in domain[1..|domain| - 1]
  }

  /** `isValidEmail` is exactly the pattern: it holds iff the pattern matches at
      some choice of the `@` and the `.`. */
  lemma IsValidEmailMeansShape(s: string)
    ensures IsValidEmail(s) <==> exists i: nat, j: nat :: EmailShapeAt(s, i, j)
  {
    if IsValidEmail(s) {
      ValidEmailHasShape(s);
    }
    if exists i: nat, j: nat :: EmailShapeAt(s, i, j) {
      var i: nat, j: nat :| EmailShapeAt(s, i, j);
      ShapeIsValidEmail(s, i, j);
    }
  }

  /** An address `isValidEmail` accepts matches the pattern, with the `@` at
      its first `@`. */
  lemma ValidEmailHasShape(s: string)
    requires IsValidEmail(s)
    ensures exists i: nat, j: nat :: EmailShapeAt(s, i, j)
  {
    var i := IndexOf(s, '@').value;
    var domain := s[i + 1..];
    var inner := domain[1..|domain| - 1];
    var d :| 0 <= d < |inner| && inner[d] == '.';
    var j := i + 2 + d;
    assert s[j] == '.';
    assert Plain(s[..i]) by {
      forall k | 0 <= k < i ensures EmailChar(s[..i][k]) {
        assert s[..i][k] == s[k];
      }
    }
    var b := s[i + 1..j];
    assert Plain(b) by {
      forall k | 0 <= k < |b| ensures EmailChar(b[k]) {
        assert b[k] == domain[k];
      }
    }
    var c := s[j + 1..];
    assert Plain(c) by {
      forall k | 0 <= k < |c| ensures EmailChar(c[k]) {
        assert c[k] == domain[j - i + k];
      }
    }
    assert EmailShapeAt(s, i, j);
  }

  /** An address matching the pattern is accepted by `isValidEmail`. */
  lemma ShapeIsValidEmail(s: string, i: nat, j: nat)
    requires EmailShapeAt(s, i, j)
    ensures IsValidEmail(s)
  {
    ShapeHasNoSpace(s, i, j);
    assert IndexOf(s, '@') == Some(i) by {
      assert '@' !in s[..i];
    }
    var domain := s[i + 1..];
    assert '@' !in domain by {
      forall k | 0 <= k < |domain| ensures domain[k] != '@' {
        if i + 1 + k < j {
          assert domain[k] == s[i + 1..j][k];
        } else if i + 1 + k > j {
          assert domain[k] == s[j + 1..][i + k - j];
        }
      }
    }
    assert domain[1..|domain| - 1][j - i - 2] == '.';
  }

  /** A matched address has no whitespace anywhere. */
  lemma ShapeHasNoSpace(s: string, i: nat, j: nat)
    requires EmailShapeAt(s, i, j)
    ensures forall k :: 0 <= k < |s| ==> !IsSpace(s[k])
  {
    forall k | 0 <= k < |s| ensures !IsSpace(s[k]) {
      if k < i {
        assert s[k] == s[..i][k];
      } else if i < k < j {
        assert s[k] == s[i + 1..j][k - i - 1];
      } else if j < k {
        assert s[k] == s[j + 1..][k - j - 1];
      }
    }
  }

  /** One row of the form's team list. */
  datatype FormMember = FormMember(name: string, email: string)

  /** The form state. */
  datatype FormData = FormData(
    title: string, purpose: string, deliverable: string, output_type: string,
    scope: string, target_audience: string, releasability: string,
    duration_weeks: Number, milestones: string, effort_estimate: string,
    lead_name: string, lead_email: string, team_members: seq<FormMember>,
    focus_area: string, dependencies: string)

  /** `!s || s.trim().length < n`. */
  predicate ShorterThan(s: string, n: nat) {
    Utf16Length(Trim(s)) < n
  }

  /** The top-level fields `validateForm` checks. */
  datatype Checked =
    Title | Purpose | Deliverable | Scope | Milestones | EffortEstimate | LeadName | LeadEmail | DurationWeeks

  /** The property name of a checked field. */
  function CheckedName(f: Checked): string {
    match f
    case Title => "title"
    case Purpose => "purpose"
    case Deliverable => "deliverable"
    case Scope => "scope"
    case Milestones => "milestones"
    case EffortEstimate => "effort_estimate"
    case LeadName => "lead_name"
    case LeadEmail => "lead_email"
    case DurationWeeks => "duration_weeks"
  }

  /** The two fields of a team row. */
  datatype MemberPart = NamePart | EmailPart

  /** A key of the error record: a checked top-level field, or one field of one
      team row. */
  datatype ErrorKey = FieldKey(field: Checked) | MemberKey(index: nat, part: MemberPart)

  /** The property name of a team row's field. */
  function PartName(p: MemberPart): string {
    if p == NamePart then "name" else "email"
  }

  /** The key as it appears in the error record: the field name, or
      `team_members.<i>.name` and `team_members.<i>.email`. */
  function KeyText(k: ErrorKey): string {
    match k
    case FieldKey(f) => CheckedName(f)
    case MemberKey(i, p) => "team_members." + NatToString(i) + "." + PartName(p)
  }

  /** The keys `validateForm` can report for a form with `n` team rows. */
  predicate Reportable(k: ErrorKey, n: nat) {
    k.MemberKey? ==> k.index < n
  }

  /** A duration `validateForm` accepts: an integer from 2 to 12. */
  predicate DurationOk(n: Number) {
    Schema.IsInteger(n) && 2.0 <= n.value <= 12.0
  }

  /** A team row's name is blank once trimmed. */
  predicate BlankName(name: string) {
    Trim(name) == ""
  }

  /** A team row's email is filled in but not a valid address. */
  predicate BadMemberEmail(email: string) {
    Trim(email) != "" && !IsValidEmail(email)
  }

  /** Whether the check on field `f` fails for `data`. */
  predicate FieldFails(data: FormData, f: Checked) {
    match f
    case Title => ShorterThan(data.title, 10)
    case Purpose => ShorterThan(data.purpose, 10)
    case Deliverable => ShorterThan(data.deliverable, 10)
    case Scope => ShorterThan(data.scope, 10)
    case Milestones => ShorterThan(data.milestones, 10)
    case EffortEstimate => ShorterThan(data.effort_estimate, 1)
    case LeadName => ShorterThan(data.lead_name, 1)
    case LeadEmail => data.lead_email == "" || !IsValidEmail(data.lead_email)
    case DurationWeeks => !DurationOk(data.duration_weeks)
  }

  /** The message shown under field `f`. */
  function FieldMessage(f: Checked): string {
    match f
    case Title => "Title must be at least 10 characters."
    case Purpose => "Purpose must be at least 10 characters."
    case Deliverable => "Deliverable must be at least 10 characters."
    case Scope => "Scope must be at least 10 characters."
    case Milestones => "Milestones must be at least 10 characters."
    case EffortEstimate => "Effort estimate is required."
    case LeadName => "Lead name is required."
    case LeadEmail => "A valid lead email is required."
    case DurationWeeks => "Duration must be between 2 and 12 weeks."
  }

  /** The message shown under key `k`. */
  function Message(k: ErrorKey): string {
    match k
    case FieldKey(f) => FieldMessage(f)
    case MemberKey(_, p) =>
      if p == NamePart then "Contributor name is required." else "Contributor email is invalid."
  }

  /** Every checked field. */
  const AllChecked: set<Checked> :=
    {Title, Purpose, Deliverable, Scope, Milestones, EffortEstimate, LeadName, LeadEmail, DurationWeeks}

  /** The first part of `validateForm`: the checks on the top-level fields. */
  function FieldErrors(data: FormData): (errs: map<ErrorKey, string>)
    ensures forall f :: FieldKey(f) in errs <==> FieldFails(data, f)
    ensures forall k :: k in errs ==> k.FieldKey? && errs[k] == Message(k)
  {
    assert forall f :: f in AllChecked by {
      forall f ensures f in AllChecked {
        AllCheckedHasEvery(f);
      }
    }
    map f | f in AllChecked && FieldFails(data, f) :: FieldKey(f) := Message(FieldKey(f))
  }

  /** The second part of `validateForm`: the `forEach` over the team rows. */
  function MemberErrors(ms: seq<FormMember>): (errs: map<ErrorKey, string>)
    ensures forall i: nat :: i < |ms| ==> (MemberKey(i, NamePart) in errs <==> Trim(ms[i].name) == "")
    ensures forall i: nat :: i < |ms| ==> (MemberKey(i, EmailPart) in errs <==> BadMemberEmail(ms[i].email))
    ensures forall k :: k in errs ==> k.MemberKey? && k.index < |ms| && errs[k] == Message(k)
  {
    NameErrors(ms) + EmailErrors(ms)
  }

  /** The keys of part `p` for the rows whose flag is set. */
  function FlaggedRows(flags: seq<bool>, p: MemberPart): (errs: map<ErrorKey, string>)
    ensures forall i: nat :: i < |flags| ==> (MemberKey(i, p) in errs <==> flags[i])
    ensures forall k :: k in errs ==> k.MemberKey? && k.part == p && k.index < |flags| && errs[k] == Message(k)
  {
    map i: nat | i < |flags| && flags[i] :: MemberKey(i, p) := Message(MemberKey(i, p))
  }

  /** For each row, whether its name is blank. */
  function BlankFlags(ms: seq<FormMember>): (flags: seq<bool>)
    ensures |flags| == |ms|
    ensures forall i :: 0 <= i < |ms| ==> flags[i] == BlankName(ms[i].name)
  {
    seq(|ms|, i requires 0 <= i < |ms| => BlankName(ms[i].name))
  }

  /** For each row, whether its email is filled in but malformed. */
  function BadEmailFlags(ms: seq<FormMember>): (flags: seq<bool>)
    ensures |flags| == |ms|
    ensures forall i :: 0 <= i < |ms| ==> flags[i] == BadMemberEmail(ms[i].email)
  {
    seq(|ms|, i requires 0 <= i < |ms| => BadMemberEmail(ms[i].email))
  }

  /** The rows whose name is blank. */
  function NameErrors(ms: seq<FormMember>): (errs: map<ErrorKey, string>)
    ensures forall i: nat :: i < |ms| ==> (MemberKey(i, NamePart) in errs <==> BlankName(ms[i].name))
    ensures forall k :: k in errs ==> k.MemberKey? && k.part == NamePart && k.index < |ms| && errs[k] == Message(k)
  {
    FlaggedRows(BlankFlags(ms), NamePart)
  }

  /** The rows whose email is filled in but malformed. */
  function EmailErrors(ms: seq<FormMember>): (errs: map<ErrorKey, string>)
    ensures forall i: nat :: i < |ms| ==> (MemberKey(i, EmailPart) in errs <==> BadMemberEmail(ms[i].email))
    ensures forall k :: k in errs ==> k.MemberKey? && k.part == EmailPart && k.index < |ms| && errs[k] == Message(k)
  {
    FlaggedRows(BadEmailFlags(ms), EmailPart)
  }

  /** Every field is checked. */
  lemma AllCheckedHasEvery(f: Checked)
    ensures f in AllChecked
  {
    match f {
      case Title =>
      case Purpose =>
      case Deliverable =>
      case Scope =>
      case Milestones =>
      case EffortEstimate =>
      case LeadName =>
      case LeadEmail =>
      case DurationWeeks =>
    }
  }

  /** A field's key is reported exactly when its check fails. */
  lemma FieldErrorsAt(data: FormData, f: Checked)
    ensures FieldKey(f) in FieldErrors(data) <==> FieldFails(data, f)
  {
    AllCheckedHasEvery(f);
  }

  /** The field checks report no row key, and the row checks no field key. */
  lemma PartsApart(data: FormData, f: Checked, i: nat, p: MemberPart)
    ensures FieldKey(f) !in MemberErrors(data.team_members)
    ensures MemberKey(i, p) !in FieldErrors(data)
  {
  }

  /** A row's name key is reported exactly when the name is blank. */
  lemma NameErrorAt(ms: seq<FormMember>, i: nat)
    requires i < |ms|
    ensures MemberKey(i, NamePart) in MemberErrors(ms) <==> Trim(ms[i].name) == ""
  {
  }

  /** A row's email key is reported exactly when the email is filled in and
      malformed. */
  lemma EmailErrorAt(ms: seq<FormMember>, i: nat)
    requires i < |ms|
    ensures MemberKey(i, EmailPart) in MemberErrors(ms) <==> BadMemberEmail(ms[i].email)
  {
  }

  /** Only rows of the list are reported. */
  lemma RowsInRange(ms: seq<FormMember>, i: nat, p: MemberPart)
    requires MemberKey(i, p) in MemberErrors(ms)
    ensures i < |ms|
  {
  }

  /** `validateForm(data)`: the record of failing checks, keyed by field or by
      team row and field. Every check writes its own key, so their order does
      not matter. */
  function ValidateForm(data: FormData): (errs: map<ErrorKey, string>)
    ensures forall f :: FieldKey(f) in errs <==> FieldFails(data, f)
    ensures forall i: nat :: i < |data.team_members| ==>
              (MemberKey(i, NamePart) in errs <==> Trim(data.team_members[i].name) == "")
    ensures forall i: nat :: i < |data.team_members| ==>
              (MemberKey(i, EmailPart) in errs <==> BadMemberEmail(data.team_members[i].email))
    ensures forall i: nat, p :: MemberKey(i, p) in errs ==> i < |data.team_members|
  {
    var ms := data.team_members;
    var errs := FieldErrors(data) + MemberErrors(ms);
    assert forall f :: FieldKey(f) in errs <==> FieldFails(data, f) by {
      forall f ensures FieldKey(f) in errs <==> FieldFails(data, f) {
        PartsApart(data, f, 0, NamePart);
        FieldErrorsAt(data, f);
      }
    }
    assert forall i: nat, p :: MemberKey(i, p) in errs ==> i < |ms| by {
      forall i: nat, p | MemberKey(i, p) in errs ensures i < |ms| {
        PartsApart(data, Title, i, p);
        RowsInRange(ms, i, p);
      }
    }
    assert forall i: nat :: i < |ms| ==>
             (MemberKey(i, NamePart) in errs <==> Trim(ms[i].name) == "") &&
             (MemberKey(i, EmailPart) in errs <==> BadMemberEmail(ms[i].email)) by {
      forall i: nat | i < |ms|
        ensures MemberKey(i, NamePart) in errs <==> Trim(ms[i].name) == ""
        ensures MemberKey(i, EmailPart) in errs <==> BadMemberEmail(ms[i].email)
      {
        PartsApart(data, Title, i, NamePart);
        PartsApart(data, Title, i, EmailPart);
        NameErrorAt(ms, i);
        EmailErrorAt(ms, i);
      }
    }
    errs
  }

  /** The row checks write their keys' messages. */
  lemma MemberErrorsMessage(ms: seq<FormMember>, k: ErrorKey)
    requires k in MemberErrors(ms)
    ensures MemberErrors(ms)[k] == Message(k)
  {
  }

  /** Each reported key carries its check's message. */
  lemma ValidateFormMessage(data: FormData, k: ErrorKey)
    requires k in ValidateForm(data)
    ensures ValidateForm(data)[k] == Message(k)
  {
    var ms := data.team_members;
    if k in MemberErrors(ms) {
      MemberErrorsMessage(ms, k);
    } else {
      assert k in FieldErrors(data);
    }
  }

  /** Distinct keys read differently in the error record, so the record keyed
      by strings holds exactly the entries of `ValidateForm`. */
  lemma KeyTextInjective(a: ErrorKey, b: ErrorKey)
    ensures KeyText(a) == KeyText(b) <==> a == b
  {
    if KeyText(a) == KeyText(b) {
      match a
      case FieldKey(f) =>
        if b.MemberKey? {
          MemberKeyText(b);
        } else {
          CheckedNameInjective(f, b.field);
        }
      case MemberKey(i, p) =>
        MemberKeyText(a);
        if b.MemberKey? {
          MemberKeysAgree(i, p, b.index, b.part);
        }
    }
  }

  /** Checked fields have distinct names. */
  lemma CheckedNameInjective(f: Checked, g: Checked)
    requires CheckedName(f) == CheckedName(g)
    ensures f == g
  {
    var n := CheckedName(f);
    assert n[1] == CheckedName(g)[1] && |n| == |CheckedName(g)|;
  }

  /** A member key starts with `te`, which no checked field name does. */
  lemma MemberKeyText(k: ErrorKey)
    requires k.MemberKey?
    ensures KeyText(k)[0] == 't' && KeyText(k)[1] == 'e'
    ensures forall f :: KeyText(k) != CheckedName(f)
  {
    forall f ensures KeyText(k) != CheckedName(f) {
      assert CheckedName(f)[0] != 't' || CheckedName(f)[1] != 'e';
    }
  }

  /** The length of the run of decimal digits that starts `w`. */
  function DigitRun(w: string): (n: nat)
    ensures n <= |w|
  {
    if |w| == 0 || !('0' <= w[0] <= '9') then 0 else 1 + DigitRun(w[1..])
  }

  /** In `d.rest` with `d` all digits, the leading digit run is exactly `d`. */
  lemma {:induction false} DigitRunBeforeDot(d: string, rest: string)
    requires forall i :: 0 <= i < |d| ==> '0' <= d[i] <= '9'
    ensures DigitRun(d + "." + rest) == |d|
  {
    if |d| > 0 {
      assert (d + "." + rest)[1..] == d[1..] + "." + rest;
      DigitRunBeforeDot(d[1..], rest);
    }
  }

  /** Equal member keys name the same field of the same row. */
  lemma MemberKeysAgree(i: nat, p: MemberPart, j: nat, q: MemberPart)
    requires KeyText(MemberKey(i, p)) == KeyText(MemberKey(j, q))
    ensures i == j && p == q
  {
    var pre := "team_members.";
    var a := KeyText(MemberKey(i, p));
    var di, dj := NatToString(i), NatToString(j);
    var w := a[|pre|..];
    assert w == di + "." + PartName(p);
    assert w == dj + "." + PartName(q);
    DigitRunBeforeDot(di, PartName(p));
    DigitRunBeforeDot(dj, PartName(q));
    assert di == w[..|di|];
    assert dj == w[..|dj|];
    NatToStringInjective(i, j);
    assert PartName(p) == w[|di| + 1..];
    assert PartName(q) == w[|dj| + 1..];
  }

  /** The form's duration range lies inside the schema's, and misses exactly
      one value the schema accepts: a one-week project. */
  lemma DurationRanges(n: Number)
    ensures DurationOk(n) ==> Schema.WholeIn(Num(n), 1, 12)
    ensures Schema.WholeIn(Num(n), 1, 12) && !DurationOk(n) <==> n == Finite(1.0)
  {
    if Schema.WholeIn(Num(n), 1, 12) && !DurationOk(n) {
      assert n.value.Floor as real == n.value;
      assert n.value.Floor == 1;
    }
  }

  /** A one-week project passes the schema's duration rule but not the form's
      own check. */
  lemma OneWeekRejectedByFormOnly(data: FormData)
    requires data.duration_weeks == Finite(1.0)
    ensures Schema.WholeIn(Num(data.duration_weeks), 1, 12)
    ensures FieldKey(DurationWeeks) in ValidateForm(data)
  {
    DurationRanges(data.duration_weeks);
    assert FieldFails(data, DurationWeeks);
  }

  /** `addTeamMember`: a blank row at the end. */
  function AddTeamMember(ms: seq<FormMember>): (r: seq<FormMember>)
    ensures |r| == |ms| + 1 && r[..|ms|] == ms
    ensures r[|ms|] == FormMember("", "")
  {
    ms + [FormMember("", "")]
  }

  /** `updateTeamMember(index, field, value)` on a copy of the rows; `None` when
      there is no row `index`, where the assignment `copy[index][field]` throws. */
  function UpdateTeamMember(ms: seq<FormMember>, index: int, part: MemberPart, value: string): (r: Option<seq<FormMember>>)
    ensures r.Some? <==> 0 <= index < |ms|
    ensures r.Some? ==> |r.value| == |ms|
    ensures r.Some? ==> forall i :: 0 <= i < |ms| && i != index ==> r.value[i] == ms[i]
    ensures r.Some? && part == NamePart ==> r.value[index] == FormMember(value, ms[index].email)
    ensures r.Some? && part == EmailPart ==> r.value[index] == FormMember(ms[index].name, value)
  {
    if 0 <= index < |ms| then
      var row := ms[index];
      Some(ms[index := if part == NamePart then row.(name := value) else row.(email := value)])
    else None
  }

  /** `removeTeamMember(index)`: the rows at every position but `index`, in
      order, for the `filter` over rows `from` onwards of the original list. */
  function KeepOthers(ms: seq<FormMember>, from: nat, index: int): (r: seq<FormMember>)
    decreases |ms|
    ensures from <= index < from + |ms| ==> r == ms[..index - from] + ms[index - from + 1..]
    ensures !(from <= index < from + |ms|) ==> r == ms
  {
    if |ms| == 0 then []
    else
      var rest := KeepOthers(ms[1..], from + 1, index);
      if from == index then
        assert ms[..0] + ms[1..] == ms[1..];
        rest
      else
        assert from < index < from + |ms| ==> ms[..index - from] == [ms[0]] + ms[1..][..index - from - 1];
        assert ms == [ms[0]] + ms[1..];
        [ms[0]] + rest
  }

  /** `removeTeamMember(index)`. */
  function RemoveTeamMember(ms: seq<FormMember>, index: int): (r: seq<FormMember>)
    ensures 0 <= index < |ms| ==> |r| == |ms| - 1 && r == ms[..index] + ms[index + 1..]
    ensures !(0 <= index < |ms|) ==> r == ms
  {
    KeepOthers(ms, 0, index)
  }

  /** Removing the row just added gives back the original list. */
  lemma RemoveUndoesAdd(ms: seq<FormMember>)
    ensures RemoveTeamMember(AddTeamMember(ms), |ms|) == ms
  {
    assert AddTeamMember(ms)[..|ms|] == ms;
  }

  /** Writing back a row's own value changes nothing. */
  lemma UpdateWithSameValue(ms: seq<FormMember>, index: nat, part: MemberPart)
    requires index < |ms|
    ensures UpdateTeamMember(ms, index, part, if part == NamePart then ms[index].name else ms[index].email) == Some(ms)
  {
    var r := UpdateTeamMember(ms, index, part, if part == NamePart then ms[index].name else ms[index].email);
    assert r.value == ms;
  }

  /** Of two updates to the same field of the same row, the later one wins. */
  lemma LaterUpdateWins(ms: seq<FormMember>, index: nat, part: MemberPart, first: string, second: string)
    requires index < |ms|
    ensures UpdateTeamMember(UpdateTeamMember(ms, index, part, first).value, index, part, second)
            == UpdateTeamMember(ms, index, part, second)
  {
    var once := UpdateTeamMember(ms, index, part, second).value;
    var twice := UpdateTeamMember(UpdateTeamMember(ms, index, part, first).value, index, part, second).value;
    assert twice == once;
  }

  /** A record built by writing `entries` in order, each key mapped to its
      value. */
  function LastWins<K(!new), V>(entries: seq<(K, V)>): (r: map<K, V>)
    decreases |entries|
    ensures forall k :: k in r <==> exists i :: 0 <= i < |entries| && entries[i].0 == k
  {
    if |entries| == 0 then map[]
    else
      var n := |entries| - 1;
      var prev := LastWins(entries[..n]);
      var r := prev[entries[n].0 := entries[n].1];
      assert forall k :: k in r <==> exists i :: 0 <= i < |entries| && entries[i].0 == k by {
        forall k ensures k in r <==> exists i :: 0 <= i < |entries| && entries[i].0 == k {
          if k in prev {
            var i :| 0 <= i < n && entries[..n][i].0 == k;
            assert entries[i].0 == k;
          }
          if exists i :: 0 <= i < |entries| && entries[i].0 == k {
            var i :| 0 <= i < |entries| && entries[i].0 == k;
            if i < n {
              assert entries[..n][i].0 == k;
            }
          }
        }
      }
      r
  }

  /** An entry that no later entry overwrites is the one the record keeps. */
  lemma {:induction false} LastWinsKeepsLast<K(!new), V>(entries: seq<(K, V)>, i: int)
    requires 0 <= i < |entries| && LastOfKey(entries, i)
    ensures entries[i].0 in LastWins(entries) && LastWins(entries)[entries[i].0] == entries[i].1
  {
    var n := |entries| - 1;
    if i < n {
      assert entries[n].0 != entries[i].0;
      forall j | i < j < n ensures entries[..n][j].0 != entries[..n][i].0 {
        assert entries[..n][j] == entries[j];
      }
      LastWinsKeepsLast(entries[..n], i);
      assert entries[..n][i] == entries[i];
    }
  }

  /** No entry after `i` has the same key as entry `i`. */
  predicate LastOfKey<K(==), V>(entries: seq<(K, V)>, i: int)
    requires 0 <= i < |entries|
  {
    forall j :: i < j < |entries| ==> entries[j].0 != entries[i].0
  }

  /** One element of a Zod issue path: an object key or an array index. */
  datatype PathSegment = Key(name: string) | Index(position: nat)

  /** A validation issue: where it is and what it says. */
  datatype Issue = Issue(path: seq<PathSegment>, message: string)

  /** `path.join('.')`. */
  function PathText(path: seq<PathSegment>): (r: string)
    ensures |path| == 0 ==> r == ""
    ensures |path| == 1 ==> r == SegmentText(path[0])
    ensures |path| > 1 ==> r == SegmentText(path[0]) + "." + PathText(path[1..])
  {
    var texts := SegmentTexts(path);
    assert |path| > 1 ==> texts[1..] == SegmentTexts(path[1..]);
    Join(texts, ".")
  }

  /** The strings `join` puts between the dots. */
  function SegmentTexts(path: seq<PathSegment>): (r: seq<string>)
    ensures |r| == |path|
    ensures forall i :: 0 <= i < |path| ==> r[i] == SegmentText(path[i])
  {
    seq(|path|, i requires 0 <= i < |path| => SegmentText(path[i]))
  }

  /** One path segment as text: a key as it is, a position in decimal. */
  function SegmentText(segment: PathSegment): string {
    if segment.Key? then segment.name else NatToString(segment.position)
  }

  /** Each issue as a record entry. */
  function IssueEntries(issues: seq<Issue>): (r: seq<(string, string)>)
    ensures |r| == |issues|
    ensures forall i :: 0 <= i < |issues| ==> r[i] == (PathText(issues[i].path), issues[i].message)
  {
    if |issues| == 0 then [] else [(PathText(issues[0].path), issues[0].message)] + IssueEntries(issues[1..])
  }

  /** The field errors `handleSubmit` shows after a failed schema check: one
      per issue path, the last issue on a path winning. */
  function IssueErrors(issues: seq<Issue>): (errs: map<string, string>)
    ensures forall k :: k in errs <==> exists i :: 0 <= i < |issues| && PathText(issues[i].path) == k
    ensures forall i :: 0 <= i < |issues| && LastOfKey(IssueEntries(issues), i) ==>
              errs[PathText(issues[i].path)] == issues[i].message
  {
    var e := IssueEntries(issues);
    var r := LastWins(e);
    assert forall k :: k in r <==> exists i :: 0 <= i < |issues| && PathText(issues[i].path) == k by {
      forall k ensures k in r <==> exists i :: 0 <= i < |issues| && PathText(issues[i].path) == k {
        if k in r {
          var i :| 0 <= i < |e| && e[i].0 == k;
          assert PathText(issues[i].path) == k;
        }
        if exists i :: 0 <= i < |issues| && PathText(issues[i].path) == k {
          var i :| 0 <= i < |issues| && PathText(issues[i].path) == k;
          assert e[i].0 == k;
        }
      }
    }
    assert forall i :: 0 <= i < |issues| && LastOfKey(e, i) ==> r[PathText(issues[i].path)] == issues[i].message by {
      forall i | 0 <= i < |issues| && LastOfKey(e, i)
        ensures r[PathText(issues[i].path)] == issues[i].message
      {
        LastWinsKeepsLast(e, i);
      }
    }
    r
  }

  /** The answer of `POST /api/storage` as the page sees it. */
  datatype Response = Response(ok: bool, status: nat, contentType: string, json: Option<Value>)

  /** `data`: the parsed body when the response says it is JSON and it parses,
      otherwise `null`. */
  function BodyData(resp: Response): (data: Value)
    ensures data != Null ==> resp.json == Some(data) && Contains(resp.contentType, "application/json")
    ensures Contains(resp.contentType, "application/json") && resp.json.Some? ==> data == resp.json.value
    ensures !Contains(resp.contentType, "application/json") || resp.json.None? ==> data == Null
  {
    if Contains(resp.contentType, "application/json") && resp.json.Some? then resp.json.value else Null
  }

  /** What the page shows after pressing submit. */
  datatype SubmitResult =
    | Blocked(issueErrors: map<string, string>)
    | Submitted
    | Rejected(message: Value, detailErrors: map<string, Value>)
    | Crashed(error: TypeError)

  /** The entries `details.forEach` writes: items with a truthy `field`. */
  function DetailEntries(details: seq<Value>, numberText: Number -> string): (r: Result<seq<(string, Value)>, TypeError>)
    ensures r.Ok? <==> forall i :: 0 <= i < |details| ==> !details[i].Undefined? && !details[i].Null?
    ensures r.Ok? ==> |r.value| <= |details|
    ensures r.Ok? ==> forall e :: e in r.value <==>
              (exists i :: 0 <= i < |details| && Truthy(Field(details[i], "field"))
                           && e == (ToJsString(Field(details[i], "field"), numberText), Field(details[i], "message")))
  {
    if |details| == 0 then Ok([])
    else if details[0].Undefined? || details[0].Null? then Err(CannotReadProperty("field"))
    else match DetailEntries(details[1..], numberText)
      case Err(e) => Err(e)
      case Ok(rest) =>
        var r := DetailEntry(details[0], numberText) + rest;
        assert forall i :: 0 <= i < |details| - 1 ==> details[1..][i] == details[i + 1];
        Ok(r)
  }

  /** The entry one detail writes: none when its `field` is falsy. */
  function DetailEntry(d: Value, numberText: Number -> string): (r: seq<(string, Value)>)
    requires !d.Undefined? && !d.Null?
    ensures |r| <= 1
    ensures |r| == 1 <==> Truthy(Field(d, "field"))
    ensures |r| == 1 ==> r[0] == (ToJsString(Field(d, "field"), numberText), Field(d, "message"))
  {
    var f := Field(d, "field");
    if Truthy(f) then [(ToJsString(f, numberText), Field(d, "message"))] else []
  }

  /** A list of details reads as its first detail's entry followed by the
      entries of the rest. */
  lemma DetailEntriesCons(a: seq<Value>, numberText: Number -> string)
    requires |a| > 0 && DetailEntries(a, numberText).Ok?
    ensures !a[0].Undefined? && !a[0].Null? && DetailEntries(a[1..], numberText).Ok?
    ensures DetailEntries(a, numberText).value
            == DetailEntry(a[0], numberText) + DetailEntries(a[1..], numberText).value
  {
    forall i | 0 <= i < |a[1..]| ensures !a[1..][i].Undefined? && !a[1..][i].Null? {
      assert a[1..][i] == a[i + 1];
    }
  }

  /** One detail gives exactly its own entry. */
  lemma DetailEntriesOne(d: Value, numberText: Number -> string)
    requires !d.Undefined? && !d.Null?
    ensures DetailEntries([d], numberText) == Ok(DetailEntry(d, numberText))
  {
    assert [d][1..] == [];
    assert DetailEntries([d][1..], numberText) == Ok([]);
    assert DetailEntry(d, numberText) + [] == DetailEntry(d, numberText);
  }

  /** The details are read one by one, in order: the entries of a
      concatenation are the entries of its parts, one after the other. */
  lemma {:induction false} DetailEntriesAppend(a: seq<Value>, b: seq<Value>, numberText: Number -> string)
    requires DetailEntries(a, numberText).Ok? && DetailEntries(b, numberText).Ok?
    ensures DetailEntries(a + b, numberText) == Ok(DetailEntries(a, numberText).value + DetailEntries(b, numberText).value)
    decreases |a|
  {
    if |a| > 0 {
      DetailEntriesCons(a, numberText);
      assert (a + b)[1..] == a[1..] + b;
      DetailEntriesAppend(a[1..], b, numberText);
      DetailEntriesAppendStep(a, b, numberText);
    } else {
      assert a + b == b;
      assert DetailEntries(a, numberText).value == [];
      assert [] + DetailEntries(b, numberText).value == DetailEntries(b, numberText).value;
    }
  }

  /** The step of `DetailEntriesAppend`: once the tail of `a` followed by `b`
      reads as their two entry lists, so does all of `a` followed by `b`. */
  lemma DetailEntriesAppendStep(a: seq<Value>, b: seq<Value>, numberText: Number -> string)
    requires |a| > 0 && DetailEntries(a, numberText).Ok? && DetailEntries(b, numberText).Ok?
    requires DetailEntries(a[1..] + b, numberText).Ok?
    requires DetailEntries(a[1..] + b, numberText).value
             == DetailEntries(a[1..], numberText).value + DetailEntries(b, numberText).value
    ensures DetailEntries(a + b, numberText) == Ok(DetailEntries(a, numberText).value + DetailEntries(b, numberText).value)
  {
    DetailEntriesCons(a, numberText);
    DetailEntriesUnfoldAppend(a, b, numberText);
    Regroup(DetailEntry(a[0], numberText), DetailEntries(a[1..], numberText).value, DetailEntries(b, numberText).value);
  }

  /** `DetailEntriesUnfold` for a list that starts with `a`. */
  lemma DetailEntriesUnfoldAppend(a: seq<Value>, b: seq<Value>, numberText: Number -> string)
    requires |a| > 0 && !a[0].Undefined? && !a[0].Null? && DetailEntries(a[1..] + b, numberText).Ok?
    ensures DetailEntries(a + b, numberText) == Ok(DetailEntry(a[0], numberText) + DetailEntries(a[1..] + b, numberText).value)
  {
    var ab := a + b;
    assert ab[0] == a[0];
    assert ab[1..] == a[1..] + b;
    DetailEntriesUnfold(ab, numberText);
  }

  /** A list whose first detail is an object reads as that detail's entry
      followed by the entries of the rest. */
  lemma DetailEntriesUnfold(s: seq<Value>, numberText: Number -> string)
    requires |s| > 0 && !s[0].Undefined? && !s[0].Null? && DetailEntries(s[1..], numberText).Ok?
    ensures DetailEntries(s, numberText) == Ok(DetailEntry(s[0], numberText) + DetailEntries(s[1..], numberText).value)
  {
  }

  /** `handleSubmit` once `issues` are the schema check's findings and, when
      there are none, `resp` is the server's answer. */
  function HandleSubmit(issues: seq<Issue>, resp: Response, numberText: Number -> string): (r: SubmitResult)
    ensures |issues| > 0 <==> r.Blocked?
    ensures r.Blocked? ==> r.issueErrors == IssueErrors(issues)
    ensures |issues| == 0 ==>
              (r.Submitted? <==> resp.ok || (Truthy(BodyData(resp)) && Truthy(Field(BodyData(resp), "success"))))
    ensures r.Rejected? ==> !resp.ok
    ensures r.Rejected? && Truthy(BodyData(resp)) && Truthy(Field(BodyData(resp), "error")) ==>
              r.message == Field(BodyData(resp), "error")
    ensures r.Rejected? && Truthy(BodyData(resp)) && Field(BodyData(resp), "details").Arr? ==>
              var entries := DetailEntries(Field(BodyData(resp), "details").items, numberText);
              entries.Ok? && r.detailErrors == LastWins(entries.value)
    ensures r.Rejected? && !(Truthy(BodyData(resp)) && Field(BodyData(resp), "details").Arr?) ==>
              r.detailErrors == map[]
    ensures r.Rejected? && !(Truthy(BodyData(resp)) && Truthy(Field(BodyData(resp), "error"))) ==>
              r.message == Str("Submission failed (" + NatToString(resp.status) + ")")
    ensures r.Crashed? <==>
              && |issues| == 0 && !r.Submitted?
              && Truthy(BodyData(resp)) && Field(BodyData(resp), "details").Arr?
              && exists i :: 0 <= i < |Field(BodyData(resp), "details").items|
                             && Field(BodyData(resp), "details").items[i] in {Undefined, Null}
  {
    if |issues| > 0 then Blocked(IssueErrors(issues))
    else
      var data := BodyData(resp);
      if Truthy(data) && Truthy(Field(data, "success")) then Submitted
      else if resp.ok then Submitted
      else
        var msg := if Truthy(data) && Truthy(Field(data, "error")) then Field(data, "error")
                   else Str("Submission failed (" + NatToString(resp.status) + ")");
        if Truthy(data) && Field(data, "details").Arr? then
          match DetailEntries(Field(data, "details").items, numberText)
          case Err(e) => Crashed(e)
          case Ok(entries) => Rejected(msg, LastWins(entries))
        else Rejected(msg, map[])
  }

  /** Two details on the same field: the record shows the later message. */
  lemma LaterDetailWins(field: string, first: Value, second: Value, status: nat, numberText: Number -> string)
    requires field != ""
    ensures var d1 := Obj(map["field" := Str(field), "message" := first]);
            var d2 := Obj(map["field" := Str(field), "message" := second]);
            var data := Obj(map["details" := Arr([d1, d2])]);
            var r := HandleSubmit([], Response(false, status, "application/json", Some(data)), numberText);
            r.Rejected? && r.detailErrors == map[field := second]
  {
    var d1 := Obj(map["field" := Str(field), "message" := first]);
    var d2 := Obj(map["field" := Str(field), "message" := second]);
    var data := Obj(map["details" := Arr([d1, d2])]);
    var resp := Response(false, status, "application/json", Some(data));
    JsonContentType();
    assert BodyData(resp) == data;
    assert Field(data, "details") == Arr([d1, d2]);
    assert Field(data, "success") == Undefined;
    var entries := [(field, first), (field, second)];
    TwoDetailsSameField(field, first, second, numberText);
    LastWinsSameKey(field, first, second);
  }

  /** Two details naming the same field give their two entries in order. */
  lemma TwoDetailsSameField(field: string, first: Value, second: Value, numberText: Number -> string)
    requires field != ""
    ensures var d1 := Obj(map["field" := Str(field), "message" := first]);
            var d2 := Obj(map["field" := Str(field), "message" := second]);
            DetailEntries([d1, d2], numberText) == Ok([(field, first), (field, second)])
  {
    var d1 := Obj(map["field" := Str(field), "message" := first]);
    var d2 := Obj(map["field" := Str(field), "message" := second]);
    assert Field(d1, "field") == Str(field) && Field(d1, "message") == first;
    assert Field(d2, "field") == Str(field) && Field(d2, "message") == second;
    DetailEntriesOne(d1, numberText);
    DetailEntriesOne(d2, numberText);
    assert DetailEntry(d1, numberText) == [(field, first)];
    assert DetailEntry(d2, numberText) == [(field, second)];
    assert [d1, d2] == [d1] + [d2];
    DetailEntriesAppend([d1], [d2], numberText);
    assert [(field, first)] + [(field, second)] == [(field, first), (field, second)];
  }

  /** Of two entries for one key, the later one is kept. */
  lemma LastWinsSameKey<V>(k: string, first: V, second: V)
    ensures LastWins([(k, first), (k, second)]) == map[k := second]
  {
    var entries := [(k, first), (k, second)];
    LastWinsKeepsLast(entries, 1);
    var errs := LastWins(entries);
    assert errs.Keys == {k};
  }

  /** The JSON content type contains itself, so a JSON response is read. */
  lemma JsonContentType()
    ensures Contains("application/json", "application/json")
  {
    assert OccursAt("application/json", "application/json", 0);
  }
}

=== FILE: team.dfy ===
/** `parseTeam` of the join route: the normalisation of a stored `team_members`
    value, which is either the structured list or the legacy text block of
    `NAME <EMAIL>` lines, into one list of `{name, email}` entries. */
module Team {
  import opened Wrappers
  import opened JsText
  import opened JsValue

  /** One normalised entry. Names and emails are whatever values the stored list
      held; from the legacy text they are always strings. */
  datatype Member = Member(name: Value, email: Value)

  predicate NoLineTerminator(s: string) {
    forall i :: 0 <= i < |s| ==> !IsLineTerminator(s[i])
  }

  /** The pattern `^(.*)\s*<([^>]+)>$` matches `m` with group 1 ending at `g` and
      the `<` at `k`: group 1 is `m[..g]`, group 2 is `m[k + 1..|m| - 1]`. */
  ghost predicate MatchesAt(m: string, g: nat, k: nat) {
    && g <= k && k + 3 <= |m|
    && NoLineTerminator(m[..g])
    && AllSpace(m[g..k])
    && m[k] == '<'
    && m[|m| - 1] == '>'
    && '>' !in m[k + 1..|m| - 1]
  }

  /** The position of the `<` when group 1 ends at `g`, if the rest of the
      pattern matches there. */
  function MatchWithHead(m: string, g: nat): (r: Option<nat>)
    requires g <= |m|
    ensures r.Some? ==> MatchesAt(m, g, r.value)
    ensures r.None? ==> forall k: nat :: !MatchesAt(m, g, k)
  {
    if !NoLineTerminator(m[..g]) then None
    else
      var k := g + LeadingSpaces(m[g..]);
      SuffixPrefix(m, g, k - g);
      if k + 3 <= |m| && m[k] == '<' && m[|m| - 1] == '>' && '>' !in m[k + 1..|m| - 1] then Some(k)
      else
        assert forall k': nat :: !MatchesAt(m, g, k') by {
          forall k': nat | MatchesAt(m, g, k') ensures false {
            var t := m[g..];
            assert t[..k' - g] == m[g..k'];
            assert t[k' - g] == m[k'] == '<' && !IsSpace('<');
            LeadingSpacesExact(t, k' - g);
          }
        }
        None
  }

  /** A prefix of a suffix is a slice. */
  lemma SuffixPrefix(m: string, g: nat, n: nat)
    requires g + n <= |m|
    ensures m[g..][..n] == m[g..g + n]
  {
  }

  /** The backtracking search of the greedy `(.*)`: the longest group 1 that is at
      most `g` characters long and lets the rest of the pattern match. */
  function Search(m: string, g: nat): (r: Option<(nat, nat)>)
    requires g <= |m|
    decreases g
    ensures r.Some? ==> r.value.0 <= g && MatchesAt(m, r.value.0, r.value.1)
    ensures r.Some? ==> forall g': nat, k: nat :: r.value.0 < g' <= g ==> !MatchesAt(m, g', k)
    ensures r.None? ==> forall g': nat, k: nat :: g' <= g ==> !MatchesAt(m, g', k)
  {
    match MatchWithHead(m, g)
    case Some(k) => Some((g, k))
    case None => if g == 0 then None else Search(m, g - 1)
  }

  /** The two groups of a successful match. */
  datatype LineMatch = LineMatch(head: string, address: string)

  /** `m.match(/^(.*)\s*<([^>]+)>$/)`: the match the regular-expression engine
      returns (the one with the longest group 1), or nothing. */
  function LegacyMatch(m: string): (r: Option<LineMatch>)
    ensures r.Some? ==> exists g: nat, k: nat :: MatchesAt(m, g, k)
                          && r.value == LineMatch(m[..g], m[k + 1..|m| - 1])
                          && forall g': nat, k': nat :: MatchesAt(m, g', k') ==> g' <= g
    ensures r.None? ==> forall g: nat, k: nat :: !MatchesAt(m, g, k)
  {
    match Search(m, |m|)
    case None => None
    case Some((g, k)) => Some(LineMatch(m[..g], m[k + 1..|m| - 1]))
  }

  /** One line of the legacy text: a trimmed `NAME <EMAIL>` gives both parts
      trimmed; anything else is all name with an empty email. */
  function ParseLine(line: string): (r: Member)
    ensures r.name.Str? && r.email.Str?
    ensures LegacyMatch(Trim(line)).None? ==> r == Member(Str(Trim(line)), Str(""))
    ensures LegacyMatch(Trim(line)).Some? ==>
              var lm := LegacyMatch(Trim(line)).value;
              r == Member(Str(Trim(lm.head)), Str(Trim(lm.address)))
  {
    var m := Trim(line);
    match LegacyMatch(m)
    case Some(lm) => Member(Str(Trim(lm.head)), Str(Trim(lm.address)))
    case None => Member(Str(m), Str(""))
  }

  /** A line `HEAD<ADDR>` whose address holds neither `<` nor `>` matches with
      exactly those two groups. */
  lemma LegacyMatchPlain(head: string, addr: string)
    requires NoLineTerminator(head) && addr != "" && '<' !in addr && '>' !in addr
    ensures LegacyMatch(head + "<" + addr + ">") == Some(LineMatch(head, addr))
  {
    var m := head + "<" + addr + ">";
    var g := |head|;
    assert m[..g] == head;
    assert m[g..g] == "";
    assert m[g + 1..|m| - 1] == addr;
    assert MatchesAt(m, g, g);
    forall g': nat, k: nat | MatchesAt(m, g', k) && g <= g' ensures g' == g && k == g {
      assert m[g + 1..|m| - 1] == addr;
    }
  }

  /** A trimmed line without `<` is all name, with an empty email. */
  lemma ParseLineWithoutAngle(line: string)
    requires '<' !in Trim(line)
    ensures ParseLine(line) == Member(Str(Trim(line)), Str(""))
  {
  }

  /** A trimmed line `NAME <EMAIL>` with a plain address gives the trimmed name and
      the trimmed email. */
  lemma ParseLineWithAddress(line: string, head: string, addr: string)
    requires Trim(line) == head + "<" + addr + ">"
    requires NoLineTerminator(head) && addr != "" && '<' !in addr && '>' !in addr
    ensures ParseLine(line) == Member(Str(Trim(head)), Str(Trim(addr)))
  {
    LegacyMatchPlain(head, addr);
  }

  /** The entry format `NAME <EMAIL>` reads back as the name and email it was
      written from. */
  lemma ParseEntryLine(name: string, addr: string)
    requires name != "" && !IsSpace(name[0]) && !IsSpace(name[|name| - 1]) && NoLineTerminator(name)
    requires addr != "" && !IsSpace(addr[0]) && !IsSpace(addr[|addr| - 1])
    requires '<' !in addr && '>' !in addr
    ensures ParseLine(name + " <" + addr + ">") == Member(Str(name), Str(addr))
  {
    var line := name + " <" + addr + ">";
    EntryLineShape(name, addr);
    TrimUnpadded(line);
    TrimTrailingBlank(name);
    TrimUnpadded(addr);
    ParseLineWithAddress(line, name + " ", addr);
  }

  /** The entry line is the padded name followed by the bracketed address, and
      starts and ends with something other than whitespace. */
  lemma EntryLineShape(name: string, addr: string)
    requires name != "" && !IsSpace(name[0]) && NoLineTerminator(name)
    ensures var line := name + " <" + addr + ">";
            && line == (name + " ") + "<" + addr + ">"
            && line != "" && !IsSpace(line[0]) && !IsSpace(line[|line| - 1])
            && NoLineTerminator(name + " ")
  {
    var line := name + " <" + addr + ">";
    assert line[0] == name[0] && line[|line| - 1] == '>';
    var padded := name + " ";
    assert forall i :: 0 <= i < |name| ==> padded[i] == name[i];
  }

  /** A bare name without `<` reads back as that name with an empty email. */
  lemma ParseBareName(name: string)
    requires name != "" && !IsSpace(name[0]) && !IsSpace(name[|name| - 1]) && '<' !in name
    ensures ParseLine(name) == Member(Str(name), Str(""))
  {
    TrimUnpadded(name);
    ParseLineWithoutAngle(name);
  }

  /** `.filter(x => x.name)`: drop entries whose name is the empty string. */
  function KeepNamed(ms: seq<Member>): (r: seq<Member>)
    requires forall i :: 0 <= i < |ms| ==> ms[i].name.Str?
    ensures |r| <= |ms|
    ensures forall i :: 0 <= i < |r| ==> r[i].name.Str? && r[i].name.s != "" && r[i] in ms
    ensures forall i :: 0 <= i < |ms| && ms[i].name.s != "" ==> ms[i] in r
  {
    if |ms| == 0 then []
    else if ms[0].name.s == "" then KeepNamed(ms[1..])
    else [ms[0]] + KeepNamed(ms[1..])
  }

  /** A single entry is kept exactly when its name is not empty. */
  lemma KeepNamedOne(m: Member)
    requires m.name.Str?
    ensures KeepNamed([m]) == if m.name.s == "" then [] else [m]
  {
    assert [m][1..] == [];
  }

  /** The filter works entry by entry: filtering a concatenation concatenates the
      filtered parts, so the kept entries stay in order and duplicates survive. */
  lemma {:induction false} KeepNamedAppend(a: seq<Member>, b: seq<Member>)
    requires forall i :: 0 <= i < |a| ==> a[i].name.Str?
    requires forall i :: 0 <= i < |b| ==> b[i].name.Str?
    ensures KeepNamed(a + b) == KeepNamed(a) + KeepNamed(b)
    decreases |a|
  {
    if |a| > 0 {
      assert (a + b)[0] == a[0];
      assert (a + b)[1..] == a[1..] + b;
      KeepNamedAppend(a[1..], b);
    } else {
      assert a + b == b;
    }
  }

  /** The entries parsed from the lines of the legacy text, before filtering. */
  function ParseLines(lines: seq<string>): (r: seq<Member>)
    ensures |r| == |lines|
    ensures forall i :: 0 <= i < |r| ==> r[i] == ParseLine(lines[i])
  {
    MapLines(ParseLine, lines)
  }

  /** `lines.map(parse)`. */
  function MapLines(parse: string -> Member, lines: seq<string>): (r: seq<Member>)
    ensures |r| == |lines|
    ensures forall i :: 0 <= i < |r| ==> r[i] == parse(lines[i])
  {
    if |lines| == 0 then []
    else
      var rest := lines[1..];
      assert forall i :: 1 <= i < |lines| ==> lines[i] == rest[i - 1];
      [parse(lines[0])] + MapLines(parse, rest)
  }

  lemma MapLinesAppend(parse: string -> Member, a: seq<string>, b: seq<string>)
    ensures MapLines(parse, a + b) == MapLines(parse, a) + MapLines(parse, b)
  {
  }

  /** `item => ({ name: item.name || item, email: item.email || '' })`; reading a
      property of `null` or `undefined` throws. */
  function NormaliseItem(item: Value): (r: Result<Member, TypeError>)
    ensures r.Err? <==> item.Undefined? || item.Null?
    ensures r.Ok? && Truthy(Field(item, "name")) ==> r.value.name == Field(item, "name")
    ensures r.Ok? && !Truthy(Field(item, "name")) ==> r.value.name == item
    ensures r.Ok? ==> Truthy(r.value.email) || r.value.email == Str("")
    ensures r.Ok? && Truthy(Field(item, "email")) ==> r.value.email == Field(item, "email")
    ensures r.Ok? && !Truthy(Field(item, "email")) ==> r.value.email == Str("")
  {
    if item.Undefined? || item.Null? then Err(CannotReadProperty("name"))
    else Ok(Member(Or(Field(item, "name"), item), Or(Field(item, "email"), Str(""))))
  }

  function NormaliseItems(items: seq<Value>): (r: Result<seq<Member>, TypeError>)
    ensures r.Ok? <==> forall i :: 0 <= i < |items| ==> !items[i].Undefined? && !items[i].Null?
    ensures r.Ok? ==> |r.value| == |items|
    ensures r.Ok? ==> forall i :: 0 <= i < |items| ==> Ok(r.value[i]) == NormaliseItem(items[i])
  {
    if |items| == 0 then Ok([])
    else match NormaliseItem(items[0])
      case Err(e) => Err(e)
      case Ok(m) =>
        match NormaliseItems(items[1..])
        case Err(e) => Err(e)
        case Ok(ms) => Ok([m] + ms)
  }

  /** `parseTeam(tm)`. */
  function ParseTeam(tm: Value): (r: Result<seq<Member>, TypeError>)
    ensures !Truthy(tm) ==> r == Ok([])
    ensures !tm.Arr? && !tm.Str? ==> r == Ok([])
    ensures r.Err? ==> tm.Arr? && exists i :: 0 <= i < |tm.items| && (tm.items[i].Undefined? || tm.items[i].Null?)
    ensures tm.Arr? && r.Ok? ==> |r.value| == |tm.items|
    ensures tm.Arr? ==> (r.Ok? <==> forall i :: 0 <= i < |tm.items| ==> !tm.items[i].Undefined? && !tm.items[i].Null?)
    ensures tm.Arr? && r.Ok? ==> forall i :: 0 <= i < |tm.items| ==> Ok(r.value[i]) == NormaliseItem(tm.items[i])
    ensures tm.Str? ==> r.Ok? && |r.value| <= NewlineCount(tm.s) + 1
    ensures tm.Str? ==> forall i :: 0 <= i < |r.value| ==>
              r.value[i].name.Str? && r.value[i].name.s != "" && r.value[i].email.Str?
    ensures tm.Str? && Truthy(tm) ==> r == Ok(ParseText(tm.s))
  {
    if !Truthy(tm) then Ok([])
    else match tm
      case Arr(items) => NormaliseItems(items)
      case Str(text) => Ok(ParseText(text))
      case _ => Ok([])
  }

  /** The legacy text branch: the named entries of its lines. */
  function ParseText(text: string): (r: seq<Member>)
    ensures |r| <= NewlineCount(text) + 1
    ensures forall i :: 0 <= i < |r| ==> r[i].name.Str? && r[i].name.s != "" && r[i].email.Str?
  {
    var ms := ParseLines(SplitLines(text));
    StringEntriesKept(ms);
    KeepNamed(ms)
  }

  /** One line without a line break gives its entry when the entry has a name,
      and nothing otherwise. */
  lemma ParseTextSingle(line: string)
    requires '\n' !in line && '\r' !in line
    ensures ParseText(line) == if ParseLine(line).name.s == "" then [] else [ParseLine(line)]
  {
    SplitLinesSingle(line);
    assert ParseLines([line]) == [ParseLine(line)];
    KeepNamedOne(ParseLine(line));
  }

  /** The text's entries are its first line's entries followed by the rest's:
      lines are read in order and each on its own. */
  lemma ParseTextFirstLine(a: string, b: string)
    requires '\n' !in a && '\r' !in a
    ensures ParseText(a + "\n" + b) == ParseText(a) + ParseText(b)
  {
    SplitLinesFirst(a, b);
    SplitLinesSingle(a);
    var rest := SplitLines(b);
    ParseLinesAppend([a], rest);
    KeepNamedAppend(ParseLines([a]), ParseLines(rest));
  }

  /** Parsing the lines of a concatenation concatenates the parsed parts. */
  lemma ParseLinesAppend(a: seq<string>, b: seq<string>)
    ensures ParseLines(a + b) == ParseLines(a) + ParseLines(b)
    ensures forall i :: 0 <= i < |ParseLines(a)| ==> ParseLines(a)[i].name.Str?
    ensures forall i :: 0 <= i < |ParseLines(b)| ==> ParseLines(b)[i].name.Str?
  {
    MapLinesAppend(ParseLine, a, b);
  }

  /** Entries with string names and emails keep string emails through the filter. */
  lemma StringEntriesKept(ms: seq<Member>)
    requires forall i :: 0 <= i < |ms| ==> ms[i].name.Str? && ms[i].email.Str?
    ensures forall i :: 0 <= i < |KeepNamed(ms)| ==> KeepNamed(ms)[i].email.Str?
  {
    var r := KeepNamed(ms);
    forall i | 0 <= i < |r| ensures r[i].email.Str? {
      var j :| 0 <= j < |ms| && ms[j] == r[i];
    }
  }

  /** On a list, entry `i` takes its name from `item.name`, or is the item itself
      when that is missing or falsy, and its email from `item.email`, or `''`. */
  lemma ParseTeamList(items: seq<Value>, i: nat)
    requires ParseTeam(Arr(items)).Ok? && i < |items|
    ensures var m := ParseTeam(Arr(items)).value[i];
            && m.name == (if Truthy(Field(items[i], "name")) then Field(items[i], "name") else items[i])
            && m.email == (if Truthy(Field(items[i], "email")) then Field(items[i], "email") else Str(""))
  {
  }

  /** How the normalised list is written back: `{name, email}` objects. */
  function MembersToValue(ms: seq<Member>): (v: Value)
    ensures v.Arr? && |v.items| == |ms|
    ensures forall i :: 0 <= i < |ms| ==> v.items[i].Obj? && v.items[i].fields.Keys == {"name", "email"}
    ensures forall i :: 0 <= i < |ms| ==> Field(v.items[i], "name") == ms[i].name
    ensures forall i :: 0 <= i < |ms| ==> Field(v.items[i], "email") == ms[i].email
  {
    Arr(seq(|ms|, i requires 0 <= i < |ms| => Obj(map["name" := ms[i].name, "email" := ms[i].email])))
  }

  /** Every name is truthy and every email is truthy or `''`. */
  predicate Settled(ms: seq<Member>) {
    forall i :: 0 <= i < |ms| ==>
      Truthy(ms[i].name) && (Truthy(ms[i].email) || ms[i].email == Str(""))
  }

  /** Normalising the structured form of an already normalised list changes
      nothing, once every name is truthy. */
  lemma NormaliseStructuredIdempotent(ms: seq<Member>)
    requires Settled(ms)
    ensures ParseTeam(MembersToValue(ms)) == Ok(ms)
  {
    var v := MembersToValue(ms);
    forall i | 0 <= i < |ms| ensures NormaliseItem(v.items[i]) == Ok(ms[i]) {
      assert v.items[i] == Obj(map["name" := ms[i].name, "email" := ms[i].email]);
    }
    var r := NormaliseItems(v.items);
    assert r.Ok?;
    assert r.value == ms;
  }

  /** The legacy text always normalises to a settled list, so it migrates to the
      structured form without further change. */
  lemma LegacyTextMigrates(text: string)
    ensures ParseTeam(MembersToValue(ParseTeam(Str(text)).value)) == ParseTeam(Str(text))
  {
    var r := ParseTeam(Str(text));
    assert r.Ok?;
    var ms := r.value;
    NamedStringsSettled(ms);
    NormaliseStructuredIdempotent(ms);
    assert r == Ok(ms);
  }

  /** Entries with a non-empty string name and a string email are settled. */
  lemma NamedStringsSettled(ms: seq<Member>)
    requires forall i :: 0 <= i < |ms| ==> ms[i].name.Str? && ms[i].name.s != "" && ms[i].email.Str?
    ensures Settled(ms)
  {
  }

  /** A falsy list item is not settled: `[""]` normalises to a member named `""`,
      and normalising that again gives the entry object itself as the name. */
  lemma FalsyItemNotIdempotent()
    ensures ParseTeam(Arr([Str("")])) == Ok([Member(Str(""), Str(""))])
    ensures ParseTeam(MembersToValue([Member(Str(""), Str(""))])) != Ok([Member(Str(""), Str(""))])
  {
    assert NormaliseItem(Str("")) == Ok(Member(Str(""), Str("")));
    assert [Str("")][1..] == [];
    assert NormaliseItems([Str("")]) == Ok([Member(Str(""), Str(""))] + []);
    assert [Member(Str(""), Str(""))] + [] == [Member(Str(""), Str(""))];
    assert ParseTeam(Arr([Str("")])) == NormaliseItems([Str("")]);
    var v := MembersToValue([Member(Str(""), Str(""))]);
    assert v.items[0] == Obj(map["name" := Str(""), "email" := Str("")]);
    assert ParseTeam(v).value[0].name == v.items[0];
  }

  /** The legacy text `Alice <a@x.com>` / `Bob` normalises to Alice with her
      address and Bob with none. */
  lemma LegacyTextExample()
    ensures ParseTeam(Str("Alice <a@x.com>\nBob"))
         == Ok([Member(Str("Alice"), Str("a@x.com")), Member(Str("Bob"), Str(""))])
  {
    var alice := Member(Str("Alice"), Str("a@x.com"));
    var bob := Member(Str("Bob"), Str(""));
    ExampleLines();
    ExampleAlice();
    ExampleBob();
    ParseLinesPair("Alice <a@x.com>", "Bob");
    KeepNamedPair(alice, bob);
    ParseTeamText("Alice <a@x.com>\nBob", ["Alice <a@x.com>", "Bob"], [alice, bob]);
  }

  lemma ParseTeamText(text: string, lines: seq<string>, ms: seq<Member>)
    requires text != "" && SplitLines(text) == lines && ParseLines(lines) == ms
    ensures ParseTeam(Str(text)) == Ok(KeepNamed(ms))
  {
  }

  /** Two lines give the entries of both, in order. */
  lemma ParseLinesPair(a: string, b: string)
    ensures ParseLines([a, b]) == [ParseLine(a), ParseLine(b)]
  {
    MapLinesPair(ParseLine, a, b);
  }

  lemma MapLinesPair(parse: string -> Member, a: string, b: string)
    ensures MapLines(parse, [a, b]) == [parse(a), parse(b)]
  {
    assert [a, b][1..] == [b] && [b][1..] == [];
  }

  /** Two named entries both survive the filter, in order. */
  lemma KeepNamedPair(x: Member, y: Member)
    requires x.name.Str? && x.name.s != "" && y.name.Str? && y.name.s != ""
    ensures KeepNamed([x, y]) == [x, y]
  {
    assert [x, y][1..] == [y] && [y][1..] == [];
    assert KeepNamed([y]) == [y] + KeepNamed([]);
  }

  lemma ExampleLines()
    ensures SplitLines("Alice <a@x.com>\nBob") == ["Alice <a@x.com>", "Bob"]
  {
    assert "Alice <a@x.com>\nBob" == "Alice <a@x.com>" + "\n" + "Bob";
    SplitLinesTwo("Alice <a@x.com>", "Bob");
  }

  lemma ExampleAlice()
    ensures ParseLine("Alice <a@x.com>") == Member(Str("Alice"), Str("a@x.com"))
  {
    assert "Alice <a@x.com>" == "Alice" + " <" + "a@x.com" + ">";
    ParseEntryLine("Alice", "a@x.com");
  }

  lemma ExampleBob()
    ensures ParseLine("Bob") == Member(Str("Bob"), Str(""))
  {
    ParseBareName("Bob");
  }
}

=== FILE: wrappers.dfy ===
/** Option and Result values used throughout the model in place of JavaScript's
    `undefined` and thrown exceptions. */
module Wrappers {

  /** A value that may be absent. */
  datatype Option<+T> = None | Some(value: T) {

    /** The carried value, or `default` when there is none. */
    function GetOr(default: T): T {
      match this
      case Some(v) => v
      case None => default
    }
  }

  /** The outcome of a computation that may fail with an error `E`. */
  datatype Result<+T, +E> = Ok(value: T) | Err(error: E)
}
